=== FILE: README.md ===
# datasimple, modelled in Dafny

datasimple is a small Python toolkit for moving business data between
spreadsheets, fixed-width SQL reports, sqlite and the terminal. Its core is a
set of pure transformations that sit behind file, workbook, database and
terminal I/O. This project models those transformations as pure Dafny
functions over strings (`seq<char>`) and a tagged cell `Value`
(Int | Real | Str | Null | Date), and proves what they promise.

| module | file | source |
|---|---|---|
| `Base` | base.dfy | `Option`, `Result`, `Outcome` (value or exception) and first-match lookup in an ordered table (a Python dict literal or config section) |
| `Text` | text.dfy | the `str` builtins the source relies on: `strip`, `split()`, `split(c)`, `join`, `upper`, `lower`, `replace(c, '')` (ASCII only) |
| `Core` | core.dfy | datasimple/core.py: `comppart`, `compact`, `first`, `first_in`, `kv`, `norm_ws` |
| `Report` | report.dfy | bin/rpt-export.py: `ReportProcessor`, which turns a fixed-width SQL report into rows |
| `Cells` | cells.dfy | datasimple/xl.py: the cell normaliser `_val` and the coercions `_int` and `_acct` |
| `Glob` | glob.dfy | the `*`/`?` subset of `fnmatch` |
| `Mapper` | mapper.dfy | datasimple/xl.py: `ValueMapper.__init__`, `create_mapper` and its inner column mapper |
| `Params` | params.dfy | datasimple/xl.py: the key/value fold of `ics_report_params` |
| `Sheet` | sheet.dfy | datasimple/xl.py: the header and data cell layout of `XlsxImporter.main`, with transposition |
| `Dates` | dates.dfy | datasimple/sqlite.py: `_db_customdate_parse`, `_db_datetime`, `_db_comppart` |
| `Template` | template.dfy | bin/template-expand.py: `parse_args` and the environment/command-line merge |
| `Cli` | cli.dfy | datasimple/cli.py: colour-tag rewriting, the `LOG_LEVEL` and `COLOR_DEFAULT` settings, `log`/`warn` gating |
| `Sample` | sample.dfy | bin/sample.py: argument checks and the per-line head/tail/sample decision |

Conventions:
- An exception the source raises and does not catch is `Raised` (of `Outcome`) or a named error case of a `Result`.
- Python's `float()` on a string is the parameter `parse: string -> Option<real>`, an arbitrary partial function. Example lemmas that need concrete parses assume only what `float()` does on the strings they use (`Mapper.ParsesExamples`).
- `random.random()` is the parameter `draw: nat -> real`: `draw(j)` is the value of the j-th call.
- A spreadsheet configuration is already parsed: a map from section name to an ordered list of (key, style) pairs.
- "Whitespace" is the ASCII part of Python's `str.isspace` (space, `\t`..`\r`, `\x1c`..`\x1f`).

Where the code and its description disagree, the model follows the code:
- A delimiter line for rpt-export must carry exactly one character after the last dash run, which is the newline that `next(inp)` keeps. `Build(hdrs, "- --")` is rejected and `Build(hdrs, "- --\n")` is accepted (`Report.DelimiterLineUnterminated`, `Report.Example`).
- The wildcard fallback of the column mapper tries patterns in `ChainMap` iteration order. On Python 3.7 and later that order lists the built-in keys first, then WORKBOOK, then the sheet's own section (earlier versions leave it unspecified; see "## Left out"). So a WORKBOOK pattern beats a sheet pattern that matches the same name, the reverse of the exact lookup's priority (`Mapper.WildcardOrderExample`).
- In `_db_customdate_parse` the month/year branch never yields a date (see Findings): once the month converts, `.lstrip('0')` on the int day raises `AttributeError` inside the parser. Separately, a word with neither two nor three '/'-fields makes the parser return `None`, and the later `.strftime` on it raises `AttributeError`. `_db_datetime` swallows both and returns `None` after an error message (`Dates.NullAfterError`).
- bin/sample.py reports a bad sample rate through `args.rate`, which does not exist. The run therefore fails with an `AttributeError` rather than the intended message (`Sample.BadRate`). The exit status and "FAILED!" are the same either way.

## Model

| member | source | states |
|---|---|---|
| Base.LookupSpec | datasimple/cli.py:69 | a table lookup succeeds exactly when some entry has the key, and then returns the value of the first such entry |
| Base.LookupAppend | datasimple/cli.py:53 | looking up in a table extended by `update` finds an entry of the first part before any of the second |
| Core.NormWs | datasimple/core.py:81-83 | `norm_ws` keeps the word sequence of its input, has no leading or trailing whitespace, and every whitespace character left is a single space between two words |
| Core.NormWsIdempotent | datasimple/core.py:81-83 | normalising whitespace twice is the same as once |
| Core.Clean | datasimple/core.py:22-23 | the cleaned part number contains only `0-9A-Z` without any letter O, and is no longer than the input |
| Core.CleanAppend | datasimple/core.py:22-23 | cleaning works character by character: the cleaned concatenation is the concatenation of the cleaned parts |
| Core.CleanChar | datasimple/core.py:22-23 | one character cleans to `0` if it is O or o, to its upper case if it is another ASCII letter, to itself if it is a digit, and to nothing otherwise |
| Core.CleanDropsOthers | datasimple/core.py:23 | text without ASCII letters or digits cleans to nothing |
| Core.CompPart | datasimple/core.py:13-27 | `comppart` output contains only `0-9A-Z`, never the letter O, and is no longer than its input |
| Core.CleanStrip | datasimple/core.py:22-23 | surrounding whitespace does not change a cleaned part number |
| Core.CleanLower | datasimple/core.py:22 | cleaning ignores letter case |
| Core.CompPartBlank | datasimple/core.py:22-27 | a whitespace-only part number compresses to the empty string |
| Core.CompPartIgnoresCase | datasimple/core.py:13-27 | `comppart` of a lower-cased part number equals `comppart` of the original |
| Core.CompPartFixed | datasimple/core.py:13-27 | an already compressed part number that does not start with THE is returned unchanged |
| Core.CompPartDropsOneThe | datasimple/core.py:24-25 | exactly one leading THE is removed from a compressed part number |
| Core.CompPartClean | datasimple/core.py:22-27 | the strip before cleaning is redundant: `comppart` equals the cleaned raw text with one leading THE removed |
| Core.CompPartHelloWorld | tests/ics-test.py:9 | ` hello-world ` compresses to `HELL0W0RLD` |
| Core.CompPartThePart | tests/ics-test.py:10 | ` the part ` compresses to `PART` |
| Core.CompPartPunctuation | tests/ics-test.py:11-12 | `A` with all ASCII punctuation before or after it compresses to `A` |
| Core.Compact | datasimple/core.py:30-32 | `compact` keeps exactly the truthy elements: every kept element is truthy and from the input, and every truthy input element is kept |
| Core.CompactAppend | datasimple/core.py:30-32 | `compact` distributes over concatenation, so it keeps the original order |
| Core.First | datasimple/core.py:35-37 | `first` returns element 0, or nothing for an empty sequence |
| Core.FirstIn | datasimple/core.py:40-70 | `first_in` raises only if converting floor or ceil fails; otherwise it returns the converted value of the first argument that converts and lies strictly between the bounds, or the default when none does, which is None unless a `defval` is given |
| Core.Fields | datasimple/core.py:75 | the surviving pieces are no more than the split pieces |
| Core.FieldsAppend | datasimple/core.py:75 | the pieces are filtered one by one, in order: the fields of a concatenation are the concatenated fields |
| Core.FieldsOne | datasimple/core.py:75 | a single piece survives, stripped, exactly when it is not blank |
| Core.FieldsClean | datasimple/core.py:75-76 | every surviving piece is non-empty, trimmed, and free of the delimiter |
| Core.FieldsOfClean | datasimple/core.py:75-76 | pieces that are already non-empty and trimmed all survive, in order |
| Core.Kv | datasimple/core.py:73-78 | the key is missing exactly when no piece survives, the key is the first surviving piece and is clean, the value is empty with fewer than two pieces and otherwise splits back into the remaining pieces |
| Core.KvJoin | datasimple/core.py:73-78 | `kv` of clean key and values joined by the delimiter gives back the key and the values re-joined |
| Cells.Trunc | datasimple/xl.py:145-146 | `int(float)` truncates toward zero |
| Cells.Unforce | datasimple/xl.py:33-36 | a leading quote with no later quote is removed; any other string is kept |
| Cells.NormalizeCell | datasimple/xl.py:26-43 | `_val` never yields None, turns None into the empty string, passes numbers and dates through, and normalises the whitespace of strings after removing a lone leading quote: the same words, no whitespace at either end, and single spaces between words |
| Cells.NormalizeForced | datasimple/xl.py:33-36 | a quote-forced string normalises like the same string without the quote |
| Cells.NormalizeKeepsMatchedQuote | datasimple/xl.py:34 | a leading quote that has a later partner is kept |
| Cells.NormalizeFixed | datasimple/xl.py:26-43 | a single-spaced, unquoted string is already normal |
| Cells.IntCoerce | datasimple/xl.py:138-148 | `_int` raises only on a date, maps None and the empty string to the empty string, truncates floats, parses strings after removing commas and returns an unparsable string unchanged |
| Cells.AcctCoerce | datasimple/xl.py:151-158 | `_acct` raises only on a date, maps None and the empty string to the empty string, makes ints floats, and returns an unparsable string unchanged |
| Cells.IntCoerceIdempotent | datasimple/xl.py:138-148 | whatever `_int` returns is an int or a string that `_int` gives back unchanged |
| Cells.AcctCoerceIdempotent | datasimple/xl.py:151-158 | whatever `_acct` returns is a float or a string that `_acct` gives back unchanged |
| Cells.IntCoerceIgnoresCommas | datasimple/xl.py:143-145 | a comma anywhere in a parsable string does not change what `_int` returns |
| Glob.Matches | datasimple/xl.py:23 | `fnmatch` on `*`, `?` and literal characters, defined by recursion on the pattern; its properties are the four lemmas below |
| Glob.MatchesStarFree | datasimple/xl.py:23 | a pattern without `*` matches exactly the names of its length that agree with it outside the `?` positions |
| Glob.MatchesLiteral | datasimple/xl.py:23 | a pattern without `*` or `?` matches only itself |
| Glob.StarMatchesAll | datasimple/xl.py:23 | the pattern `*` matches every name |
| Glob.MatchesPrefixStar | datasimple/xl.py:23 | a literal prefix followed by `*` matches exactly the names with that prefix |
| Mapper.ChainGetFirstLayer | datasimple/xl.py:195-199 | the exact lookup returns the entry of the first layer that has the name |
| Mapper.ChainGet | datasimple/xl.py:195-199 | the exact lookup fails exactly when no layer has the name, and otherwise returns the entry of a layer that has it with no earlier layer having it |
| Mapper.Dedup | datasimple/xl.py:207 | iterating a ChainMap visits every key of any layer exactly once |
| Mapper.IndexOf | datasimple/xl.py:207 | the position returned holds the key and no earlier position does |
| Mapper.IndexOfAt | datasimple/xl.py:207 | a position holding the key with none before it is the first occurrence |
| Mapper.IndexOfPrefix | datasimple/xl.py:207 | appending keys does not move the first occurrence of a key already present |
| Mapper.IndexOfSuffix | datasimple/xl.py:207 | a key absent from the front first occurs after all of it |
| Mapper.DedupOrder | datasimple/xl.py:207 | the ChainMap keys are listed by first occurrence: of two keys, the one met first comes first |
| Mapper.DedupBefore | datasimple/xl.py:207 | a key of the lower-priority layers is listed before a key only a higher-priority layer holds |
| Mapper.ReversedKeysIn | datasimple/xl.py:195-207 | a key is among the layers' keys exactly when some layer holds it |
| Mapper.ChainKeys | datasimple/xl.py:207 | the ChainMap keys are exactly the keys of the layers, each once |
| Mapper.WildcardsOf | datasimple/xl.py:207 | the wildcard list built key by key; Mapper.WildcardsOfSpec and Mapper.WildcardsOfBefore state its contents and order |
| Mapper.WildcardsOfSpec | datasimple/xl.py:207 | every wildcard entry is a lower-cased key containing `*` with its chain value, and every such key contributes one |
| Mapper.FirstMatchAt | datasimple/xl.py:214-220 | the wildcard fallback takes the style of the first pattern that matches |
| Mapper.FirstMatch | datasimple/xl.py:214-220 | the wildcard fallback finds nothing exactly when no pattern matches, and otherwise takes the style of a matching pattern with no earlier pattern matching |
| Mapper.NewValueMapper | datasimple/xl.py:161-171 | the built-in defaults map Qty to IMComma and ExtPrice to IMCurrency and nothing else |
| Mapper.CreateMapper | datasimple/xl.py:194-207 | the lookup layers are the sheet section, then WORKBOOK, then the defaults; every wildcard comes from a key containing `*`, and every such key contributes its lower-cased pattern and chain value |
| Mapper.WildcardsOfBefore | datasimple/xl.py:207 | of two keys containing `*`, the earlier one's pattern comes first in the wildcard list |
| Mapper.WorkbookPatternFirst | datasimple/xl.py:195-207 | for any configuration, a WORKBOOK pattern comes before a pattern only the sheet's section holds |
| Mapper.ResolveStyle | datasimple/xl.py:209-230 | a column always resolves to a non-empty style |
| Mapper.Convert | datasimple/xl.py:233-241 | IMComma and IMInt coerce through `_int`, IMCurrency, IMFloat and IMPercent through `_acct`, and any other style leaves the value untouched |
| Mapper.Apply | datasimple/xl.py:209-243 | the mapper returns the resolved style, raises exactly when a date meets a numeric style, and otherwise returns the value coerced by `_int` for an int style, by `_acct` for an accounting style, and untouched for any other |
| Mapper.LayerPriority | datasimple/xl.py:195-211 | when layer i is the first to name the column with a non-empty style, that style is used |
| Mapper.WildcardFallback | datasimple/xl.py:214-220 | with no exact style, the first matching wildcard with a non-empty style decides |
| Mapper.TypeStyle | datasimple/xl.py:222-224 | the type gives a style exactly for an int or a float; an int's style coerces to an int and a float's to a float |
| Mapper.TypeFallback | datasimple/xl.py:222-230 | with no non-empty exact style and no non-empty first-matching wildcard style (a column configured as `Col1 =` included) an int gets IMComma, a float IMCurrency and anything else IMNormal, with strings and None untouched |
| Mapper.CoercionByStyle | datasimple/xl.py:233-241 | the coercion depends only on the resolved style |
| Mapper.ApplyIdempotent | datasimple/xl.py:209-243 | mapping a mapped value again gives the same style and value |
| Mapper.DefaultQtyExamples | tests/xl-test.py:61-67 | with no config Qty uses `_int`: "A" stays "A" and "12.0" becomes 12 |
| Mapper.DefaultNumberExamples | tests/xl-test.py:61-75 | with no config Qty truncates 12.0 to 12 and ExtPrice makes 12 a float |
| Mapper.DefaultFallbackExamples | tests/xl-test.py:77-81 | an unknown column keeps "12" as a string and styles ints and floats by type |
| Mapper.ConfigSheetExamples | tests/xl-test.py:164-185 | a sheet section overrides WORKBOOK for Col1 |
| Mapper.ConfigWorkbookExamples | tests/xl-test.py:188-194 | WORKBOOK applies where the sheet is silent, and the defaults after that |
| Mapper.ConfigAllNormalExamples | tests/xl-test.py:133-145 | a section mapping Qty and ExtPrice to IMNormal turns their coercion off |
| Mapper.Sheet1Wildcards | datasimple/xl.py:207 | the example configuration has exactly one wildcard, `wccol*` with IMInt |
| Mapper.WildcardLiteralExample | tests/xl-test.py:204-206 | a wildcard key used literally hits the exact lookup |
| Mapper.WildcardGlobExample | tests/xl-test.py:204-206 | a name with the wildcard's prefix gets the wildcard's style |
| Mapper.WildcardOrderExample | datasimple/xl.py:195-220 | a WORKBOOK pattern is tried before a sheet pattern |
| Params.AddParam | datasimple/xl.py:127-133 | adding a value adds its key and leaves every other key alone |
| Params.ReportParams | datasimple/xl.py:119-135 | the fold of `kv` over the Parms texts, skipping lines without a key; Params.ReportParamsSpec states its result |
| Params.ScanParams | datasimple/xl.py:116-135 | the cover sheet is read exactly when every row has a text Parms entry (a missing entry raises KeyError, a number or date AttributeError), and then gives the fold over the texts |
| Params.ScanStep | datasimple/xl.py:119-122 | the rows are all text exactly when the earlier ones and the last one are |
| Params.Texts | datasimple/xl.py:121 | each text is the string of its row's Parms entry |
| Params.ReportParamsSpec | datasimple/xl.py:116-135 | a key is present exactly when some row has it; one value maps to the string, several to the list of all of them in row order |
| Params.ReportParamsKeys | datasimple/xl.py:121-124 | every key is non-empty and trimmed |
| Params.KvSpaced | datasimple/xl.py:121-122 | a `key: value` cell splits into key and value |
| Params.ThreeLines | datasimple/xl.py:127-133 | three rows with the same new key produce the list of their three values |
| Params.FourLines | tests/xl-test.py:104-124 | one single key and one key repeated three times give a string and a three-element list |
| Params.RepeatedKey | tests/xl-test.py:104-124 | a repeated key between two single keys gives the list in row order |
| Sheet.Place | datasimple/xl.py:338-341 | a cell lands at (row, column), or at (column, row) when transposing, with its value and style |
| Sheet.HeaderWrites | datasimple/xl.py:343-346 | column name i is written at row 1, column i+1 with style IMHeader |
| Sheet.RowWrites | datasimple/xl.py:349-356 | a written row has one cell per value and no more values than column names |
| Sheet.SheetWrites | datasimple/xl.py:343-356 | the header row is written before any data |
| Sheet.RowWritesSpec | datasimple/xl.py:349-356 | a data row is written exactly when every value has a column name and maps without an exception, and then value j lands at (count+2, j+1) with the mapped style and value |
| Sheet.DataWrites | datasimple/xl.py:349-356 | a written sheet body has one cell per value and no row longer than the column names |
| Sheet.ImportSheet | datasimple/xl.py:300-356 | the import goes through exactly when every value has a column and no date lands in a numerically styled column, and then writes the header and one cell per value |
| Sheet.DataWritesOk | datasimple/xl.py:349-356 | the sheet is written exactly when every row is |
| Sheet.SheetTranspose | datasimple/xl.py:338-341 | the transposed sheet is the plain sheet with row and column exchanged in every write |
| Sheet.DataRows | datasimple/xl.py:349-356 | data row i is written to spreadsheet row i+2, so no data cell lands on the header row or outside the columns |
| Report.Layout | bin/rpt-export.py:36-47 | there is one field per dash run |
| Report.LayoutAt | bin/rpt-export.py:36-47 | field i has the width of run i and starts after all earlier runs, each plus one separator |
| Report.LayoutContiguous | bin/rpt-export.py:36-47 | the fields start at 0 and each starts one past the end of the previous one |
| Report.Slice | bin/rpt-export.py:67 | slicing past the end of a line yields a shorter or empty string |
| Report.SliceRow | bin/rpt-export.py:66-68 | a row has one entry per field |
| Report.WriteLine | bin/rpt-export.py:55-69 | a line writes nothing exactly when it is blank or a row-count trailer, and otherwise one entry per field |
| Report.Build | bin/rpt-export.py:23-53 | construction fails with a parse error exactly when the delimiter line has fewer than two runs, succeeds exactly when the line is well-formed and the header is kept, and then has one field per run of its width and the header as the only row |
| Report.Process | bin/rpt-export.py:71-76 | a dropped line changes nothing; a kept line adds its row and one to the count |
| Report.Done | bin/rpt-export.py:80-82 | the reported count is the number of rows written after the header |
| Report.Run | bin/rpt-export.py:97-108 | the run fails when the header or delimiter line is missing or the processor cannot be built; otherwise the output is the header row then one row per kept data line, and the count is the number of kept data lines |
| Report.ProcessAll | bin/rpt-export.py:71-76 | processing a block of lines appends exactly their rows and counts exactly the kept ones |
| Report.JoinSpan | bin/rpt-export.py:39-49 | single-spaced runs span one less than the total field length |
| Report.DelimiterLineAccepted | bin/rpt-export.py:33-50 | runs of dashes separated by single spaces and followed by one whitespace character are accepted, with one field per run of its width |
| Report.DelimiterLineUnterminated | bin/rpt-export.py:49-50 | the same line without its final character fails the final position check |
| Report.DelimiterLineDoubleSpaced | bin/rpt-export.py:49-50 | runs separated by two spaces are rejected |
| Report.SingleRunRejected | bin/rpt-export.py:33-34 | a single run of any kind is rejected even if it is valid |
| Report.BlankLineDropped | bin/rpt-export.py:56-59 | a blank line writes nothing |
| Report.TrailerDropped | bin/rpt-export.py:60-64 | a `(N row(s) affected)` line, with any surrounding whitespace, writes nothing |
| Report.IsTrailer | bin/rpt-export.py:29-31 | the full match of `\([0-9,]+ row\(s\) affected\)`, defined on the characters; its shape is stated by Report.TrailerShape |
| Report.Kept | bin/rpt-export.py:55-64 | a line is kept when its stripped form is neither empty nor a trailer; Report.WriteLine and Report.Process state its effect |
| Report.TrailerShape | bin/rpt-export.py:29-31 | a trailer is exactly an open parenthesis, one or more digits or commas, and ` row(s) affected)` |
| Report.RowEntries | bin/rpt-export.py:66-68 | entry i of a written row is the trimmed slice of the raw line at field i, cut short at the end of the line |
| Report.TwoRuns | bin/rpt-export.py:36-50 | two runs give fields (0, first width) and (first width + 1, second width) |
| Report.Example | bin/rpt-export.py:23-82 | header `A B` over `- --` turns `X YZ` into the row [X, YZ] |
| Dates.DecParses | datasimple/sqlite.py:37 | `int()` reads back the decimal form of a number, which has no leading zero |
| Dates.IntField | datasimple/sqlite.py:37 | on ASCII-digit fields, a field that parses is at least 1 |
| Dates.IntFieldOf | datasimple/sqlite.py:37 | leading zeros of a field are ignored |
| Dates.IntFieldZeros | datasimple/sqlite.py:37 | a field of only zeros does not parse |
| Dates.Pad | datasimple/sqlite.py:44 | the padded digits read back as the number, have at least the requested width, and carry no leading zero beyond it |
| Dates.ZerosPrefixParse | datasimple/sqlite.py:44 | zero padding does not change the value a digit string reads as |
| Dates.FirstWord | datasimple/sqlite.py:26 | the parsed word is the first of the whitespace-separated words, and empty for blank text |
| Dates.FirstWordIsFirstSplit | datasimple/sqlite.py:26 | the first piece of the normalised text is the first whitespace-separated word |
| Dates.Read | datasimple/sqlite.py:27-34 | a word is not a date exactly when it does not split on `/` into two or three fields, and otherwise the fields are its pieces |
| Dates.ReadMdy | datasimple/sqlite.py:27-30 | month/day/year is read as three fields |
| Dates.ReadMy | datasimple/sqlite.py:31-33 | month/year is read as two fields |
| Dates.ReadNoSlash | datasimple/sqlite.py:27-34 | a word without `/` is not a date |
| Dates.MakeDate | datasimple/sqlite.py:40-44 | a date results exactly when the year, after adding 2000 below 100, with the month and day forms a valid calendar date |
| Dates.Interpret | datasimple/sqlite.py:24-44 | on ASCII-digit fields, every date returned is valid, the month/year form never gives a date, and only a non-date word gives None |
| Dates.CustomParse | datasimple/sqlite.py:24-44 | on ASCII-digit fields, every date returned is a valid calendar date |
| Dates.Finish | datasimple/sqlite.py:54-60 | text is returned exactly for a date or a ValueError, and for a ValueError it is the stripped input |
| Dates.DbDatetime | datasimple/sqlite.py:47-60 | None without an error report exactly for missing or blank input, and text results come from parsing the stripped input |
| Dates.DbCompPart | datasimple/sqlite.py:16-21 | `_db_comppart` of a value is `comppart` of it |
| Dates.RoundTrip | datasimple/sqlite.py:24-60 | a valid m/d/y date, with any leading zeros, surrounding whitespace and a two-digit year, comes back formatted as YYYY-MM-DD |
| Dates.NoSlashNoDate | datasimple/sqlite.py:30-60 | a word without `/` gives None after the swallowed error |
| Dates.InvalidDateKept | datasimple/sqlite.py:44-57 | an impossible calendar date returns the input unchanged |
| Dates.MonthYearAsWritten | datasimple/sqlite.py:31-37 | as written, a month/year word gives None after a swallowed error |
| Dates.YearZeroAsWritten | datasimple/sqlite.py:37-41 | as written, a year of only zeros returns the input unchanged |
| Dates.IntFieldFixed | datasimple/sqlite.py:37 | corrected, every non-empty digit string parses |
| Dates.InterpretFixed | datasimple/sqlite.py:24-44 | corrected, dates stay valid and month/year gives the first of the month |
| Dates.DbDatetimeFixed | datasimple/sqlite.py:47-60 | corrected, None without an error report still comes exactly from missing or blank input, and text still comes from the stripped input |
| Dates.FixedKeepsDates | datasimple/sqlite.py:24-44 | the correction returns the same date wherever the original returned one |
| Dates.MonthYearFixed | datasimple/sqlite.py:31-37 | corrected, month/year is formatted as the first day of that month |
| Dates.YearZeroFixed | datasimple/sqlite.py:37-41 | corrected, year 00 is read as 2000 |
| Template.ParseArg | bin/template-expand.py:22-24 | an argument without `=` yields nothing; otherwise the key is the text before the first `=` and key, `=` and value rebuild the argument |
| Template.ParseArgs | bin/template-expand.py:20-24 | no more pairs than arguments, and no key contains `=` |
| Template.ParseArgsSpec | bin/template-expand.py:20-24 | the pairs are those of the arguments containing `=`, in argument order |
| Template.TemplateVars | bin/template-expand.py:28-31 | a variable given on the command line takes the value of its last argument; every other variable is the environment's |
| Template.ToMap | bin/template-expand.py:30 | the map has exactly the keys of the pairs |
| Template.ToMapLast | bin/template-expand.py:30 | for a repeated key the last pair wins |
| Template.Merge | bin/template-expand.py:28-31 | the merged keys are those of the environment and the command line |
| Template.MergeOverrides | bin/template-expand.py:28-31 | a command-line variable overrides the environment, and every other environment variable is kept |
| Template.FirstIndex | bin/template-expand.py:22 | the first `=` is at the returned position and not before it |
| Cli.Expand | datasimple/cli.py:69 | a name missing from the abbreviation table is kept verbatim |
| Cli.ExpandClosing | datasimple/cli.py:53 | a closing name `/x` expands to `/` followed by the expansion of x |
| Cli.ExpandOpening | datasimple/cli.py:34-51 | an opening name expands through the colour table or stays as it is |
| Cli.LetterRun | datasimple/cli.py:85 | the run is the longest prefix of ASCII letters |
| Cli.TagAt | datasimple/cli.py:85 | a match never extends past the string, covers exactly `[!name]` or `[!/name]` for a non-empty run of letters, and captures `name` or `/name` |
| Cli.TagAtTag | datasimple/cli.py:85 | `[!x]` and `[!/x]` are matched whole, with the name inside |
| Cli.RewriteTag | datasimple/cli.py:67-85 | each tag is replaced by its expansion in braces, and rewriting goes on after it |
| Cli.RewriteClosingTag | datasimple/cli.py:53-72 | `[!/x]` becomes `{/` + expansion of x + `}` |
| Cli.RewriteUnknown | datasimple/cli.py:69 | an unknown letter name is kept verbatim inside the braces |
| Cli.Rewrite | datasimple/cli.py:85 | text without `[` is unchanged; the lemmas below state what happens at each tag |
| Cli.RewriteNotLetters | datasimple/cli.py:85 | `[!` not followed by a letter or `/` is unchanged |
| Cli.RewriteUnclosed | datasimple/cli.py:85 | an unclosed `[!g` is unchanged |
| Cli.RewritePair | datasimple/cli.py:77-86 | text between an opening and a closing tag is wrapped in the opening and closing expansions |
| Cli.RewriteGreen | datasimple/cli.py:80 | `[!g]t[!/g]` becomes `{autogreen}t{/autogreen}` |
| Cli.ParseLevel | datasimple/cli.py:89-92 | the level defaults to WARN and is accepted exactly when the upper-cased, stripped value is NONE, INFO or WARN |
| Cli.LevelLenient | datasimple/cli.py:89 | surrounding whitespace and letter case do not change the level |
| Cli.StripUpper | datasimple/cli.py:89 | upper-casing then stripping equals stripping then upper-casing |
| Cli.UpperIdempotent | datasimple/cli.py:89 | upper-casing twice is the same as once |
| Cli.ParseColour | datasimple/cli.py:103-107 | colour defaults to on, and an empty value means off |
| Cli.ColourFirstChar | datasimple/cli.py:103-107 | a non-empty value turns colour on exactly when its upper-cased first character is T, Y or 1 |
| Cli.ColourLowerCase | datasimple/cli.py:103 | the colour setting ignores letter case |
| Cli.Log | datasimple/cli.py:180-205 | `log` writes nothing at level NONE and otherwise one write ending in a newline |
| Cli.WarnLine | datasimple/cli.py:110-119 | `warn` writes exactly at level WARN |
| Cli.Gating | datasimple/cli.py:96-190 | whenever `warn` writes, `log` would too; at INFO only `log` writes; at WARN `warn` is `log` of the message coloured red |
| Cli.LogPlain | datasimple/cli.py:192-204 | without colour the line is the prefix, the message and a newline |
| Sample.Validate | bin/sample.py:43-50 | the arguments pass exactly when the input exists, head and tail are not negative and the rate is strictly between 0 and 1 |
| Sample.Threshold | bin/sample.py:52-61 | with a tail the threshold is the line count minus the tail, and otherwise negative |
| Sample.Draws | bin/sample.py:69-74 | no more random draws than earlier lines |
| Sample.Kept | bin/sample.py:63-77 | no more lines are output than read |
| Sample.Run | bin/sample.py:43-77 | the run fails exactly on the first failed check, and otherwise outputs the chosen lines in order |
| Sample.Chosen | bin/sample.py:69-74 | a line is output when forced by head or tail, or when its draw is below the rate; Sample.KeptAllForced and Sample.KeptOnlyForced state its effect |
| Sample.KeptAllForced | bin/sample.py:69-72 | lines that are all forced are all output, in order |
| Sample.KeptOnlyForced | bin/sample.py:69-74 | when every draw misses, exactly the forced lines are output |
| Sample.DrawsCount | bin/sample.py:73 | with nothing forced, each line uses the next draw |
| Sample.HeadAsWritten | bin/sample.py:69 | as written, line `head` itself can be left out |
| Sample.TailAsWritten | bin/sample.py:58-71 | as written, a tail at least as long as the file forces no line |
| Sample.KeptFixed | bin/sample.py:63-77 | corrected, no more lines are output than read |
| Sample.KeptFixedShortFile | bin/sample.py:52-72 | corrected, a file no longer than the head or the tail is copied whole |
| Sample.HeadTailFixed | bin/sample.py:69-72 | corrected, the first `head` and the last `tail` lines are always output |
| Sample.FixedForcesMore | bin/sample.py:69-72 | the correction forces every line the original forces |

## Left out

- openpyxl: loading workbooks, sheet scanning, named styles, column autofit (floating-point presentation only) and the rest of `XlsxImporter.main`. Only the cell layout is modelled, as a list of cell writes.
- `read_config` and configparser: the configuration is taken as already parsed.
- `ws_scan`'s header handling (the first row read is the header, and columns with an empty header are dropped): `Params.ScanParams` starts from each data row's Parms entry, or its absence.
- `XlsxImporter.customize_val_mapper`: a hook subclasses override. `Sheet` takes the column mapper as a parameter, and `Sheet.ImportSheet` plugs in the default one.
- Python's `float()`/`int()` on strings and IEEE arithmetic: parsing is the partial-function parameter `parse`. Uncaught `OverflowError`/`TypeError` paths other than a date reaching a coercion are not modelled.
- `fnmatch` character classes `[...]` and `os.path.normcase`: only `*`, `?` and literal characters are modelled.
- The `repr()` fallback of `_val`, Unicode case mapping and non-ASCII whitespace: letters and whitespace are ASCII.
- `str.format` in `clr`, `clrfmt`, `log` and template-expand: the message is taken as already formatted.
- colorclass and terminaltables rendering, `log_table`, writes to stderr, `log_prefix` and `use_dynamic_log_prefix`: these depend on the clock and `__main__`. The prefix is a parameter of `Cli.Log`.
- The sqlite3 connection, function registration and `main` of datasimple/sqlite.py.
- Dates.IntField: reads fields of ASCII digits only; a sign, underscores or Unicode digits that `int()` accepts are not modelled, so "-5" does not parse here.
- Dates.Interpret: shares Dates.IntField's ASCII-digit reading, so "1/5/-5" (1995-01-05 in Python) and "+3/2019" (None in Python) are returned as text here.
- Dates.CustomParse: shares Dates.IntField's ASCII-digit reading, for the same reason.
- Dates.DbDatetime: the result is stated for fields of ASCII digits only, because signs, underscores and Unicode digits that `int()` accepts are not modelled. `strftime` padding for years below 1000 is platform-dependent, and `Format` pads every year to four digits.
- `ChainMap` iteration before Python 3.7: setup.py admits Python 3.4, where iterating a ChainMap follows an unordered set union, so the order of the wildcard list and which of two matching wildcards wins is unspecified there. The model follows the 3.7+ order (`Mapper.DedupOrder`, `Mapper.WorkbookPatternFirst`, `Mapper.WildcardOrderExample`).
- Core.Kv: the delimiter is one character. Python's `kv` accepts any string, including longer delimiters and `''` (which raises ValueError in `split`); the only caller passes the default `':'`.
- The CSV writer and its quoting, file reading, `panic`, and the argument parsers: the models start from parsed arguments and lists of lines.
- `random.random()`: it is the parameter `draw`.
- setup.py and tests/period-test.py: the module the latter tests is not part of this model.

## Findings

| source | as written | input that shows it | evidently intended | confidence | as-written member | corrected member |
|---|---|---|---|---|---|---|
| datasimple/sqlite.py:31-37 | the month/year branch sets `day = 1`, an int, and the later `.lstrip('0')` on every field raises `AttributeError`; `_db_datetime` swallows it and returns None | `"3/2019"` | a month/year date means the first of the month, `2019-03-01` | not executed | Dates.MonthYearAsWritten | Dates.MonthYearFixed |
| datasimple/sqlite.py:37-41 | `int(x.lstrip('0'))` fails on a field of only zeros, so year `00` raises ValueError and the input comes back unchanged | `"1/2/00"` | year 00 is 2000, as every other two-digit year is 20xx: `2000-01-02` | not executed | Dates.YearZeroAsWritten | Dates.YearZeroFixed |
| bin/sample.py:69 | `curr < args.head` forces only the first head − 1 lines | `--head 1`: line 1 is left to the random draw | the first `head` lines are always output | not executed | Sample.HeadAsWritten | Sample.HeadTailFixed |
| bin/sample.py:58-71 | with `tail_thresh = line_count - tail <= 0` the test `tail_thresh > 0` switches the tail rule off | a 3-line file with `--tail 5`: no line is forced | a file no longer than the tail is copied whole | not executed | Sample.TailAsWritten | Sample.KeptFixedShortFile |

=== FILE: base.dfy ===
/** Small failure-carrying datatypes shared by every module of the model. */
module Base {

  /** Python's `None`-or-value. */
  datatype Option<+T> = None | Some(value: T) {
    function GetOr(default: T): T {
      match this
      case Some(v) => v
      case None => default
    }
  }

  /** A value, or a typed error the source raises. */
  datatype Result<+T, +E> = Ok(value: T) | Err(error: E)

  /** A value, or an exception the source does not catch (a crash). */
  datatype Outcome<+T> = Returned(value: T) | Raised

  /** `d.get(k)` on an association list: the value of the first entry for `k`. */
  function Lookup<K(==), V>(t: seq<(K, V)>, k: K): Option<V>
    decreases |t|
  {
    if t == [] then None
    else if t[0].0 == k then Some(t[0].1)
    else Lookup(t[1..], k)
  }

  /** Lookup finds `k` exactly when some entry has that key, and returns the value
      of the first such entry. */
  lemma {:induction false} LookupSpec<K, V>(t: seq<(K, V)>, k: K)
    ensures Lookup(t, k).Some? <==> exists i :: 0 <= i < |t| && t[i].0 == k
    ensures Lookup(t, k).Some? ==>
      exists i :: 0 <= i < |t| && t[i] == (k, Lookup(t, k).value) &&
        forall j :: 0 <= j < i ==> t[j].0 != k
    decreases |t|
  {
    if t != [] && t[0].0 != k {
      LookupSpec(t[1..], k);
      if Lookup(t, k).Some? {
        var i :| 0 <= i < |t[1..]| && t[1..][i] == (k, Lookup(t, k).value) &&
          forall j :: 0 <= j < i ==> t[1..][j].0 != k;
        assert t[i + 1] == (k, Lookup(t, k).value);
        forall j | 0 <= j < i + 1 ensures t[j].0 != k {
          if j > 0 {
            assert t[j] == t[1..][j - 1];
          }
        }
      }
      if exists i :: 0 <= i < |t| && t[i].0 == k {
        var i :| 0 <= i < |t| && t[i].0 == k;
        assert t[1..][i - 1].0 == k;
      }
    }
  }

  /** A lookup in a concatenation tries the first list, then the second. */
  lemma {:induction false} LookupAppend<K, V>(a: seq<(K, V)>, b: seq<(K, V)>, k: K)
    ensures Lookup(a + b, k) == if Lookup(a, k).Some? then Lookup(a, k) else Lookup(b, k)
    decreases |a|
  {
    if a != [] {
      assert (a + b)[1..] == a[1..] + b;
      LookupAppend(a[1..], b, k);
    } else {
      assert a + b == b;
    }
  }
}

=== FILE: cells.dfy ===
/**
 Cell values of datasimple/xl.py and the three pure conversions on them:
 `_val` (what a read cell becomes), `_int` and `_acct` (the coercions the
 value mapper applies before a value is written).
 */
module Cells {
  import opened Base
  import opened Text
  import Core

  /** A `datetime` as openpyxl hands it over; the model only passes it along. */
  datatype DateTime = DateTime(year: int, month: int, day: int, seconds: nat)

  /** The runtime types a cell value can have: None, int, float, str, datetime. */
  datatype Value = Null | Int(i: int) | Real(x: real) | Str(s: string) | Date(d: DateTime)

  /** Python's `float(s)` on a string, supplied by the caller: None where it
      raises ValueError. */
  type Parser = string -> Option<real>

  /** `int(x)` on a float: truncation toward zero. */
  function Trunc(x: real): (n: int)
    ensures 0.0 <= x ==> n as real <= x < n as real + 1.0
    ensures x < 0.0 ==> n as real - 1.0 < x <= n as real
  {
    if x >= 0.0 then x.Floor else -((-x).Floor)
  }

  // ---------------------------------------------------------------------------
  // _val

  /** A leading `'` with no other `'` after it is the old Excel "force string" marker. */
  predicate ForcedString(v: string) {
    v != [] && v[0] == '\'' && '\'' !in v[1..]
  }

  function Unforce(v: string): (r: string)
    ensures ForcedString(v) ==> v == ['\''] + r
    ensures !ForcedString(v) ==> r == v
  {
    if ForcedString(v) then v[1..] else v
  }

  /** `_val(cell)`: None reads as '', strings lose a lone force-string quote and
      are whitespace-normalised, every other value passes through. */
  function NormalizeCell(v: Value): (r: Value)
    ensures r != Null
    ensures v.Null? ==> r == Str([])
    ensures v.Int? || v.Real? || v.Date? ==> r == v
    ensures v.Str? ==> r.Str? && SplitWs(r.s) == SplitWs(Unforce(v.s))
    ensures v.Str? ==> r.s == [] || (!IsSpace(r.s[0]) && !IsSpace(r.s[|r.s| - 1]))
    ensures v.Str? ==> forall i :: 0 <= i < |r.s| && IsSpace(r.s[i]) ==>
      r.s[i] == ' ' && 0 < i < |r.s| - 1 && !IsSpace(r.s[i + 1])
  {
    match v
    case Null => Str([])
    case Str(s) => Str(Core.NormWs(Unforce(s)))
    case _ => v
  }

  /** A forced-string marker is dropped and the rest read as a plain string. */
  lemma NormalizeForced(w: string)
    requires '\'' !in w
    ensures NormalizeCell(Str(['\''] + w)) == NormalizeCell(Str(w))
  {
    assert (['\''] + w)[1..] == w;
  }

  /** A quote that is matched later in the string is kept. */
  lemma NormalizeKeepsMatchedQuote(a: string, b: string)
    ensures NormalizeCell(Str(['\''] + a + ['\''] + b)) == Str(Core.NormWs(['\''] + a + ['\''] + b))
  {
    var v := ['\''] + a + ['\''] + b;
    assert v[1..][|a|] == '\'';
  }

  /** Words separated by single spaces, not starting with a lone quote, come back unchanged. */
  lemma NormalizeFixed(ws: seq<string>)
    requires Words(ws)
    requires !ForcedString(Join(" ", ws))
    ensures NormalizeCell(Str(Join(" ", ws))) == Str(Join(" ", ws))
  {
    var s := Join(" ", ws);
    JoinSingleSpaced(ws);
    SplitWsJoin(ws, " ", []);
    assert s + [] == s;
    StripAround([], s, []);
    assert [] + s + [] == s;
  }

  // ---------------------------------------------------------------------------
  // _int and _acct

  /** `_int(v)`: '' for None and '', a comma-free float parse truncated toward zero
      for strings (the string itself when parsing fails), truncation for floats;
      a datetime makes `int()` raise TypeError, which is not caught. */
  function IntCoerce(parse: Parser, v: Value): (r: Outcome<Value>)
    ensures r.Raised? <==> v.Date?
    ensures v.Null? || v == Str([]) ==> r == Returned(Str([]))
    ensures v.Int? ==> r == Returned(v)
    ensures v.Real? ==> r == Returned(Int(Trunc(v.x)))
    ensures v.Str? && v.s != [] ==>
      match parse(RemoveAll(v.s, ','))
      case None => r == Returned(v)
      case Some(x) => r == Returned(Int(Trunc(x)))
  {
    match v
    case Null => Returned(Str([]))
    case Str(s) =>
      if s == [] then Returned(Str([]))
      else
        (match parse(RemoveAll(s, ','))
         case None => Returned(v)
         case Some(x) => Returned(Int(Trunc(x))))
    case Int(_) => Returned(v)
    case Real(x) => Returned(Int(Trunc(x)))
    case Date(_) => Raised
  }

  /** `_acct(v)`: '' for None and '', a float parse for strings (commas are not
      removed; the string itself when parsing fails), `float()` for numbers; a
      datetime makes `float()` raise TypeError, which is not caught. */
  function AcctCoerce(parse: Parser, v: Value): (r: Outcome<Value>)
    ensures r.Raised? <==> v.Date?
    ensures v.Null? || v == Str([]) ==> r == Returned(Str([]))
    ensures v.Int? ==> r == Returned(Real(v.i as real))
    ensures v.Real? ==> r == Returned(v)
    ensures v.Str? && v.s != [] ==>
      match parse(v.s)
      case None => r == Returned(v)
      case Some(x) => r == Returned(Real(x))
  {
    match v
    case Null => Returned(Str([]))
    case Str(s) =>
      if s == [] then Returned(Str([]))
      else
        (match parse(s)
         case None => Returned(v)
         case Some(x) => Returned(Real(x)))
    case Int(i) => Returned(Real(i as real))
    case Real(_) => Returned(v)
    case Date(_) => Raised
  }

  /** Whatever `_int` returns is either an int or a string it gives back unchanged. */
  lemma IntCoerceIdempotent(parse: Parser, v: Value)
    requires IntCoerce(parse, v).Returned?
    ensures var w := IntCoerce(parse, v).value;
      (w.Int? || w.Str?) && IntCoerce(parse, w) == Returned(w)
  {
  }

  /** Whatever `_acct` returns is either a float or a string it gives back unchanged. */
  lemma AcctCoerceIdempotent(parse: Parser, v: Value)
    requires AcctCoerce(parse, v).Returned?
    ensures var w := AcctCoerce(parse, v).value;
      (w.Real? || w.Str?) && AcctCoerce(parse, w) == Returned(w)
  {
  }

  lemma {:induction false} RemoveAllAppend(a: string, b: string, c: char)
    ensures RemoveAll(a + b, c) == RemoveAll(a, c) + RemoveAll(b, c)
    decreases |a|
  {
    if a != [] {
      assert (a + b)[1..] == a[1..] + b;
      RemoveAllAppend(a[1..], b, c);
    } else {
      assert a + b == b;
    }
  }

  /** `_int` ignores thousands separators: "2,345.00" converts as "2345.00" does.
      (When parsing fails each string comes back as itself, so they differ.) */
  lemma IntCoerceIgnoresCommas(parse: Parser, a: string, b: string)
    requires a + b != [] && parse(RemoveAll(a + b, ',')).Some?
    ensures IntCoerce(parse, Str(a + [','] + b)) == IntCoerce(parse, Str(a + b))
  {
    RemoveAllAppend(a + [','], b, ',');
    RemoveAllAppend(a, [','], ',');
    RemoveAllAppend(a, b, ',');
    assert RemoveAll([','], ',') == [] by {
      assert [','][1..] == [];
    }
    assert RemoveAll(a + [','] + b, ',') == RemoveAll(a + b, ',');
    assert a + [','] + b != [];
  }
}

=== FILE: cli.dfy ===
/**
 datasimple/cli.py: the `[!x]`/`[!/x]` colour-tag shorthand that `clrfmt`
 rewrites into colorclass `{autoX}` tags, the LOG_LEVEL and COLOR_DEFAULT
 settings read from the environment, and which messages `log` and `warn` emit.
 */
module Cli {
  import opened Base
  import opened Text

  // ---------------------------------------------------------------------------
  // Colour abbreviations

  /** The opening-tag abbreviations of `CLR_ABBREVS`. */
  const Colours: seq<(string, string)> := [
    ("k", "autoblack"), ("r", "autored"), ("g", "autogreen"), ("y", "autoyellow"),
    ("b", "autoblue"), ("m", "automagenta"), ("c", "autocyan"), ("w", "autowhite"),
    ("bk", "autobgblack"), ("br", "autobgred"), ("bg", "autobggreen"), ("by", "autobgyellow"),
    ("bb", "autobgblue"), ("bm", "autobgmagenta"), ("bc", "autobgcyan"), ("bw", "autobgwhite")]

  /** The ending-tag entries added by `CLR_ABBREVS.update`: '/' before key and value. */
  function Closing(t: seq<(string, string)>): (c: seq<(string, string)>)
    ensures |c| == |t|
    ensures forall i :: 0 <= i < |t| ==> c[i] == ("/" + t[i].0, "/" + t[i].1)
  {
    seq(|t|, i requires 0 <= i < |t| => ("/" + t[i].0, "/" + t[i].1))
  }

  /** `CLR_ABBREVS` after the update. */
  function Abbrevs(): seq<(string, string)> {
    Colours + Closing(Colours)
  }

  /** `CLR_ABBREVS.get(val, val)`. */
  function Expand(val: string): (r: string)
    ensures Lookup(Abbrevs(), val).None? ==> r == val
  {
    Lookup(Abbrevs(), val).GetOr(val)
  }

  /** No opening abbreviation starts with '/'. */
  lemma ColoursNoSlash()
    ensures forall i :: 0 <= i < |Colours| ==> Colours[i].0 != [] && Colours[i].0[0] != '/'
  {
  }

  /** Looking up an ending tag in the added entries finds the ending form of the
      opening tag's entry. */
  lemma {:induction false} LookupClosing(t: seq<(string, string)>, x: string)
    ensures Lookup(Closing(t), "/" + x) ==
      match Lookup(t, x) case None => None case Some(e) => Some("/" + e)
    decreases |t|
  {
    if t != [] {
      var c := Closing(t);
      assert c[1..] == Closing(t[1..]);
      LookupClosing(t[1..], x);
      assert "/" + t[0].0 == "/" + x <==> t[0].0 == x by {
        if "/" + t[0].0 == "/" + x {
          assert ("/" + t[0].0)[1..] == t[0].0 && ("/" + x)[1..] == x;
        }
      }
    }
  }

  /** An ending tag expands to '/' and the expansion of its name, known or not. */
  lemma ExpandClosing(x: string)
    requires x == [] || x[0] != '/'
    ensures Expand("/" + x) == "/" + Expand(x)
  {
    ColoursNoSlash();
    forall i | 0 <= i < |Colours| ensures Colours[i].0 != "/" + x {
      assert ("/" + x)[0] == '/';
    }
    LookupSpec(Colours, "/" + x);
    LookupAppend(Colours, Closing(Colours), "/" + x);
    LookupClosing(Colours, x);
    ExpandOpening(x);
  }

  /** A name without '/' expands through the opening abbreviations, or to itself. */
  lemma ExpandOpening(x: string)
    requires x == [] || x[0] != '/'
    ensures Expand(x) == Lookup(Colours, x).GetOr(x)
  {
    LookupAppend(Colours, Closing(Colours), x);
    LookupMissSlash(Colours, x);
  }

  /** The added entries all start with '/', so a name without one misses them. */
  lemma LookupMissSlash(t: seq<(string, string)>, x: string)
    requires x == [] || x[0] != '/'
    ensures Lookup(Closing(t), x).None?
  {
    var c := Closing(t);
    forall i | 0 <= i < |c| ensures c[i].0 != x {
      assert c[i].0[0] == '/';
    }
    LookupSpec(c, x);
  }

  // ---------------------------------------------------------------------------
  // clrfmt's tag rewrite: re.sub(r'(\[!)(/?[A-Za-z]+)(\])', _matchclr, s)

  predicate Letters(s: string) {
    forall i :: 0 <= i < |s| ==> IsAsciiLetter(s[i])
  }

  /** The length of the run of ASCII letters at the front of `s`. */
  function LetterRun(s: string): (n: nat)
    ensures n <= |s| && Letters(s[..n])
    ensures n < |s| ==> !IsAsciiLetter(s[n])
    decreases |s|
  {
    if s != [] && IsAsciiLetter(s[0]) then
      var n := LetterRun(s[1..]) + 1;
      assert s[..n] == [s[0]] + s[1..][..n - 1];
      n
    else 0
  }

  /** A tag at the very front of `s`: its length and the captured name (with a
      leading '/' for an ending tag). */
  function TagAt(s: string): (r: Option<(nat, string)>)
    ensures r.Some? ==> 0 < r.value.0 <= |s|
    ensures r.Some? ==> exists name: string, closing: bool ::
      name != [] && Letters(name) && s[..r.value.0] == Tag(name, closing) &&
      r.value.1 == TagName(name, closing)
  {
    if |s| >= 2 && s[0] == '[' && s[1] == '!' then
      var j := if |s| > 2 && s[2] == '/' then 3 else 2;
      var n := LetterRun(s[j..]);
      if n >= 1 && j + n < |s| && s[j + n] == ']' then
        var name, closing := s[j..j + n], j == 3;
        assert s[j..][..n] == name;
        assert s[..j] == Opener(closing);
        assert s[..j + n + 1] == s[..j] + name + "]";
        assert s[..j + n + 1] == Tag(name, closing);
        assert s[2..j + n] == s[2..j] + name;
        assert s[2..j + n] == TagName(name, closing);
        Some((j + n + 1, s[2..j + n]))
      else None
    else None
  }

  /** A colorclass tag: `{name}`. */
  function Braced(name: string): string {
    "{" + name + "}"
  }

  /** `clrfmt` without the format arguments and colorclass rendering: every tag,
      scanning left to right, becomes `{` + expansion + `}`. */
  function Rewrite(s: string): (r: string)
    ensures '[' !in s ==> r == s
    decreases |s|
  {
    if s == [] then []
    else
      match TagAt(s)
      case Some((n, val)) => Braced(Expand(val)) + Rewrite(s[n..])
      case None => [s[0]] + Rewrite(s[1..])
  }

  /** The captured name of a tag: `name`, or `/name` for an ending tag. */
  function TagName(name: string, closing: bool): string {
    if closing then "/" + name else name
  }

  /** A tag in the shorthand: `[!name]`, or `[!/name]` when `closing`. */
  function Tag(name: string, closing: bool): string {
    Opener(closing) + name + "]"
  }

  function Opener(closing: bool): string {
    if closing then "[!/" else "[!"
  }

  /** The tag spelt by `Tag` is the tag found there. */
  lemma TagAtTag(name: string, closing: bool, rest: string)
    requires name != [] && Letters(name)
    ensures TagAt(Tag(name, closing) + rest) ==
      Some((|Tag(name, closing)|, TagName(name, closing)))
  {
    if closing {
      TagAtClosing(name, rest);
    } else {
      TagAtOpening(name, rest);
    }
  }

  lemma TagAtOpening(name: string, rest: string)
    requires name != [] && Letters(name)
    ensures TagAt(Tag(name, false) + rest) == Some((|name| + 3, name))
  {
    var body := name + "]" + rest;
    var s := Tag(name, false) + rest;
    assert s == "[!" + body;
    assert s[2..] == body;
    assert s[0] == '[' && s[1] == '!' && s[2] == name[0];
    TagAtFrom(s, 2, name, rest);
    assert s[2..2 + |name|] == name;
  }

  lemma TagAtClosing(name: string, rest: string)
    requires name != [] && Letters(name)
    ensures TagAt(Tag(name, true) + rest) == Some((|name| + 4, "/" + name))
  {
    var body := name + "]" + rest;
    var s := Tag(name, true) + rest;
    assert s == "[!/" + body;
    assert s[3..] == body;
    assert s[0] == '[' && s[1] == '!' && s[2] == '/';
    TagAtFrom(s, 3, name, rest);
    assert s[2..3 + |name|] == "/" + name;
  }

  /** A tag whose name starts at `j`, right after `[!` or `[!/`. */
  lemma TagAtFrom(s: string, j: nat, name: string, rest: string)
    requires 2 <= j <= 3 && |s| > j && s[0] == '[' && s[1] == '!'
    requires (j == 3) == (s[2] == '/')
    requires s[j..] == name + "]" + rest && name != [] && Letters(name)
    ensures TagAt(s) == Some((j + |name| + 1, s[2..j + |name|]))
  {
    var body := s[j..];
    LetterRunOf(name, "]" + rest);
    assert body == name + ("]" + rest);
    assert body[|name|] == ']';
    assert s[j + |name|] == body[|name|];
  }

  lemma {:induction false} LetterRunOf(name: string, rest: string)
    requires Letters(name) && (rest == [] || !IsAsciiLetter(rest[0]))
    ensures LetterRun(name + rest) == |name|
    decreases |name|
  {
    if name != [] {
      assert (name + rest)[1..] == name[1..] + rest;
      LetterRunOf(name[1..], rest);
    } else {
      assert name + rest == rest;
    }
  }

  /** A tag is replaced by its expansion in braces and the scan goes on after it. */
  lemma RewriteTag(name: string, closing: bool, rest: string)
    requires name != [] && Letters(name)
    ensures Rewrite(Tag(name, closing) + rest) ==
      Braced(Expand(TagName(name, closing))) + Rewrite(rest)
  {
    TagAtTag(name, closing, rest);
    var s := Tag(name, closing) + rest;
    assert s[|Tag(name, closing)|..] == rest;
  }

  /** An ending tag becomes `{/` + expansion of the name + `}`. */
  lemma RewriteClosingTag(name: string, rest: string)
    requires name != [] && Letters(name)
    ensures Rewrite(Tag(name, true) + rest) == Braced("/" + Expand(name)) + Rewrite(rest)
  {
    RewriteTag(name, true, rest);
    ExpandClosing(name);
  }

  /** Unknown names are kept verbatim inside the braces. */
  lemma RewriteUnknown(name: string, closing: bool, rest: string)
    requires name != [] && Letters(name) && Lookup(Colours, name).None?
    ensures Rewrite(Tag(name, closing) + rest) ==
      Braced(TagName(name, closing)) + Rewrite(rest)
  {
    ExpandOpening(name);
    RewriteKept(name, closing, rest);
  }

  lemma RewriteKept(name: string, closing: bool, rest: string)
    requires name != [] && Letters(name) && Expand(name) == name
    ensures Rewrite(Tag(name, closing) + rest) ==
      Braced(TagName(name, closing)) + Rewrite(rest)
  {
    RewriteTag(name, closing, rest);
    if closing {
      ExpandClosing(name);
    }
  }

  /** A bracket that starts no tag is copied and the scan resumes right after it. */
  lemma RewriteNoTag(s: string)
    requires s != [] && TagAt(s).None?
    ensures Rewrite(s) == [s[0]] + Rewrite(s[1..])
  {
  }

  /** `[!` followed by something other than letters and `]` (a digit, say) is not
      a tag: it is copied unchanged. */
  lemma RewriteNotLetters(c: char, rest: string)
    requires !IsAsciiLetter(c) && c != '/' && '[' !in [c] + rest
    ensures Rewrite("[!" + ([c] + rest)) == "[!" + ([c] + rest)
  {
    var t := [c] + rest;
    var s := "[!" + t;
    assert s[0] == '[' && s[1] == '!' && s[2] == c;
    assert s[2..] == t && t[0] == c;
    assert LetterRun(t) == 0;
    assert TagAt(s).None?;
    var u := s[1..];
    assert u == "!" + t;
    assert '[' !in u by {
      forall i | 0 <= i < |u| ensures u[i] != '[' {
        if i > 0 {
          assert u[i] == t[i - 1];
        }
      }
    }
    assert Rewrite(u) == u;
    assert s == [s[0]] + u;
  }

  /** An unclosed tag at the end of the text is copied unchanged. */
  lemma RewriteUnclosed(name: string)
    requires Letters(name)
    ensures Rewrite("[!" + name) == "[!" + name
  {
    var s := "[!" + name;
    assert s[2..] == name;
    LetterRunOf(name, []);
    assert name + [] == name;
    assert '[' !in s[1..] by {
      forall i | 0 <= i < |s[1..]| ensures s[1..][i] != '[' {
        if i > 0 {
          assert s[1..][i] == name[i - 1];
        }
      }
    }
    assert Rewrite(s[1..]) == s[1..];
  }

  /** An opening and an ending tag around untagged text. */
  lemma RewritePair(name: string, t: string)
    requires name != [] && Letters(name) && '[' !in t
    ensures var e := Expand(name);
      Rewrite(Tag(name, false) + t + Tag(name, true)) == Braced(e) + t + Braced("/" + e)
  {
    var e := Expand(name);
    var close := Tag(name, true);
    RewriteOpenThen(name, t, close);
    RewriteLoneClosing(name);
    var a, b := Braced(e), Braced("/" + e);
    assert a + (t + b) == a + t + b;
  }

  lemma RewriteOpenThen(name: string, t: string, rest: string)
    requires name != [] && Letters(name) && '[' !in t
    ensures Rewrite(Tag(name, false) + t + rest) == Braced(Expand(name)) + (t + Rewrite(rest))
  {
    var open := Tag(name, false);
    assert open + t + rest == open + (t + rest);
    RewriteTag(name, false, t + rest);
    RewriteAppendNoBracket(t, rest);
  }

  lemma RewriteLoneClosing(name: string)
    requires name != [] && Letters(name)
    ensures Rewrite(Tag(name, true)) == Braced("/" + Expand(name))
  {
    RewriteClosingTag(name, []);
    assert Tag(name, true) + [] == Tag(name, true);
    assert Rewrite([]) == [];
    var b := Braced("/" + Expand(name));
    assert b + [] == b;
  }

  /** `[!g]Hello World[!/g]` becomes `{autogreen}Hello World{/autogreen}`, for
      any text without '[' in place of "Hello World". */
  lemma RewriteGreen(t: string)
    requires '[' !in t
    ensures Rewrite(Tag("g", false) + t + Tag("g", true)) == "{autogreen}" + t + "{/autogreen}"
  {
    ExpandGreen();
    RewritePairAs("g", t, "autogreen");
    GreenBraces();
  }

  lemma RewritePairAs(name: string, t: string, e: string)
    requires name != [] && Letters(name) && '[' !in t && Expand(name) == e
    ensures Rewrite(Tag(name, false) + t + Tag(name, true)) == Braced(e) + t + Braced("/" + e)
  {
    RewritePair(name, t);
  }

  lemma GreenBraces()
    ensures Braced("autogreen") == "{autogreen}" && Braced("/" + "autogreen") == "{/autogreen}"
  {
  }

  lemma ExpandGreen()
    ensures Expand("g") == "autogreen"
  {
    ExpandOpening("g");
    assert Lookup(Colours, "g") == Some("autogreen");
  }

  /** Text without '[' in front of more text is copied and the rest rewritten. */
  lemma {:induction false} RewriteAppendNoBracket(t: string, rest: string)
    requires '[' !in t
    ensures Rewrite(t + rest) == t + Rewrite(rest)
    decreases |t|
  {
    if t != [] {
      assert t[0] in t;
      assert (t + rest)[1..] == t[1..] + rest;
      RewriteAppendNoBracket(t[1..], rest);
    } else {
      assert t + rest == rest;
    }
  }

  // ---------------------------------------------------------------------------
  // LOG_LEVEL and COLOR_DEFAULT

  datatype Level = NoLog | Info | Warn

  /** `os.environ.get('LOG_LEVEL', 'WARN').upper().strip()`, checked against the
      allowed levels; any other value raises ValueError at import. */
  function ParseLevel(env: Option<string>): (r: Outcome<Level>)
    ensures env.None? ==> r == Returned(Warn)
    ensures r.Returned? <==> Strip(Upper(env.GetOr("WARN"))) in {"NONE", "INFO", "WARN"}
  {
    var v := Strip(Upper(env.GetOr("WARN")));
    if v == "NONE" then Returned(NoLog)
    else if v == "INFO" then Returned(Info)
    else if v == "WARN" then Returned(Warn)
    else Raised
  }

  /** `COLOR_DEFAULT`: unset means YES; otherwise on iff the upper-cased value
      is non-empty and starts with T, Y or 1. */
  function ParseColour(env: Option<string>): (on: bool)
    ensures env.None? ==> on
    ensures env == Some([]) ==> !on
  {
    var v := Upper(env.GetOr("YES"));
    if v != [] then v[0] in "TY1" else false
  }

  lemma UpperSpace(s: string)
    requires AllSpace(s)
    ensures Upper(s) == s
  {
  }

  lemma UpperAppend(a: string, b: string)
    ensures Upper(a + b) == Upper(a) + Upper(b)
  {
  }

  lemma UpperIdempotent(s: string)
    ensures Upper(Upper(s)) == Upper(s)
  {
  }

  /** The level is read without regard to case or surrounding blanks. */
  lemma LevelLenient(a: string, w: string, b: string)
    requires AllSpace(a) && AllSpace(b)
    ensures ParseLevel(Some(a + w + b)) == ParseLevel(Some(Upper(Strip(w))))
  {
    StripUpper(a, w, b);
    var u := Upper(Strip(w));
    UpperIdempotent(Strip(w));
    StripFixed(u);
  }

  /** Upper-casing a padded word and stripping it gives the upper-cased core:
      blanks are not letters, so the two steps commute. */
  lemma StripUpper(a: string, w: string, b: string)
    requires AllSpace(a) && AllSpace(b)
    ensures Strip(Upper(a + w + b)) == Upper(Strip(w))
  {
    var p, q := StripParts(w);
    var c := Strip(w);
    assert a + w + b == (a + p) + c + (q + b);
    UpperAppend((a + p) + c, q + b);
    UpperAppend(a + p, c);
    UpperSpace(a + p);
    UpperSpace(q + b);
    StripAround(a + p, Upper(c), q + b);
  }

  lemma StripFixed(s: string)
    requires s == [] || (!IsSpace(s[0]) && !IsSpace(s[|s| - 1]))
    ensures Strip(s) == s
  {
    StripAround([], s, []);
    assert [] + s + [] == s;
  }

  /** Colour is read from the first character alone, without regard to case. */
  lemma ColourFirstChar(v: string)
    requires v != []
    ensures ParseColour(Some(v)) <==> UpperChar(v[0]) in "TY1"
  {
  }

  lemma ColourLowerCase(v: string)
    ensures ParseColour(Some(Lower(v))) == ParseColour(Some(v))
  {
  }

  // ---------------------------------------------------------------------------
  // log and warn

  /** `log(msg, docolor=...)` without format arguments: nothing at level NONE;
      otherwise the prefix and message on one line, with colour tags rewritten
      when colour is on (explicitly, or by default). */
  function Log(level: Level, colourDefault: bool, docolor: Option<bool>, prefix: string, msg: string): (out: Option<string>)
    ensures out.None? <==> level == NoLog
    ensures out.Some? ==> |out.value| >= 1 && out.value[|out.value| - 1] == '\n'
  {
    if level == NoLog then None
    else
      var line := prefix + msg;
      Some((if docolor.GetOr(colourDefault) then Rewrite(line) else line) + "\n")
  }

  /** `clr(msg, color=c)` without format arguments. */
  function Clr(msg: string, colour: string): string {
    Braced(colour) + msg + Braced("/" + colour)
  }

  /** `warn(msg)`: a red message through `log`, only at level WARN. */
  function WarnLine(level: Level, colourDefault: bool, prefix: string, msg: string): (out: Option<string>)
    ensures out.Some? <==> level == Warn
  {
    if level == Warn then Log(level, colourDefault, None, prefix, Clr(msg, "autored")) else None
  }

  /** Only WARN emits warnings, INFO and WARN emit log lines; at WARN a warning
      is the log line of the red-wrapped message. */
  lemma Gating(level: Level, colourDefault: bool, prefix: string, msg: string)
    ensures WarnLine(level, colourDefault, prefix, msg).Some? ==> Log(level, colourDefault, None, prefix, msg).Some?
    ensures level == Info ==> WarnLine(level, colourDefault, prefix, msg).None? && Log(level, colourDefault, None, prefix, msg).Some?
    ensures level == Warn ==> WarnLine(level, colourDefault, prefix, msg) == Log(level, colourDefault, None, prefix, Clr(msg, "autored"))
  {
  }

  /** With colour off, the line is written as given. */
  lemma LogPlain(level: Level, prefix: string, msg: string)
    requires level != NoLog
    ensures Log(level, false, None, prefix, msg) == Some(prefix + msg + "\n")
  {
  }
}

=== FILE: core.dfy ===
/**
 The string and sequence helpers of datasimple/core.py: part-number
 compression, truthy filtering, first element, first value in bounds,
 "key: value" splitting and whitespace normalisation.
 */
module Core {
  import opened Base
  import opened Text

  // ---------------------------------------------------------------------------
  // norm_ws

  /** `' '.join(s.strip().split())`: the words of `s` separated by single spaces. */
  function NormWs(s: string): (r: string)
    ensures SplitWs(r) == SplitWs(s)
    ensures r == [] || (!IsSpace(r[0]) && !IsSpace(r[|r| - 1]))
    ensures forall i :: 0 <= i < |r| && IsSpace(r[i]) ==>
              r[i] == ' ' && 0 < i < |r| - 1 && !IsSpace(r[i + 1])
  {
    var ws := SplitWs(Strip(s));
    SplitWsStrip(s);
    SplitWsWords(Strip(s));
    SplitWsJoin(ws, " ", []);
    assert Join(" ", ws) + [] == Join(" ", ws);
    JoinSingleSpaced(ws);
    Join(" ", ws)
  }

  /** Normalising twice changes nothing more. */
  lemma NormWsIdempotent(s: string)
    ensures NormWs(NormWs(s)) == NormWs(s)
  {
    SplitWsStrip(NormWs(s));
    SplitWsStrip(s);
  }

  // ---------------------------------------------------------------------------
  // comppart

  /** The characters `[0-9A-Z]` that survive compression. */
  predicate PartChar(c: char) {
    '0' <= c <= '9' || 'A' <= c <= 'Z'
  }

  predicate Compressed(s: string) {
    forall i :: 0 <= i < |s| ==> PartChar(s[i]) && s[i] != 'O'
  }

  /** upper() and then replace('O', '0'), one character at a time. */
  function PartMap(c: char): char {
    var u := UpperChar(c);
    if u == 'O' then '0' else u
  }

  /** The mapped characters with every run outside `[0-9A-Z]` removed. */
  function Clean(s: string): (r: string)
    ensures Compressed(r)
    ensures |r| <= |s|
  {
    if s == [] then []
    else
      var c := PartMap(s[0]);
      var rest := Clean(s[1..]);
      if PartChar(c) then [c] + rest else rest
  }

  predicate StartsWithThe(s: string) {
    |s| >= 3 && s[..3] == "THE"
  }

  /** `comppart(s)`: clean the part number and drop one leading "THE". */
  function CompPart(s: string): (r: string)
    ensures Compressed(r)
    ensures |r| <= |s|
  {
    var c := Clean(Strip(s));
    if StartsWithThe(c) then c[3..] else c
  }

  lemma {:induction false} CleanAppend(a: string, b: string)
    ensures Clean(a + b) == Clean(a) + Clean(b)
    decreases |a|
  {
    if a == [] {
      assert a + b == b;
    } else {
      assert (a + b)[0] == a[0];
      assert (a + b)[1..] == a[1..] + b;
      CleanAppend(a[1..], b);
    }
  }

  lemma {:induction false} CleanSpaces(s: string)
    requires AllSpace(s)
    ensures Clean(s) == []
    decreases |s|
  {
    if s != [] {
      CleanSpaces(s[1..]);
    }
  }

  /** Surrounding whitespace has no effect on the cleaned text. */
  lemma CleanStrip(s: string)
    ensures Clean(Strip(s)) == Clean(s)
  {
    LStripParts(s);
    var l := LStrip(s);
    var k := |s| - |l|;
    RStripParts(l);
    var r := RStrip(l);
    CleanAppend(s[..k], l);
    CleanAppend(r, l[|r|..]);
    CleanSpaces(s[..k]);
    CleanSpaces(l[|r|..]);
  }

  /** Text that is already compressed is left alone by cleaning. */
  lemma {:induction false} CleanCompressed(s: string)
    requires Compressed(s)
    ensures Clean(s) == s
    decreases |s|
  {
    if s != [] {
      CleanCompressed(s[1..]);
      assert s == [s[0]] + s[1..];
    }
  }

  lemma {:induction false} CleanLower(s: string)
    ensures Clean(Lower(s)) == Clean(s)
    decreases |s|
  {
    if s != [] {
      CleanLower(s[1..]);
      assert Lower(s)[1..] == Lower(s[1..]);
    }
  }

  /** What cleaning does to one character: the letter O in either case becomes the
      digit 0, other ASCII letters are upper-cased, digits stay, and every other
      character is removed. With `CleanAppend` this describes `Clean` completely. */
  lemma CleanChar(c: char)
    ensures c == 'O' || c == 'o' ==> Clean([c]) == "0"
    ensures IsDigit(c) || ('A' <= c <= 'Z' && c != 'O') ==> Clean([c]) == [c]
    ensures 'a' <= c <= 'z' && c != 'o' ==> Clean([c]) == [UpperChar(c)] && 'A' <= UpperChar(c) <= 'Z'
    ensures !IsDigit(c) && !IsAsciiLetter(c) ==> Clean([c]) == []
  {
    assert [c][1..] == [];
  }

  /** Text without ASCII letters or digits cleans to nothing. */
  lemma {:induction false} CleanDropsOthers(s: string)
    requires forall i :: 0 <= i < |s| ==> !IsDigit(s[i]) && !IsAsciiLetter(s[i])
    ensures Clean(s) == []
    decreases |s|
  {
    if s != [] {
      CleanDropsOthers(s[1..]);
      CleanChar(s[0]);
      assert s == [s[0]] + s[1..];
      CleanAppend([s[0]], s[1..]);
    }
  }

  /** Whitespace-only input compresses to the empty string. */
  lemma CompPartBlank(s: string)
    requires AllSpace(s)
    ensures CompPart(s) == []
  {
    StripEmpty(s);
  }

  /** Compression ignores letter case. */
  lemma CompPartIgnoresCase(s: string)
    ensures CompPart(Lower(s)) == CompPart(s)
  {
    CleanStrip(s);
    CleanStrip(Lower(s));
    CleanLower(s);
  }

  /** An already compressed part number not starting with THE is a fixed point. */
  lemma CompPartFixed(s: string)
    requires Compressed(s) && !StartsWithThe(s)
    ensures CompPart(s) == s
  {
    CleanStrip(s);
    CleanCompressed(s);
  }

  /** Exactly one leading THE is removed, even when another THE follows. */
  lemma CompPartDropsOneThe(s: string)
    requires Compressed(s)
    ensures CompPart("THE" + s) == s
  {
    CleanStrip("THE" + s);
    CleanCompressed("THE" + s);
    assert ("THE" + s)[..3] == "THE";
    assert ("THE" + s)[3..] == s;
  }

  /** Stripping is redundant: compression is the cleaned raw text with one THE dropped. */
  lemma CompPartClean(s: string)
    ensures CompPart(s) == (var c := Clean(s); if StartsWithThe(c) then c[3..] else c)
  {
    CleanStrip(s);
  }

  lemma CleanHello()
    ensures Clean("hello") == "HELL0"
  {
    CleanChar('h'); CleanChar('e'); CleanChar('l'); CleanChar('o');
  }

  lemma CleanWorld()
    ensures Clean("world") == "W0RLD"
  {
    CleanChar('w'); CleanChar('o'); CleanChar('r'); CleanChar('l'); CleanChar('d');
  }

  lemma CleanHelloWorld(a: string, b: string, c: string)
    requires a == "hello" && b == "-" && c == "world"
    ensures Clean(a + b + c) == "HELL0W0RLD"
  {
    CleanAppend(a + b, c);
    CleanAppend(a, b);
    CleanChar('-');
    CleanHello();
    CleanWorld();
  }

  /** A part number written in lower case with a dash: case is folded, the dash
      dropped and each O read as a zero. */
  lemma CompPartHelloWorld(s: string)
    requires s == " hello-world "
    ensures CompPart(s) == "HELL0W0RLD"
  {
    var w := s[1..12];
    assert s == s[..1] + w + s[12..];
    assert w == s[1..6] + s[6..7] + s[7..12];
    assert s[..1] == " " && s[12..] == " ";
    assert s[1..6] == "hello";
    assert s[6..7] == "-";
    assert s[7..12] == "world";
    CleanAppend(s[..1] + w, s[12..]);
    CleanAppend(s[..1], w);
    CleanChar(' ');
    CleanHelloWorld(s[1..6], s[6..7], s[7..12]);
    var c := "HELL0W0RLD";
    assert c[..3] != "THE" by { assert c[0] == 'H'; }
    CompPartClean(s);
  }

  lemma CleanThe()
    ensures Clean("the") == "THE"
  {
    CleanChar('t'); CleanChar('h'); CleanChar('e');
  }

  lemma CleanPart()
    ensures Clean("part") == "PART"
  {
    CleanChar('p'); CleanChar('a'); CleanChar('r'); CleanChar('t');
  }

  lemma CleanThePart(a: string, b: string, c: string)
    requires a == "the" && b == " " && c == "part"
    ensures Clean(a + b + c) == "THEPART"
  {
    CleanAppend(a + b, c);
    CleanAppend(a, b);
    CleanChar(' ');
    CleanThe();
    CleanPart();
  }

  /** A leading article is dropped once the surrounding blanks are gone. */
  lemma CompPartThePart(s: string)
    requires s == " the part "
    ensures CompPart(s) == "PART"
  {
    var w := s[1..9];
    assert s == s[..1] + w + s[9..];
    assert w == s[1..4] + s[4..5] + s[5..9];
    assert s[..1] == " " && s[9..] == " ";
    assert s[1..4] == "the";
    assert s[4..5] == " ";
    assert s[5..9] == "part";
    CleanAppend(s[..1] + w, s[9..]);
    CleanAppend(s[..1], w);
    CleanChar(' ');
    CleanThePart(s[1..4], s[4..5], s[5..9]);
    var c := "THEPART";
    assert c[..3] == "THE" && c[3..] == "PART";
    CompPartClean(s);
  }

  /** The ASCII punctuation characters, none of them a letter or a digit. */
  const Punctuation: string := "~!@#$%^&*()_=+{}[]|\\;:,<.>/?\"\\'"

  lemma CleanPunctuation()
    ensures Clean(Punctuation) == []
  {
    CleanDropsOthers(Punctuation);
  }

  /** Punctuation on either side of a part number is dropped. */
  lemma CompPartPunctuation(a: string, b: string)
    requires a == "A" + Punctuation && b == Punctuation + "A"
    ensures CompPart(a) == "A" && CompPart(b) == "A"
  {
    CleanPunctuation();
    CleanChar('A');
    CleanAppend("A", Punctuation);
    CompPartClean(a);
    CleanAppend(Punctuation, "A");
    CompPartClean(b);
  }

  // ---------------------------------------------------------------------------
  // compact, first

  /** `[i for i in src if i]`, with Python truthiness given as `truthy`. */
  function Compact<T>(src: seq<T>, truthy: T -> bool): (r: seq<T>)
    ensures |r| <= |src|
    ensures forall i :: 0 <= i < |r| ==> truthy(r[i])
    ensures forall x :: x in r ==> x in src
    ensures forall x :: x in src && truthy(x) ==> x in r
  {
    if src == [] then []
    else
      var rest := Compact(src[1..], truthy);
      assert forall x :: x in src ==> x == src[0] || x in src[1..];
      if truthy(src[0]) then [src[0]] + rest else rest
  }

  /** Filtering distributes over concatenation, so the original order is kept. */
  lemma {:induction false} CompactAppend<T>(a: seq<T>, b: seq<T>, truthy: T -> bool)
    ensures Compact(a + b, truthy) == Compact(a, truthy) + Compact(b, truthy)
    decreases |a|
  {
    if a == [] {
      assert a + b == b;
    } else {
      assert (a + b)[0] == a[0];
      assert (a + b)[1..] == a[1..] + b;
      CompactAppend(a[1..], b, truthy);
    }
  }

  /** `t[0] if t else None`. */
  function First<T>(t: seq<T>): (r: Option<T>)
    ensures r.Some? <==> |t| > 0
    ensures r.Some? ==> r.value == t[0]
  {
    if |t| > 0 then Some(t[0]) else None
  }

  // ---------------------------------------------------------------------------
  // first_in

  /** Whether `v` lies strictly between the (optional) converted bounds. */
  predicate InBounds(v: real, lo: Option<real>, hi: Option<real>) {
    (lo.None? || v > lo.value) && (hi.None? || v < hi.value)
  }

  /** Whether argument `a` converts and lands inside the bounds. */
  predicate Accepted<A>(func: A -> Option<real>, a: A, lo: Option<real>, hi: Option<real>) {
    func(a).Some? && InBounds(func(a).value, lo, hi)
  }

  /** Converts an optional bound with `func`; a failure to convert it propagates. */
  function ConvertBound<A>(func: A -> Option<real>, b: Option<A>): Outcome<Option<real>> {
    match b
    case None => Returned(None)
    case Some(x) => if func(x).Some? then Returned(Some(func(x).value)) else Raised
  }

  /** `first_in(*args, func=func, floor=floor, ceil=ceil, defval=defval)`: `func` is a
      partial function (None where the Python call raises), and `defval` is None
      unless the caller passes one, so "nothing found" is a returned None. */
  method FirstIn<A>(args: seq<A>, func: A -> Option<real>, floor: Option<A>, ceil: Option<A>, defval: Option<real>)
    returns (r: Outcome<Option<real>>)
    ensures r.Raised? <==> ConvertBound(func, floor).Raised? || ConvertBound(func, ceil).Raised?
    ensures r.Returned? ==>
      var lo := ConvertBound(func, floor).value;
      var hi := ConvertBound(func, ceil).value;
      (exists i :: 0 <= i < |args| && Accepted(func, args[i], lo, hi) && r.value == Some(func(args[i]).value) &&
                   forall j :: 0 <= j < i ==> !Accepted(func, args[j], lo, hi)) ||
      ((forall i :: 0 <= i < |args| ==> !Accepted(func, args[i], lo, hi)) && r.value == defval)
  {
    var fl := ConvertBound(func, floor);
    if fl.Raised? {
      return Raised;
    }
    var cl := ConvertBound(func, ceil);
    if cl.Raised? {
      return Raised;
    }
    var lo, hi := fl.value, cl.value;
    var k := 0;
    while k < |args|
      invariant 0 <= k <= |args|
      invariant forall j :: 0 <= j < k ==> !Accepted(func, args[j], lo, hi)
    {
      var v := func(args[k]);
      if v.Some? && InBounds(v.value, lo, hi) {
        return Returned(Some(v.value));
      }
      k := k + 1;
    }
    return Returned(defval);
  }

  // ---------------------------------------------------------------------------
  // kv

  /** `[i.strip() for i in parts if i.strip()]`. */
  function Fields(parts: seq<string>): (r: seq<string>)
    ensures |r| <= |parts|
  {
    if parts == [] then []
    else
      var p := Strip(parts[0]);
      if p == [] then Fields(parts[1..]) else [p] + Fields(parts[1..])
  }

  /** A field: non-empty, already stripped, free of the delimiter. */
  predicate CleanField(f: string, d: char) {
    f != [] && Strip(f) == f && d !in f
  }

  /** Field extraction works piece by piece, keeping the order of the pieces. */
  lemma {:induction false} FieldsAppend(a: seq<string>, b: seq<string>)
    ensures Fields(a + b) == Fields(a) + Fields(b)
    decreases |a|
  {
    if a == [] {
      assert a + b == b;
    } else {
      assert (a + b)[0] == a[0];
      assert (a + b)[1..] == a[1..] + b;
      FieldsAppend(a[1..], b);
    }
  }

  /** One piece survives, stripped, exactly when it is not blank. */
  lemma FieldsOne(p: string)
    ensures Fields([p]) == if AllSpace(p) then [] else [Strip(p)]
  {
    StripEmpty(p);
  }

  lemma {:induction false} FieldsClean(parts: seq<string>, d: char)
    requires forall i :: 0 <= i < |parts| ==> d !in parts[i]
    ensures forall i :: 0 <= i < |Fields(parts)| ==> CleanField(Fields(parts)[i], d)
    decreases |parts|
  {
    if parts != [] {
      FieldsClean(parts[1..], d);
      var p := Strip(parts[0]);
      StripChars(parts[0]);
      if p != [] {
        StripAround([], p, []);
        assert [] + p + [] == p;
        var r := Fields(parts);
        assert r == [p] + Fields(parts[1..]);
        forall i | 0 <= i < |r| ensures CleanField(r[i], d) {
          if i > 0 {
            assert r[i] == Fields(parts[1..])[i - 1];
          }
        }
      }
    }
  }

  lemma {:induction false} FieldsOfClean(parts: seq<string>, d: char)
    requires forall i :: 0 <= i < |parts| ==> CleanField(parts[i], d)
    ensures Fields(parts) == parts
    decreases |parts|
  {
    if parts != [] {
      FieldsOfClean(parts[1..], d);
      assert parts == [parts[0]] + parts[1..];
    }
  }

  /** The stripped, non-empty pieces of `s` split on `d`. */
  function KvFields(s: string, d: char): seq<string> {
    Fields(SplitOn(s, d))
  }

  /** `kv(s, delim=d)`: the key is the first field (None if there is none), the
      value is the remaining fields joined with the delimiter. */
  function Kv(s: string, d: char): (r: (Option<string>, string))
    ensures r.0.None? <==> KvFields(s, d) == []
    ensures r.0.Some? ==> r.0.value == KvFields(s, d)[0] && CleanField(r.0.value, d)
    ensures |KvFields(s, d)| < 2 ==> r.1 == []
    ensures |KvFields(s, d)| >= 2 ==> SplitOn(r.1, d) == KvFields(s, d)[1..]
  {
    var flds := KvFields(s, d);
    FieldsClean(SplitOn(s, d), d);
    if |flds| < 2 then
      (First(flds), [])
    else
      SplitOnJoin(flds[1..], d);
      (Some(flds[0]), Join([d], flds[1..]))
  }

  /** Splitting `key<d>v1<d>v2...` gives back the key and the joined values. */
  lemma KvJoin(key: string, vals: seq<string>, d: char)
    requires CleanField(key, d)
    requires forall i :: 0 <= i < |vals| ==> CleanField(vals[i], d)
    ensures Kv(Join([d], [key] + vals), d) == (Some(key), Join([d], vals))
  {
    var parts := [key] + vals;
    assert forall i :: 0 <= i < |parts| ==> CleanField(parts[i], d) by {
      forall i | 0 <= i < |parts| ensures CleanField(parts[i], d) {
        if i > 0 {
          assert parts[i] == vals[i - 1];
        }
      }
    }
    SplitOnJoin(parts, d);
    FieldsOfClean(parts, d);
    assert parts[1..] == vals;
  }
}

=== FILE: dates.dfy ===
/**
 The SQL functions of datasimple/sqlite.py: `ds_datetime`, a lenient m/d/y
 date parser returning `YYYY-MM-DD`, and `comppart`. Neither may raise into
 sqlite, so every failure is one of three results: NULL, the input string
 unchanged, or NULL after an error report.
 */
module Dates {
  import opened Base
  import opened Text
  import Core

  // ---------------------------------------------------------------------------
  // Decimal digits

  function DigitVal(c: char): nat
    requires IsDigit(c)
  {
    c as nat - '0' as nat
  }

  function DigitChar(n: nat): (c: char)
    requires n < 10
    ensures IsDigit(c) && DigitVal(c) == n
  {
    ('0' as nat + n) as char
  }

  /** The value of a string of ASCII digits. */
  function ParseDigits(s: string): nat
    requires AllDigits(s)
    decreases |s|
  {
    if s == [] then 0 else ParseDigits(s[..|s| - 1]) * 10 + DigitVal(s[|s| - 1])
  }

  /** The decimal spelling of `n`, without leading zeros. */
  function Dec(n: nat): (s: string)
    ensures s != [] && AllDigits(s)
    decreases n
  {
    if n < 10 then [DigitChar(n)] else Dec(n / 10) + [DigitChar(n % 10)]
  }

  function Zeros(k: nat): (s: string)
    ensures |s| == k && AllDigits(s)
    ensures forall i :: 0 <= i < k ==> s[i] == '0'
  {
    seq(k, i => '0')
  }

  /** Parsing the spelling of a number gives the number back; a positive number's
      spelling does not start with '0'. */
  lemma {:induction false} DecParses(n: nat)
    ensures ParseDigits(Dec(n)) == n
    ensures n >= 1 ==> Dec(n)[0] != '0'
    decreases n
  {
    if n >= 10 {
      DecParses(n / 10);
      var s := Dec(n);
      assert s[..|s| - 1] == Dec(n / 10);
    }
  }

  /** `f.lstrip('0')`. */
  function LStripZeros(s: string): (r: string)
    ensures |r| <= |s|
    ensures r == [] || r[0] != '0'
    decreases |s|
  {
    if s != [] && s[0] == '0' then LStripZeros(s[1..]) else s
  }

  lemma {:induction false} LStripZerosOf(k: nat, s: string)
    requires s == [] || s[0] != '0'
    ensures LStripZeros(Zeros(k) + s) == s
    decreases k
  {
    if k > 0 {
      assert (Zeros(k) + s)[1..] == Zeros(k - 1) + s;
      LStripZerosOf(k - 1, s);
    } else {
      assert Zeros(0) + s == s;
    }
  }

  /** `int(f.lstrip('0'))` for fields of ASCII digits: None where it raises
      ValueError, which includes a field made only of zeros (`int('')`). */
  function IntField(f: string): (r: Option<nat>)
    ensures r.Some? ==> r.value >= 1
  {
    var t := LStripZeros(f);
    if t != [] && AllDigits(t) then
      (DecParses(ParseDigits(t));
       LeadingDigitPositive(t);
       Some(ParseDigits(t)))
    else None
  }

  lemma {:induction false} LeadingDigitPositive(t: string)
    requires t != [] && AllDigits(t) && t[0] != '0'
    ensures ParseDigits(t) >= 1
    decreases |t|
  {
    if |t| > 1 {
      LeadingDigitPositive(t[..|t| - 1]);
    }
  }

  /** A field of leading zeros and a positive number reads as that number. */
  lemma IntFieldOf(k: nat, n: nat)
    requires n >= 1
    ensures IntField(Zeros(k) + Dec(n)) == Some(n)
  {
    DecParses(n);
    LStripZerosOf(k, Dec(n));
  }

  /** A field of zeros alone does not read as a number. */
  lemma IntFieldZeros(k: nat)
    ensures IntField(Zeros(k)).None?
  {
    LStripZerosOf(k, []);
    assert Zeros(k) + [] == Zeros(k);
  }

  // ---------------------------------------------------------------------------
  // The calendar

  predicate Leap(y: int) {
    y % 4 == 0 && (y % 100 != 0 || y % 400 == 0)
  }

  function DaysIn(y: int, m: int): nat
    requires 1 <= m <= 12
  {
    if m == 2 then (if Leap(y) then 29 else 28)
    else if m == 4 || m == 6 || m == 9 || m == 11 then 30
    else 31
  }

  /** What `datetime(y, m, d)` accepts: years 1 to 9999 and a day of that month. */
  predicate ValidDate(y: int, m: int, d: int) {
    1 <= y <= 9999 && 1 <= m <= 12 && 1 <= d <= DaysIn(y, m)
  }

  /** The largest C `int`: `datetime()` raises OverflowError for larger arguments. */
  const CIntMax: int := 0x7FFF_FFFF

  /** `'%Y-%m-%d'`, zero-padded: the digits of `n`, at least `width` of them, and
      no leading zero beyond the width. */
  function Pad(n: nat, width: nat): (s: string)
    ensures |s| >= width && AllDigits(s) && ParseDigits(s) == n
    ensures |s| > width ==> |s| == 1 || s[0] != '0'
  {
    var d := Dec(n);
    DecParses(n);
    if |d| < width then
      ZerosPrefixParse(width - |d|, d);
      Zeros(width - |d|) + d
    else d
  }

  /** Leading zeros do not change the value of a digit string. */
  lemma {:induction false} ZerosPrefixParse(k: nat, d: string)
    requires AllDigits(d)
    ensures AllDigits(Zeros(k) + d) && ParseDigits(Zeros(k) + d) == ParseDigits(d)
    decreases k
  {
    if k == 0 {
      assert Zeros(k) + d == d;
    } else {
      var f := Zeros(k) + d;
      assert f[1..] == Zeros(k - 1) + d;
      ZerosPrefixParse(k - 1, d);
      ParseLeadingZero(f);
    }
  }

  function Format(y: nat, m: nat, d: nat): string {
    Pad(y, 4) + "-" + Pad(m, 2) + "-" + Pad(d, 2)
  }

  // ---------------------------------------------------------------------------
  // _db_customdate_parse and _db_datetime

  /** How `_db_customdate_parse` ends: a date, a `None` return, a ValueError, or
      another exception. */
  datatype Parsed = Date(y: nat, m: nat, d: nat) | NoDate | ValueErr | OtherErr

  /** What `ds_datetime` hands back to sqlite. */
  datatype DbResult =
    | Null             // None returned directly
    | Text(s: string)
    | NullAfterError   // None after an exception was caught and reported

  /** `norm_ws(s).split(' ')[0]`: the text up to the first whitespace run. */
  function FirstWord(s: string): (w: string)
    ensures SplitWs(s) != [] ==> w == SplitWs(s)[0]
    ensures SplitWs(s) == [] ==> w == []
  {
    FirstWordIsFirstSplit(s);
    SplitOn(Core.NormWs(s), ' ')[0]
  }

  /** The first piece of the normalised text is the first of `s.split()`, or
      empty for blank text. */
  lemma FirstWordIsFirstSplit(s: string)
    ensures SplitOn(Core.NormWs(s), ' ')[0] == if SplitWs(s) == [] then [] else SplitWs(s)[0]
  {
    if SplitWs(s) == [] {
      SplitWsEmpty(Core.NormWs(s));
      assert Core.NormWs(s) == [];
      return;
    }
    var ws := SplitWs(Strip(s));
    SplitWsStrip(s);
    SplitWsWords(Strip(s));
    assert IsSpace(' ');
    assert forall i :: 0 <= i < |ws| ==> ' ' !in ws[i];
    SplitOnJoin(ws, ' ');
    assert Core.NormWs(s) == Join([' '], ws);
  }

  /** The '/'-separated fields of the first word: m/d/y, m/y, or neither. */
  datatype Reading = Mdy(fm: string, fd: string, fy: string) | My(fm: string, fy: string) | NotADate

  /** `flds = s.split('/')` and the branch on `len(flds)`. */
  function Read(w: string): (r: Reading)
    ensures r.NotADate? <==> |SplitOn(w, '/')| != 2 && |SplitOn(w, '/')| != 3
    ensures r.Mdy? ==> SplitOn(w, '/') == [r.fm, r.fd, r.fy]
    ensures r.My? ==> SplitOn(w, '/') == [r.fm, r.fy]
  {
    var flds := SplitOn(w, '/');
    if |flds| == 3 then Mdy(flds[0], flds[1], flds[2])
    else if |flds| == 2 then My(flds[0], flds[1])
    else NotADate
  }

  /** Reading joins back: the fields of an m/d/y word are its '/'-free pieces. */
  lemma ReadMdy(fm: string, fd: string, fy: string)
    requires '/' !in fm && '/' !in fd && '/' !in fy
    ensures Read(fm + "/" + fd + "/" + fy) == Mdy(fm, fd, fy)
  {
    assert fm + "/" + fd + "/" + fy == fm + ['/'] + (fd + ['/'] + fy);
    SplitOnAt(fm, '/', fd + ['/'] + fy);
    SplitOnAt(fd, '/', fy);
    SplitOnNoSep(fy, '/');
  }

  lemma ReadMy(fm: string, fy: string)
    requires '/' !in fm && '/' !in fy
    ensures Read(fm + "/" + fy) == My(fm, fy)
  {
    assert fm + "/" + fy == fm + ['/'] + fy;
    SplitOnAt(fm, '/', fy);
    SplitOnNoSep(fy, '/');
  }

  lemma ReadNoSlash(w: string)
    requires '/' !in w
    ensures Read(w) == NotADate
  {
    SplitOnNoSep(w, '/');
  }

  /** The date a reading gives once each field is a number: two-digit years
      are 20xx, and `datetime()` rejects what does not fit a C int or the calendar. */
  function MakeDate(yr: nat, mth: nat, day: nat): (r: Parsed)
    ensures r.Date? <==> var y := if yr < 100 then yr + 2000 else yr;
      ValidDate(y, mth, day) && y <= CIntMax
    ensures r.Date? ==> r == Date(if yr < 100 then yr + 2000 else yr, mth, day)
    ensures r.OtherErr? <==> (if yr < 100 then yr + 2000 else yr) > CIntMax || mth > CIntMax || day > CIntMax
  {
    var y := if yr < 100 then yr + 2000 else yr;
    if y > CIntMax || mth > CIntMax || day > CIntMax then OtherErr
    else if !ValidDate(y, mth, day) then ValueErr
    else Date(y, mth, day)
  }

  /** The `int()` conversions and `datetime()` call of `_db_customdate_parse`,
      in the source's order. In the m/y branch `day = 1` is an int, so once the
      month has been read `1.lstrip('0')` raises AttributeError. */
  function Interpret(r: Reading): (p: Parsed)
    ensures p.Date? ==> ValidDate(p.y, p.m, p.d)
    ensures r.My? ==> !p.Date?
    ensures p == NoDate <==> r.NotADate?
  {
    match r
    case Mdy(fm, fd, fy) =>
      (match (IntField(fm), IntField(fd), IntField(fy))
       case (Some(mth), Some(day), Some(yr)) => MakeDate(yr, mth, day)
       case _ => ValueErr)
    case My(fm, _) => if IntField(fm).None? then ValueErr else OtherErr
    case NotADate => NoDate
  }

  /** `_db_customdate_parse(s)`. */
  function CustomParse(s: string): (r: Parsed)
    ensures r.Date? ==> ValidDate(r.y, r.m, r.d)
  {
    Interpret(Read(FirstWord(s)))
  }

  /** The `try` around the parse: a date is formatted, a ValueError hands back the
      stripped input, and any other exception (including `None.strftime`) is
      reported and swallowed. */
  function Finish(t: string, p: Parsed): (r: DbResult)
    ensures r.Text? <==> p.Date? || p.ValueErr?
    ensures p.ValueErr? ==> r == Text(t)
  {
    match p
    case Date(y, m, d) => Text(Format(y, m, d))
    case ValueErr => Text(t)
    case NoDate => NullAfterError
    case OtherErr => NullAfterError
  }

  /** `_db_datetime(s)`, with SQL NULL as None. */
  function DbDatetime(arg: Option<string>): (r: DbResult)
    ensures r == Null <==> arg.None? || AllSpace(arg.value)
    ensures r.Text? ==> var t := Strip(arg.value);
      r == Finish(t, CustomParse(t)) && (CustomParse(t).Date? || CustomParse(t).ValueErr?)
  {
    match arg
    case None => Null
    case Some(s) =>
      StripEmpty(s);
      if s == [] then Null
      else
        var t := Strip(s);
        if t == [] then Null else Finish(t, CustomParse(t))
  }

  /** The first word of a line that starts with `w` (after blanks) followed by a
      blank or nothing is `w`; the line is not blank. */
  lemma StrippedFirstWord(pre: string, w: string, post: string)
    requires AllSpace(pre) && w != [] && NoSpace(w) && (post == [] || IsSpace(post[0]))
    ensures var t := Strip(pre + w + post); t != [] && FirstWord(t) == w
  {
    var x := pre + w + post;
    assert x == pre + (w + post);
    SplitWsSpacePrefix(pre, w + post);
    SplitWsStep(w, post);
    SplitWsStrip(x);
    var t := Strip(x);
    SplitWsEmpty(t);
  }

  /** `ds_datetime` on a line whose first word is `w` depends on `w` alone, except
      that a ValueError hands back the whole stripped line. */
  lemma DbDatetimeWord(pre: string, w: string, post: string)
    requires AllSpace(pre) && w != [] && NoSpace(w) && (post == [] || IsSpace(post[0]))
    ensures var t := Strip(pre + w + post);
      DbDatetime(Some(pre + w + post)) == Finish(t, Interpret(Read(w)))
  {
    StrippedFirstWord(pre, w, post);
  }

  /** A bare word is its own stripped line. */
  lemma DbDatetimeBareWord(w: string)
    requires w != [] && NoSpace(w)
    ensures DbDatetime(Some(w)) == Finish(w, Interpret(Read(w)))
  {
    DbDatetimeWord([], w, []);
    assert [] + w + [] == w;
    StripAround([], w, []);
  }

  /** `_db_comppart(p)`: `comppart(p)`, NULL reading as the string "None". */
  function DbCompPart(arg: Option<string>): (r: string)
    ensures Core.Compressed(r)
    ensures arg.Some? ==> r == Core.CompPart(arg.value)
  {
    Core.CompPart(match arg case None => "None" case Some(s) => s)
  }

  // ---------------------------------------------------------------------------
  // Round trip

  /** A numeric field as people write it: some leading zeros, then the number. */
  function Field(zeros: nat, n: nat): (f: string)
    ensures f != [] && AllDigits(f)
  {
    Zeros(zeros) + Dec(n)
  }

  lemma DigitsWord(f: string)
    requires AllDigits(f)
    ensures NoSpace(f) && '/' !in f
  {
  }

  /** m/d/y built from digit strings is one blank-free word. */
  lemma DateWord(fm: string, fd: string, fy: string)
    requires AllDigits(fm) && AllDigits(fd) && AllDigits(fy)
    ensures NoSpace(fm + "/" + fd + "/" + fy)
    ensures Read(fm + "/" + fd + "/" + fy) == Mdy(fm, fd, fy)
  {
    var w := fm + "/" + fd + "/" + fy;
    forall i | 0 <= i < |w| ensures !IsSpace(w[i]) {
      if i < |fm| {
        assert w[i] == fm[i];
      } else if i == |fm| || i == |fm| + 1 + |fd| {
      } else if i < |fm| + 1 + |fd| {
        assert w[i] == fd[i - |fm| - 1];
      } else {
        assert w[i] == fy[i - |fm| - |fd| - 2];
      }
    }
    DigitsWord(fm);
    DigitsWord(fd);
    DigitsWord(fy);
    ReadMdy(fm, fd, fy);
  }

  lemma MonthYearWord(fm: string, fy: string)
    requires AllDigits(fm) && AllDigits(fy)
    ensures NoSpace(fm + "/" + fy)
    ensures Read(fm + "/" + fy) == My(fm, fy)
  {
    var w := fm + "/" + fy;
    forall i | 0 <= i < |w| ensures !IsSpace(w[i]) {
      if i < |fm| {
        assert w[i] == fm[i];
      } else if i > |fm| {
        assert w[i] == fy[i - |fm| - 1];
      }
    }
    DigitsWord(fm);
    DigitsWord(fy);
    ReadMy(fm, fy);
  }

  /** The year a field value stands for. */
  function FullYear(yr: nat): nat {
    if yr < 100 then yr + 2000 else yr
  }

  /** Interpreting the fields of a valid date gives that date. */
  lemma InterpretDate(m: nat, d: nat, yr: nat, zm: nat, zd: nat, zy: nat)
    requires yr >= 1 && ValidDate(FullYear(yr), m, d)
    ensures Interpret(Mdy(Field(zm, m), Field(zd, d), Field(zy, yr))) == Date(FullYear(yr), m, d)
  {
    IntFieldOf(zm, m);
    IntFieldOf(zd, d);
    IntFieldOf(zy, yr);
  }

  /** A valid date written m/d/y (fields may carry leading zeros, a year below
      100 means 20xx, blanks around it and anything after the first blank are
      ignored) comes back as YYYY-MM-DD. */
  lemma RoundTrip(m: nat, d: nat, yr: nat, zm: nat, zd: nat, zy: nat, pre: string, post: string)
    requires yr >= 1 && ValidDate(FullYear(yr), m, d)
    requires AllSpace(pre) && (post == [] || IsSpace(post[0]))
    ensures DbDatetime(Some(pre + (Field(zm, m) + "/" + Field(zd, d) + "/" + Field(zy, yr)) + post))
      == Text(Format(FullYear(yr), m, d))
  {
    var fm, fd, fy := Field(zm, m), Field(zd, d), Field(zy, yr);
    DateWord(fm, fd, fy);
    DbDatetimeWord(pre, fm + "/" + fd + "/" + fy, post);
    InterpretDate(m, d, yr, zm, zd, zy);
  }

  // ---------------------------------------------------------------------------
  // Error paths

  /** A word without '/' is no date: None.strftime raises and the error is
      swallowed. */
  lemma NoSlashNoDate(w: string)
    requires w != [] && NoSpace(w) && '/' !in w
    ensures DbDatetime(Some(w)) == NullAfterError
  {
    DbDatetimeBareWord(w);
    ReadNoSlash(w);
  }

  /** An m/d/y word whose date does not exist comes back unchanged. */
  lemma InvalidDateKept(m: nat, d: nat, yr: nat)
    requires 1 <= m && 1 <= d && 1 <= yr
    requires !ValidDate(FullYear(yr), m, d) && FullYear(yr) <= CIntMax && m <= CIntMax && d <= CIntMax
    ensures var w := Field(0, m) + "/" + Field(0, d) + "/" + Field(0, yr); DbDatetime(Some(w)) == Text(w)
  {
    var fm, fd, fy := Field(0, m), Field(0, d), Field(0, yr);
    DateWord(fm, fd, fy);
    DbDatetimeBareWord(fm + "/" + fd + "/" + fy);
    IntFieldOf(0, m);
    IntFieldOf(0, d);
    IntFieldOf(0, yr);
  }

  // ---------------------------------------------------------------------------
  // Findings: month/year input and the year "00"

  /** As written, "m/yyyy" never yields a date: after the month is read the
      integer day 1 has no `lstrip`, and the AttributeError is swallowed. */
  lemma MonthYearAsWritten(m: nat, yr: nat, zm: nat, zy: nat)
    requires 1 <= m <= 12 && 1000 <= yr <= 9999
    ensures DbDatetime(Some(Field(zm, m) + "/" + Field(zy, yr))) == NullAfterError
  {
    var fm, fy := Field(zm, m), Field(zy, yr);
    MonthYearWord(fm, fy);
    DbDatetimeBareWord(fm + "/" + fy);
    IntFieldOf(zm, m);
  }

  /** As written, a year field of zeros ("1/1/00") fails `int('')` and the input
      comes back unchanged instead of 2000-01-01. */
  lemma YearZeroAsWritten(m: nat, d: nat, zy: nat)
    requires ValidDate(2000, m, d) && zy >= 1
    ensures var w := Field(0, m) + "/" + Field(0, d) + "/" + Zeros(zy); DbDatetime(Some(w)) == Text(w)
  {
    var fm, fd, fy := Field(0, m), Field(0, d), Zeros(zy);
    DateWord(fm, fd, fy);
    DbDatetimeBareWord(fm + "/" + fd + "/" + fy);
    IntFieldOf(0, m);
    IntFieldOf(0, d);
    IntFieldZeros(zy);
  }

  /** The evidently intended field reading: any non-empty digit string is its
      number, so a year of zeros is year 0 and becomes 2000. */
  function IntFieldFixed(f: string): (r: Option<nat>)
    ensures f != [] && AllDigits(f) <==> r.Some?
  {
    if f != [] && AllDigits(f) then Some(ParseDigits(f)) else None
  }

  lemma {:induction false} ParseLeadingZero(f: string)
    requires |f| >= 1 && AllDigits(f) && f[0] == '0'
    ensures ParseDigits(f) == ParseDigits(f[1..])
    decreases |f|
  {
    if |f| > 1 {
      ParseLeadingZero(f[..|f| - 1]);
      assert f[..|f| - 1][1..] == f[1..][..|f[1..]| - 1];
    }
  }

  /** Wherever the original reads a number, the corrected reading agrees. */
  lemma {:induction false} IntFieldFixedAgrees(f: string)
    requires IntField(f).Some?
    ensures IntFieldFixed(f) == IntField(f)
    decreases |f|
  {
    if f != [] && f[0] == '0' {
      IntFieldFixedAgrees(f[1..]);
      ParseLeadingZero(f);
    }
  }

  /** The corrected interpretation: an m/y word is that month's first day, and
      fields are read as plain digit strings. */
  function InterpretFixed(r: Reading): (p: Parsed)
    ensures p.Date? ==> ValidDate(p.y, p.m, p.d)
    ensures r.My? && p.Date? ==> p.d == 1
    ensures p == NoDate <==> r.NotADate?
  {
    match r
    case Mdy(fm, fd, fy) =>
      (match (IntFieldFixed(fm), IntFieldFixed(fd), IntFieldFixed(fy))
       case (Some(mth), Some(day), Some(yr)) => MakeDate(yr, mth, day)
       case _ => ValueErr)
    case My(fm, fy) =>
      (match (IntFieldFixed(fm), IntFieldFixed(fy))
       case (Some(mth), Some(yr)) => MakeDate(yr, mth, 1)
       case _ => ValueErr)
    case NotADate => NoDate
  }

  /** `_db_datetime` over the corrected interpretation. */
  function DbDatetimeFixed(arg: Option<string>): (r: DbResult)
    ensures r == Null <==> arg.None? || AllSpace(arg.value)
    ensures r.Text? ==> var t := Strip(arg.value);
      var p := InterpretFixed(Read(FirstWord(t)));
      r == Finish(t, p) && (p.Date? || p.ValueErr?)
  {
    match arg
    case None => Null
    case Some(s) =>
      StripEmpty(s);
      if s == [] then Null
      else
        var t := Strip(s);
        if t == [] then Null else Finish(t, InterpretFixed(Read(FirstWord(t))))
  }

  lemma DbDatetimeFixedBareWord(w: string)
    requires w != [] && NoSpace(w)
    ensures DbDatetimeFixed(Some(w)) == Finish(w, InterpretFixed(Read(w)))
  {
    StrippedFirstWord([], w, []);
    assert [] + w + [] == w;
    StripAround([], w, []);
  }

  /** Every date the original finds in a reading, the corrected one finds too. */
  lemma FixedKeepsDates(r: Reading)
    requires Interpret(r).Date?
    ensures InterpretFixed(r) == Interpret(r)
  {
    IntFieldFixedAgrees(r.fm);
    IntFieldFixedAgrees(r.fd);
    IntFieldFixedAgrees(r.fy);
  }

  /** Corrected, "m/yyyy" is the first of that month. */
  lemma MonthYearFixed(m: nat, yr: nat, zm: nat, zy: nat)
    requires 1 <= m <= 12 && 1000 <= yr <= 9999
    ensures DbDatetimeFixed(Some(Field(zm, m) + "/" + Field(zy, yr))) == Text(Format(yr, m, 1))
  {
    var fm, fy := Field(zm, m), Field(zy, yr);
    MonthYearWord(fm, fy);
    DbDatetimeFixedBareWord(fm + "/" + fy);
    MonthYearFields(m, yr, zm, zy);
  }

  lemma MonthYearFields(m: nat, yr: nat, zm: nat, zy: nat)
    requires 1 <= m <= 12 && 1000 <= yr <= 9999
    ensures InterpretFixed(My(Field(zm, m), Field(zy, yr))) == Date(yr, m, 1)
  {
    var fm, fy := Field(zm, m), Field(zy, yr);
    IntFieldOf(zm, m);
    IntFieldOf(zy, yr);
    IntFieldFixedAgrees(fm);
    IntFieldFixedAgrees(fy);
    assert ValidDate(yr, m, 1);
  }

  lemma {:induction false} ZerosParse(k: nat)
    ensures ParseDigits(Zeros(k)) == 0
    decreases k
  {
    if k > 0 {
      assert Zeros(k)[..k - 1] == Zeros(k - 1);
      ZerosParse(k - 1);
    }
  }

  /** Corrected, a year of zeros is 2000. */
  lemma YearZeroFixed(m: nat, d: nat, zy: nat)
    requires ValidDate(2000, m, d) && zy >= 1
    ensures DbDatetimeFixed(Some(Field(0, m) + "/" + Field(0, d) + "/" + Zeros(zy))) == Text(Format(2000, m, d))
  {
    var fm, fd, fy := Field(0, m), Field(0, d), Zeros(zy);
    DateWord(fm, fd, fy);
    DbDatetimeFixedBareWord(fm + "/" + fd + "/" + fy);
    IntFieldOf(0, m);
    IntFieldOf(0, d);
    IntFieldFixedAgrees(fm);
    IntFieldFixedAgrees(fd);
    ZerosParse(zy);
  }
}

=== FILE: glob.dfy ===
/**
 The part of `fnmatch.fnmatch` the column mapper relies on: `*` matches any
 run of characters, `?` any one character, every other character itself, and
 the whole name must be consumed.
 */
module Glob {

  /** True when `name` matches the whole pattern `pat`. */
  predicate Matches(name: string, pat: string)
    decreases |pat|, |name|
  {
    if pat == [] then name == []
    else if pat[0] == '*' then Matches(name, pat[1..]) || (name != [] && Matches(name[1..], pat))
    else name != [] && (pat[0] == '?' || pat[0] == name[0]) && Matches(name[1..], pat[1..])
  }

  predicate StarFree(pat: string) {
    '*' !in pat
  }

  predicate Literal(pat: string) {
    '*' !in pat && '?' !in pat
  }

  /** Position-by-position agreement: the meaning of a pattern without `*`. */
  predicate Agrees(name: string, pat: string) {
    |name| == |pat| && forall i :: 0 <= i < |pat| ==> pat[i] == '?' || pat[i] == name[i]
  }

  /** Without `*`, matching is position-by-position agreement. */
  lemma {:induction false} MatchesStarFree(name: string, pat: string)
    requires StarFree(pat)
    ensures Matches(name, pat) <==> Agrees(name, pat)
    decreases |pat|
  {
    if pat != [] && name != [] {
      assert pat[0] in pat;
      assert StarFree(pat[1..]) by {
        forall c | c in pat[1..] ensures c != '*' {
          var k :| 0 <= k < |pat[1..]| && pat[1..][k] == c;
          assert pat[k + 1] == c;
        }
      }
      MatchesStarFree(name[1..], pat[1..]);
      if Agrees(name, pat) {
        assert forall i :: 0 <= i < |pat| - 1 ==> pat[1..][i] == pat[i + 1] && name[1..][i] == name[i + 1];
      }
      if Agrees(name[1..], pat[1..]) && (pat[0] == '?' || pat[0] == name[0]) {
        forall i | 0 <= i < |pat| ensures pat[i] == '?' || pat[i] == name[i] {
          if i > 0 {
            assert pat[1..][i - 1] == pat[i] && name[1..][i - 1] == name[i];
          }
        }
      }
    } else if pat != [] {
      assert pat[0] in pat;
    }
  }

  /** A pattern of literal characters matches only itself. */
  lemma MatchesLiteral(name: string, pat: string)
    requires Literal(pat)
    ensures Matches(name, pat) <==> name == pat
  {
    MatchesStarFree(name, pat);
    if Agrees(name, pat) {
      forall i | 0 <= i < |pat| ensures pat[i] == name[i] {
        assert pat[i] in pat;
      }
    }
  }

  /** A lone `*` matches every name. */
  lemma {:induction false} StarMatchesAll(name: string)
    ensures Matches(name, "*")
    decreases |name|
  {
    assert "*"[1..] == [];
    if name != [] {
      StarMatchesAll(name[1..]);
    }
  }

  /** `prefix*` matches exactly the names that start with `prefix`. */
  lemma {:induction false} MatchesPrefixStar(name: string, prefix: string)
    requires Literal(prefix)
    ensures Matches(name, prefix + "*") <==> |prefix| <= |name| && name[..|prefix|] == prefix
    decreases |prefix|
  {
    var pat := prefix + "*";
    if prefix == [] {
      assert pat == "*";
      StarMatchesAll(name);
    } else {
      assert pat[0] == prefix[0] && prefix[0] in prefix;
      assert pat[1..] == prefix[1..] + "*";
      assert Literal(prefix[1..]) by {
        forall c | c in prefix[1..] ensures c != '*' && c != '?' {
          var k :| 0 <= k < |prefix[1..]| && prefix[1..][k] == c;
          assert prefix[k + 1] == c;
        }
      }
      if name != [] {
        MatchesPrefixStar(name[1..], prefix[1..]);
        if |prefix| <= |name| && name[..|prefix|] == prefix {
          assert name[1..][..|prefix| - 1] == name[..|prefix|][1..];
        }
        if |prefix| - 1 <= |name| - 1 && name[1..][..|prefix| - 1] == prefix[1..] && name[0] == prefix[0] {
          assert name[..|prefix|] == [name[0]] + name[1..][..|prefix| - 1];
        }
      }
    }
  }
}

=== FILE: mapper.dfy ===
/**
 `ValueMapper` of datasimple/xl.py: given a sheet name it builds a column
 mapper that picks a cell style for a (column name, value) pair and coerces
 the value to suit that style.
 */
module Mapper {
  import opened Base
  import opened Text
  import opened Cells
  import Glob

  /** One config section: its (column, style) entries in file order. */
  type Section = seq<(string, string)>

  /** The parsed config file: section name to section. */
  type Config = map<string, Section>

  /** The mapper's tables: the built-in column styles and the parsed config. */
  datatype ValueMapper = ValueMapper(defaults: Section, config: Config)

  /** What `create_mapper` captures: the lookup layers, highest priority first,
      and the wildcard patterns (lower-cased) with their styles, in iteration order. */
  datatype ColumnMapper = ColumnMapper(layers: seq<Section>, wildcards: seq<(string, string)>)

  // ---------------------------------------------------------------------------
  // Sections and layered lookup

  /** `ChainMap(*layers).get(k)`: the first layer that has `k` decides. */
  function ChainGet(layers: seq<Section>, k: string): (r: Option<string>)
    ensures r.None? <==> forall j :: 0 <= j < |layers| ==> Lookup(layers[j], k).None?
    ensures r.Some? ==> exists i ::
      && 0 <= i < |layers| && Lookup(layers[i], k) == r
      && forall j :: 0 <= j < i ==> Lookup(layers[j], k).None?
    decreases |layers|
  {
    if layers == [] then None
    else match Lookup(layers[0], k)
      case Some(v) => Some(v)
      case None => ChainGet(layers[1..], k)
  }

  /** When layer i is the first layer holding `k`, layer i decides. */
  lemma {:induction false} ChainGetFirstLayer(layers: seq<Section>, k: string, i: nat)
    requires i < |layers| && Lookup(layers[i], k).Some?
    requires forall j :: 0 <= j < i ==> Lookup(layers[j], k).None?
    ensures ChainGet(layers, k) == Lookup(layers[i], k)
    decreases i
  {
    if i > 0 {
      ChainGetFirstLayer(layers[1..], k, i - 1);
    }
  }

  // ---------------------------------------------------------------------------
  // ChainMap iteration order and the wildcard list

  function Keys(sec: Section): (ks: seq<string>)
    ensures |ks| == |sec|
  {
    seq(|sec|, i requires 0 <= i < |sec| => sec[i].0)
  }

  /** The first occurrence of each key, in order. */
  function Dedup(ks: seq<string>): (r: seq<string>)
    ensures forall k :: k in r <==> k in ks
    ensures forall i, j :: 0 <= i < j < |r| ==> r[i] != r[j]
    decreases |ks|
  {
    if ks == [] then []
    else
      var init := ks[..|ks| - 1];
      var last := ks[|ks| - 1];
      assert ks == init + [last];
      var r := Dedup(init);
      if last in r then r else r + [last]
  }

  /** The position of the first occurrence of `k` in `ks`. */
  function IndexOf(ks: seq<string>, k: string): (i: nat)
    requires k in ks
    ensures i < |ks| && ks[i] == k && k !in ks[..i]
    decreases |ks|
  {
    if ks[0] == k then 0
    else
      assert k in ks[1..] by { var m :| 0 <= m < |ks| && ks[m] == k; assert ks[1..][m - 1] == k; }
      var m := IndexOf(ks[1..], k);
      assert ks[..m + 1] == [ks[0]] + ks[1..][..m];
      m + 1
  }

  /** A position holding `k` with no `k` before it is the first occurrence. */
  lemma IndexOfAt(ks: seq<string>, k: string, i: nat)
    requires i < |ks| && ks[i] == k && k !in ks[..i]
    ensures IndexOf(ks, k) == i
  {
    var m := IndexOf(ks, k);
    assert forall j :: 0 <= j < i ==> ks[j] == ks[..i][j];
    assert forall j :: 0 <= j < m ==> ks[j] == ks[..m][j];
  }

  /** Appending keys does not move the first occurrence of a key already present. */
  lemma IndexOfPrefix(a: seq<string>, b: seq<string>, k: string)
    requires k in a
    ensures IndexOf(a + b, k) == IndexOf(a, k)
  {
    var m := IndexOf(a, k);
    assert (a + b)[..m] == a[..m];
    IndexOfAt(a + b, k, m);
  }

  /** A key absent from `a` first occurs in `a + b` after all of `a`. */
  lemma IndexOfSuffix(a: seq<string>, b: seq<string>, k: string)
    requires k !in a && k in b
    ensures IndexOf(a + b, k) >= |a|
  {
    assert forall j :: 0 <= j < |a| ==> (a + b)[j] == a[j];
  }

  /** `Dedup` lists the keys by their first occurrence: of any two entries the one
      met first in `ks` comes first. With the contract of `Dedup` this fixes its
      result completely. */
  lemma {:induction false} DedupOrder(ks: seq<string>)
    ensures forall i, j :: 0 <= i < j < |Dedup(ks)| ==> IndexOf(ks, Dedup(ks)[i]) < IndexOf(ks, Dedup(ks)[j])
    decreases |ks|
  {
    if ks != [] {
      var init := ks[..|ks| - 1];
      var last := ks[|ks| - 1];
      assert ks == init + [last];
      var r0 := Dedup(init);
      var r := Dedup(ks);
      assert r == if last in r0 then r0 else r0 + [last];
      DedupOrder(init);
      forall i, j | 0 <= i < j < |r| ensures IndexOf(ks, r[i]) < IndexOf(ks, r[j]) {
        assert r[i] == r0[i] && r0[i] in init;
        IndexOfPrefix(init, [last], r0[i]);
        if j < |r0| {
          assert r[j] == r0[j] && r0[j] in init;
          IndexOfPrefix(init, [last], r0[j]);
          assert IndexOf(init, r0[i]) < IndexOf(init, r0[j]);
        } else {
          assert r[j] == last && last !in init;
          assert ks[..|init|] == init;
          IndexOfAt(ks, last, |init|);
        }
      }
    }
  }

  /** The keys of the layers, the lowest-priority layer first. */
  function ReversedKeys(layers: seq<Section>): seq<string>
    decreases |layers|
  {
    if layers == [] then [] else ReversedKeys(layers[1..]) + Keys(layers[0])
  }

  /** `iter(ChainMap(*layers))` (Python 3.7 and later): every key once, ordered by
      its first appearance when the layers are read from last to first. */
  function ChainKeys(layers: seq<Section>): (ks: seq<string>)
    ensures forall k :: k in ks <==> exists j :: 0 <= j < |layers| && k in Keys(layers[j])
    ensures Distinct(ks)
  {
    ReversedKeysIn(layers);
    Dedup(ReversedKeys(layers))
  }

  /** A key is among the reversed keys exactly when some layer holds it. */
  lemma {:induction false} ReversedKeysIn(layers: seq<Section>)
    ensures forall k :: k in ReversedKeys(layers) <==> exists j :: 0 <= j < |layers| && k in Keys(layers[j])
    decreases |layers|
  {
    if layers != [] {
      ReversedKeysIn(layers[1..]);
      forall k | k in ReversedKeys(layers) ensures exists j :: 0 <= j < |layers| && k in Keys(layers[j]) {
        if k !in Keys(layers[0]) {
          assert k in ReversedKeys(layers[1..]);
          var j :| 0 <= j < |layers[1..]| && k in Keys(layers[1..][j]);
          assert layers[1..][j] == layers[j + 1];
        }
      }
      forall k | exists j :: 0 <= j < |layers| && k in Keys(layers[j]) ensures k in ReversedKeys(layers) {
        var j :| 0 <= j < |layers| && k in Keys(layers[j]);
        if j > 0 {
          assert layers[1..][j - 1] == layers[j];
        }
      }
    }
  }

  /** `[(k.lower(), v) for k, v in col_map.items() if '*' in k]` over `keys`. */
  function WildcardsOf(layers: seq<Section>, keys: seq<string>): seq<(string, string)>
    decreases |keys|
  {
    if keys == [] then []
    else
      var k := keys[0];
      (if '*' in k then [(Lower(k), ChainGet(layers, k).GetOr([]))] else []) + WildcardsOf(layers, keys[1..])
  }

  /** Every wildcard entry comes from a key containing `*`, paired with that key's
      chain value; every such key contributes one entry. */
  lemma {:induction false} WildcardsOfSpec(layers: seq<Section>, keys: seq<string>)
    ensures forall e :: e in WildcardsOf(layers, keys) ==>
      exists k :: k in keys && '*' in k && e == (Lower(k), ChainGet(layers, k).GetOr([]))
    ensures forall k :: k in keys && '*' in k ==> (Lower(k), ChainGet(layers, k).GetOr([])) in WildcardsOf(layers, keys)
    decreases |keys|
  {
    if keys != [] {
      WildcardsOfSpec(layers, keys[1..]);
      forall k | k in keys && '*' in k
        ensures (Lower(k), ChainGet(layers, k).GetOr([])) in WildcardsOf(layers, keys)
      {
        if k != keys[0] {
          var i :| 0 <= i < |keys| && keys[i] == k;
          assert keys[1..][i - 1] == k;
        }
      }
    }
  }

  /** The style of the first wildcard whose pattern matches `name`, if any. */
  function FirstMatch(wild: seq<(string, string)>, name: string): (r: Option<string>)
    ensures r.None? <==> forall j :: 0 <= j < |wild| ==> !Glob.Matches(name, wild[j].0)
    ensures r.Some? ==> exists i ::
      && 0 <= i < |wild| && Glob.Matches(name, wild[i].0) && r.value == wild[i].1
      && forall j :: 0 <= j < i ==> !Glob.Matches(name, wild[j].0)
    decreases |wild|
  {
    if wild == [] then None
    else if Glob.Matches(name, wild[0].0) then Some(wild[0].1)
    else FirstMatch(wild[1..], name)
  }

  /** Pattern i decides when it is the first that matches. */
  lemma {:induction false} FirstMatchAt(wild: seq<(string, string)>, name: string, i: nat)
    requires i < |wild| && Glob.Matches(name, wild[i].0)
    requires forall j :: 0 <= j < i ==> !Glob.Matches(name, wild[j].0)
    ensures FirstMatch(wild, name) == Some(wild[i].1)
    decreases i
  {
    if i > 0 {
      FirstMatchAt(wild[1..], name, i - 1);
    }
  }

  // ---------------------------------------------------------------------------
  // Construction

  /** The built-in column styles of `__init__`. */
  const DefaultMapping: Section := [("Qty", "IMComma"), ("ExtPrice", "IMCurrency")]

  /** `ValueMapper(config_file)` with the config already parsed (an empty map when
      no file is given). */
  function NewValueMapper(config: Config): (m: ValueMapper)
    ensures Lookup(m.defaults, "Qty") == Some("IMComma")
    ensures Lookup(m.defaults, "ExtPrice") == Some("IMCurrency")
    ensures forall k :: k != "Qty" && k != "ExtPrice" ==> Lookup(m.defaults, k).None?
    ensures m.config == config
  {
    ValueMapper(DefaultMapping, config)
  }

  /** `config.get(name, {})`. */
  function SectionOf(config: Config, name: string): Section {
    if name in config then config[name] else []
  }

  /** `create_mapper(sheet_name)`: the sheet's section over WORKBOOK over the
      built-ins, and the wildcard list taken from them in ChainMap order. */
  function CreateMapper(m: ValueMapper, sheet: string): (cm: ColumnMapper)
    ensures cm.layers == [SectionOf(m.config, sheet), SectionOf(m.config, "WORKBOOK"), m.defaults]
    ensures forall e :: e in cm.wildcards ==>
      exists k :: k in ReversedKeys(cm.layers) && '*' in k && e == (Lower(k), ChainGet(cm.layers, k).GetOr([]))
    ensures forall k :: k in ReversedKeys(cm.layers) && '*' in k ==>
      (Lower(k), ChainGet(cm.layers, k).GetOr([])) in cm.wildcards
  {
    var layers := [SectionOf(m.config, sheet), SectionOf(m.config, "WORKBOOK"), m.defaults];
    WildcardsOfSpec(layers, ChainKeys(layers));
    ColumnMapper(layers, WildcardsOf(layers, ChainKeys(layers)))
  }

  /** The entry a wildcard key contributes. */
  function WildEntry(layers: seq<Section>, k: string): (string, string) {
    (Lower(k), ChainGet(layers, k).GetOr([]))
  }

  /** Of two wildcard keys, the earlier one's entry comes first in the list. */
  lemma WildcardsOfBefore(layers: seq<Section>, keys: seq<string>, a: nat, b: nat)
    requires a < b < |keys| && '*' in keys[a] && '*' in keys[b]
    ensures var w := WildcardsOf(layers, keys);
      exists i, j :: 0 <= i < j < |w| && w[i] == WildEntry(layers, keys[a]) && w[j] == WildEntry(layers, keys[b])
  {
    var w := WildcardsOf(layers, keys);
    var pre, rest := keys[..a], keys[a..];
    assert keys == pre + rest;
    WildcardsOfAppend(layers, pre, rest);
    var tail := WildcardsOf(layers, rest[1..]);
    assert WildcardsOf(layers, rest) == [WildEntry(layers, keys[a])] + tail;
    assert keys[b] == rest[1..][b - a - 1];
    WildcardsOfSpec(layers, rest[1..]);
    var m :| 0 <= m < |tail| && tail[m] == WildEntry(layers, keys[b]);
    var i := |WildcardsOf(layers, pre)|;
    assert w[i] == WildEntry(layers, keys[a]);
    assert w[i + 1 + m] == WildEntry(layers, keys[b]);
  }

  /** A key of `front` is listed before a key only `back` holds. */
  lemma DedupBefore(front: seq<string>, back: seq<string>, x: string, y: string)
    requires x in front && y in back && y !in front
    ensures exists a, b ::
      && 0 <= a < b < |Dedup(front + back)|
      && Dedup(front + back)[a] == x && Dedup(front + back)[b] == y
  {
    var ks := front + back;
    var r := Dedup(ks);
    IndexOfPrefix(front, back, x);
    IndexOfSuffix(front, back, y);
    assert x in ks && y in ks;
    var a :| 0 <= a < |r| && r[a] == x;
    var b :| 0 <= b < |r| && r[b] == y;
    assert IndexOf(ks, r[a]) < IndexOf(ks, r[b]);
    DedupOrder(ks);
    assert a < b;
  }

  /** Where a WORKBOOK key and a sheet-only key both contain `*`, the WORKBOOK
      pattern is tried first, whatever the keys are. */
  lemma WorkbookPatternFirst(config: Config, sheet: string, kw: string, ks: string)
    requires '*' in kw && '*' in ks
    requires kw in Keys(SectionOf(config, "WORKBOOK"))
    requires ks in Keys(SectionOf(config, sheet)) && ks !in Keys(SectionOf(config, "WORKBOOK"))
    ensures var cm := CreateMapper(NewValueMapper(config), sheet);
      exists i, j :: 0 <= i < j < |cm.wildcards| &&
        cm.wildcards[i] == WildEntry(cm.layers, kw) && cm.wildcards[j] == WildEntry(cm.layers, ks)
  {
    var cm := CreateMapper(NewValueMapper(config), sheet);
    var sec, wb := SectionOf(config, sheet), SectionOf(config, "WORKBOOK");
    assert cm.layers == [sec, wb, DefaultMapping];
    ReversedKeys3(sec, wb, DefaultMapping);
    DefaultKeys();
    var front := Keys(DefaultMapping) + Keys(wb);
    assert ks !in Keys(DefaultMapping);
    DedupBefore(front, Keys(sec), kw, ks);
    var keys := ChainKeys(cm.layers);
    assert keys == Dedup(front + Keys(sec));
    var a, b :| 0 <= a < b < |keys| && keys[a] == kw && keys[b] == ks;
    WildcardsOfBefore(cm.layers, keys, a, b);
  }

  // ---------------------------------------------------------------------------
  // The mapper function

  /** `type_map.get(type(val), '')`: exact runtime type, so strings get nothing. */
  function TypeStyle(v: Value): (style: string)
    ensures style != [] <==> v.Int? || v.Real?
    ensures IntStyle(style) <==> v.Int?
    ensures AcctStyle(style) <==> v.Real?
  {
    match v
    case Int(_) => "IMComma"
    case Real(_) => "IMCurrency"
    case _ => []
  }

  /** The style chosen for a column: exact name, then the first matching
      wildcard, then the value's type, then IMNormal. An empty style at any step
      counts as no answer. */
  function ResolveStyle(cm: ColumnMapper, col: string, v: Value): (s: string)
    ensures s != []
  {
    var exact := ChainGet(cm.layers, col).GetOr([]);
    if exact != [] then exact
    else
      var wild := FirstMatch(cm.wildcards, Lower(col)).GetOr([]);
      if wild != [] then wild
      else
        var typed := TypeStyle(v);
        if typed != [] then typed else "IMNormal"
  }

  predicate IntStyle(style: string) {
    style == "IMComma" || style == "IMInt"
  }

  predicate AcctStyle(style: string) {
    style == "IMCurrency" || style == "IMFloat" || style == "IMPercent"
  }

  /** `convert_map.get(style)` applied to the value, if there is one. */
  function Convert(parse: Parser, style: string, v: Value): (r: Outcome<Value>)
    ensures IntStyle(style) ==> r == IntCoerce(parse, v)
    ensures AcctStyle(style) ==> r == AcctCoerce(parse, v)
    ensures !IntStyle(style) && !AcctStyle(style) ==> r == Returned(v)
  {
    if IntStyle(style) then IntCoerce(parse, v)
    else if AcctStyle(style) then AcctCoerce(parse, v)
    else Returned(v)
  }

  /** The inner `m(col_name, val)`: the style and the coerced value. */
  function Apply(parse: Parser, cm: ColumnMapper, col: string, v: Value): (r: Outcome<(string, Value)>)
    ensures r.Returned? ==> r.value.0 == ResolveStyle(cm, col, v)
    ensures r.Raised? <==> v.Date? && (IntStyle(ResolveStyle(cm, col, v)) || AcctStyle(ResolveStyle(cm, col, v)))
    ensures r.Returned? && IntStyle(r.value.0) ==> r.value.1 == IntCoerce(parse, v).value
    ensures r.Returned? && AcctStyle(r.value.0) ==> r.value.1 == AcctCoerce(parse, v).value
    ensures r.Returned? && !IntStyle(r.value.0) && !AcctStyle(r.value.0) ==> r.value.1 == v
  {
    var style := ResolveStyle(cm, col, v);
    match Convert(parse, style, v)
    case Raised => Raised
    case Returned(w) => Returned((style, w))
  }

  // ---------------------------------------------------------------------------
  // Properties

  /** The first of sheet section, WORKBOOK and built-ins that names the column
      with a non-empty style decides the style. */
  lemma LayerPriority(m: ValueMapper, sheet: string, col: string, v: Value, i: nat)
    requires i < 3
    requires var layers := CreateMapper(m, sheet).layers;
      Lookup(layers[i], col).Some? && Lookup(layers[i], col).value != [] &&
      forall j :: 0 <= j < i ==> Lookup(layers[j], col).None?
    ensures ResolveStyle(CreateMapper(m, sheet), col, v) == Lookup(CreateMapper(m, sheet).layers[i], col).value
  {
    ChainGetFirstLayer(CreateMapper(m, sheet).layers, col, i);
  }

  /** A non-empty exact style decides. */
  lemma ResolveExact(cm: ColumnMapper, col: string, v: Value)
    requires ChainGet(cm.layers, col).GetOr([]) != []
    ensures ResolveStyle(cm, col, v) == ChainGet(cm.layers, col).value
  {
  }

  /** With no non-empty exact style, the first wildcard matching the lower-cased
      name decides, if its style is non-empty. */
  lemma WildcardFallback(cm: ColumnMapper, col: string, v: Value, i: nat)
    requires ChainGet(cm.layers, col).GetOr([]) == []
    requires i < |cm.wildcards| && Glob.Matches(Lower(col), cm.wildcards[i].0) && cm.wildcards[i].1 != []
    requires forall j :: 0 <= j < i ==> !Glob.Matches(Lower(col), cm.wildcards[j].0)
    ensures ResolveStyle(cm, col, v) == cm.wildcards[i].1
  {
    FirstMatchAt(cm.wildcards, Lower(col), i);
  }

  /** A column with no exact style and no wildcard style gets IMComma for an int,
      IMCurrency for a float and IMNormal for anything else; a string, however
      numeric it looks, is returned as it came. A column configured with an empty
      style (`Col1 =`) counts as unstyled, as does a wildcard with an empty style. */
  lemma TypeFallback(parse: Parser, cm: ColumnMapper, col: string, v: Value)
    requires ChainGet(cm.layers, col).GetOr([]) == []
    requires FirstMatch(cm.wildcards, Lower(col)).GetOr([]) == []
    ensures ResolveStyle(cm, col, v) == (if v.Int? then "IMComma" else if v.Real? then "IMCurrency" else "IMNormal")
    ensures v.Str? || v.Null? ==> Apply(parse, cm, col, v) == Returned(("IMNormal", v))
  {
  }

  /** The coerced value depends only on the chosen style: two columns resolved to
      the same style convert a value the same way. */
  lemma CoercionByStyle(parse: Parser, cm1: ColumnMapper, col1: string, cm2: ColumnMapper, col2: string, v: Value)
    requires ResolveStyle(cm1, col1, v) == ResolveStyle(cm2, col2, v)
    ensures Apply(parse, cm1, col1, v) == Apply(parse, cm2, col2, v)
  {
  }

  /** Mapping a mapped value again changes neither the style nor the value. */
  lemma ApplyIdempotent(parse: Parser, cm: ColumnMapper, col: string, v: Value)
    requires Apply(parse, cm, col, v).Returned?
    ensures var (s, w) := Apply(parse, cm, col, v).value;
      Apply(parse, cm, col, w) == Returned((s, w))
  {
    var s := ResolveStyle(cm, col, v);
    var w := Apply(parse, cm, col, v).value.1;
    if IntStyle(s) {
      IntCoerceIdempotent(parse, v);
    } else if AcctStyle(s) {
      AcctCoerceIdempotent(parse, v);
    }
    assert ResolveStyle(cm, col, w) == s;
  }

  // ---------------------------------------------------------------------------
  // Worked examples (the cases of tests/xl-test.py)

  predicate Distinct(ks: seq<string>) {
    forall i, j :: 0 <= i < j < |ks| ==> ks[i] != ks[j]
  }

  /** Keys that are already distinct keep their order. */
  lemma {:induction false} DedupDistinct(ks: seq<string>)
    requires Distinct(ks)
    ensures Dedup(ks) == ks
    decreases |ks|
  {
    if ks != [] {
      var init := ks[..|ks| - 1];
      assert ks == init + [ks[|ks| - 1]];
      DedupDistinct(init);
      assert ks[|ks| - 1] !in init;
    }
  }

  /** A key seen before adds nothing. */
  lemma DedupSeen(ks: seq<string>, x: string)
    requires x in ks
    ensures Dedup(ks + [x]) == Dedup(ks)
  {
    assert (ks + [x])[..|ks|] == ks;
  }

  lemma ReversedKeys3(a: Section, b: Section, c: Section)
    ensures ReversedKeys([a, b, c]) == Keys(c) + Keys(b) + Keys(a)
  {
    assert [a, b, c][1..] == [b, c];
    assert [b, c][1..] == [c];
    assert [c][1..] == [];
    assert ReversedKeys([c]) == Keys(c) by {
      assert ReversedKeys([c]) == ReversedKeys([]) + Keys(c);
    }
  }

  lemma {:induction false} WildcardsOfAppend(layers: seq<Section>, a: seq<string>, b: seq<string>)
    ensures WildcardsOf(layers, a + b) == WildcardsOf(layers, a) + WildcardsOf(layers, b)
    decreases |a|
  {
    if a == [] {
      assert a + b == b;
    } else {
      assert (a + b)[1..] == a[1..] + b;
      WildcardsOfAppend(layers, a[1..], b);
    }
  }

  lemma {:induction false} WildcardsOfStarFree(layers: seq<Section>, keys: seq<string>)
    requires forall i :: 0 <= i < |keys| ==> '*' !in keys[i]
    ensures WildcardsOf(layers, keys) == []
    decreases |keys|
  {
    if keys != [] {
      WildcardsOfStarFree(layers, keys[1..]);
    }
  }

  lemma DefaultKeys()
    ensures Keys(DefaultMapping) == ["Qty", "ExtPrice"]
  {
  }

  /** Parsing behaves as Python's float() on the strings the examples use. */
  predicate ParsesExamples(parse: Parser) {
    && parse("1") == Some(1.0) && parse("12") == Some(12.0) && parse("12.0") == Some(12.0)
    && parse("42.2") == Some(42.2) && parse("A").None?
  }

  /** With no config the built-ins decide Qty: `_int` applies. */
  lemma DefaultQtyExamples(parse: Parser)
    requires ParsesExamples(parse)
    ensures var cm := CreateMapper(NewValueMapper(map[]), "NopeUseDefault");
      && Apply(parse, cm, "Qty", Str("A")) == Returned(("IMComma", Str("A")))
      && Apply(parse, cm, "Qty", Str("12.0")) == Returned(("IMComma", Int(12)))
  {
    var m := NewValueMapper(map[]);
    var cm := CreateMapper(m, "NopeUseDefault");
    LayerPriority(m, "NopeUseDefault", "Qty", Str("A"), 2);
    LayerPriority(m, "NopeUseDefault", "Qty", Str("12.0"), 2);
    IntTextExamples(parse);
    ApplyWith(parse, cm, "Qty", Str("A"), "IMComma", Str("A"));
    ApplyWith(parse, cm, "Qty", Str("12.0"), "IMComma", Int(12));
  }

  /** `Apply` once the style and the converted value are known. */
  lemma ApplyWith(parse: Parser, cm: ColumnMapper, col: string, v: Value, style: string, w: Value)
    requires ResolveStyle(cm, col, v) == style && Convert(parse, style, v) == Returned(w)
    ensures Apply(parse, cm, col, v) == Returned((style, w))
  {
  }

  /** `_int` on the strings the examples use. */
  lemma IntTextExamples(parse: Parser)
    requires ParsesExamples(parse)
    ensures Convert(parse, "IMComma", Str("A")) == Returned(Str("A"))
    ensures Convert(parse, "IMComma", Str("12.0")) == Returned(Int(12))
    ensures Convert(parse, "IMComma", Str("1")) == Returned(Int(1))
    ensures Convert(parse, "IMInt", Str("12.0")) == Returned(Int(12))
    ensures Convert(parse, "IMInt", Str("12")) == Returned(Int(12))
  {
    assert RemoveAll("A", ',') == "A";
    assert RemoveAll("12.0", ',') == "12.0";
    assert RemoveAll("12", ',') == "12";
    assert RemoveAll("1", ',') == "1";
  }

  /** With no config the built-ins decide ExtPrice and Qty for numbers. */
  lemma DefaultNumberExamples(parse: Parser)
    ensures var cm := CreateMapper(NewValueMapper(map[]), "NopeUseDefault");
      && Apply(parse, cm, "Qty", Real(12.0)) == Returned(("IMComma", Int(12)))
      && Apply(parse, cm, "ExtPrice", Int(12)) == Returned(("IMCurrency", Real(12.0)))
  {
    LayerPriority(NewValueMapper(map[]), "NopeUseDefault", "Qty", Real(12.0), 2);
    LayerPriority(NewValueMapper(map[]), "NopeUseDefault", "ExtPrice", Int(12), 2);
  }

  /** With no config there are no wildcards. */
  lemma DefaultNoWildcards()
    ensures CreateMapper(NewValueMapper(map[]), "NopeUseDefault").wildcards == []
  {
    DefaultLayers();
    DefaultChainKeys();
    WildcardsVia(NewValueMapper(map[]), "NopeUseDefault", [[], [], DefaultMapping], ["Qty", "ExtPrice"]);
    DefaultWildcardsOf([[], [], DefaultMapping], ["Qty", "ExtPrice"]);
  }

  lemma DefaultWildcardsOf(layers: seq<Section>, keys: seq<string>)
    requires keys == ["Qty", "ExtPrice"]
    ensures WildcardsOf(layers, keys) == []
  {
    WildcardsOfStarFree(layers, keys);
  }

  /** The wildcard list once the layers and their keys are known. */
  lemma WildcardsVia(m: ValueMapper, sheet: string, layers: seq<Section>, keys: seq<string>)
    requires CreateMapper(m, sheet).layers == layers && ChainKeys(layers) == keys
    ensures CreateMapper(m, sheet).wildcards == WildcardsOf(layers, keys)
  {
  }

  lemma DefaultLayers()
    ensures CreateMapper(NewValueMapper(map[]), "NopeUseDefault").layers == [[], [], DefaultMapping]
  {
  }

  lemma DefaultChainKeys()
    ensures ChainKeys([[], [], DefaultMapping]) == ["Qty", "ExtPrice"]
  {
    ReversedKeys3([], [], DefaultMapping);
    DefaultKeys();
    assert ReversedKeys([[], [], DefaultMapping]) == ["Qty", "ExtPrice"];
    DedupDistinct(["Qty", "ExtPrice"]);
  }

  /** An unknown column keeps a numeric-looking string as it is. */
  lemma DefaultFallbackExamples(parse: Parser)
    ensures var cm := CreateMapper(NewValueMapper(map[]), "NopeUseDefault");
      && Apply(parse, cm, "IDontKnow", Str("12")) == Returned(("IMNormal", Str("12")))
      && Apply(parse, cm, "IDontKnow", Int(12)) == Returned(("IMComma", Int(12)))
      && Apply(parse, cm, "IDontKnow", Real(12.0)) == Returned(("IMCurrency", Real(12.0)))
  {
    var cm := CreateMapper(NewValueMapper(map[]), "NopeUseDefault");
    DefaultNoWildcards();
    DefaultMisses();
    TypeFallback(parse, cm, "IDontKnow", Str("12"));
    TypeFallback(parse, cm, "IDontKnow", Int(12));
    TypeFallback(parse, cm, "IDontKnow", Real(12.0));
    ApplyWith(parse, cm, "IDontKnow", Int(12), "IMComma", Int(12));
    ApplyWith(parse, cm, "IDontKnow", Real(12.0), "IMCurrency", Real(12.0));
  }

  lemma DefaultMisses()
    ensures var layers := CreateMapper(NewValueMapper(map[]), "NopeUseDefault").layers;
      forall j :: 0 <= j < |layers| ==> Lookup(layers[j], "IDontKnow").None?
  {
    var layers := CreateMapper(NewValueMapper(map[]), "NopeUseDefault").layers;
    assert layers == [[], [], DefaultMapping];
  }

  const TestSheet1: Section := [("Col1", "IMCurrency"), ("Col2", "IMCurrency")]

  const TestWorkbook: Section := [
    ("Col1", "IMNormal"), ("Col2", "IMComma"), ("Col3", "IMCurrency"),
    ("IntCol", "IMInt"), ("FloatCol", "IMFloat"), ("WCCol*", "IMInt")]

  const TestConfig: Config := map[
    "WORKBOOK" := TestWorkbook,
    "Sheet1" := TestSheet1,
    "AllNormal" := [("Qty", "IMNormal"), ("ExtPrice", "IMNormal")]]

  lemma Sheet1Layers()
    ensures CreateMapper(NewValueMapper(TestConfig), "Sheet1").layers == [TestSheet1, TestWorkbook, DefaultMapping]
  {
    assert SectionOf(TestConfig, "Sheet1") == TestSheet1;
    assert SectionOf(TestConfig, "WORKBOOK") == TestWorkbook;
  }

  /** A sheet section overrides WORKBOOK. */
  lemma ConfigSheetExamples(parse: Parser)
    requires ParsesExamples(parse)
    ensures var cm := CreateMapper(NewValueMapper(TestConfig), "Sheet1");
      && Apply(parse, cm, "Col1", Str("42.2")) == Returned(("IMCurrency", Real(42.2)))
      && Apply(parse, cm, "Col1", Int(42)) == Returned(("IMCurrency", Real(42.0)))
  {
    Sheet1Layers();
    LayerPriority(NewValueMapper(TestConfig), "Sheet1", "Col1", Str("42.2"), 0);
    LayerPriority(NewValueMapper(TestConfig), "Sheet1", "Col1", Int(42), 0);
  }

  /** WORKBOOK applies where the sheet section is silent, the built-ins after that. */
  lemma ConfigWorkbookExamples(parse: Parser)
    requires ParsesExamples(parse)
    ensures var cm := CreateMapper(NewValueMapper(TestConfig), "Sheet1");
      && Apply(parse, cm, "IntCol", Str("12.0")) == Returned(("IMInt", Int(12)))
      && Apply(parse, cm, "Qty", Str("1")) == Returned(("IMComma", Int(1)))
  {
    Sheet1Layers();
    WorkbookIntCol(parse);
    DefaultQty(parse);
  }

  lemma WorkbookIntCol(parse: Parser)
    requires ParsesExamples(parse)
    requires CreateMapper(NewValueMapper(TestConfig), "Sheet1").layers == [TestSheet1, TestWorkbook, DefaultMapping]
    ensures Apply(parse, CreateMapper(NewValueMapper(TestConfig), "Sheet1"), "IntCol", Str("12.0")) == Returned(("IMInt", Int(12)))
  {
    LayerPriority(NewValueMapper(TestConfig), "Sheet1", "IntCol", Str("12.0"), 1);
    IntTextExamples(parse);
    ApplyWith(parse, CreateMapper(NewValueMapper(TestConfig), "Sheet1"), "IntCol", Str("12.0"), "IMInt", Int(12));
  }

  lemma DefaultQty(parse: Parser)
    requires ParsesExamples(parse)
    requires CreateMapper(NewValueMapper(TestConfig), "Sheet1").layers == [TestSheet1, TestWorkbook, DefaultMapping]
    ensures Apply(parse, CreateMapper(NewValueMapper(TestConfig), "Sheet1"), "Qty", Str("1")) == Returned(("IMComma", Int(1)))
  {
    assert Lookup(TestWorkbook, "Qty").None?;
    LayerPriority(NewValueMapper(TestConfig), "Sheet1", "Qty", Str("1"), 2);
    IntTextExamples(parse);
    ApplyWith(parse, CreateMapper(NewValueMapper(TestConfig), "Sheet1"), "Qty", Str("1"), "IMComma", Int(1));
  }

  /** A section can turn the built-ins off. */
  lemma ConfigAllNormalExamples(parse: Parser)
    ensures var cm := CreateMapper(NewValueMapper(TestConfig), "AllNormal");
      && Apply(parse, cm, "Qty", Int(1)) == Returned(("IMNormal", Int(1)))
      && Apply(parse, cm, "ExtPrice", Str("1")) == Returned(("IMNormal", Str("1")))
  {
    var m := NewValueMapper(TestConfig);
    assert SectionOf(TestConfig, "AllNormal") == [("Qty", "IMNormal"), ("ExtPrice", "IMNormal")];
    LayerPriority(m, "AllNormal", "Qty", Int(1), 0);
    LayerPriority(m, "AllNormal", "ExtPrice", Str("1"), 0);
  }

  const WorkbookKeys: seq<string> := ["Col1", "Col2", "Col3", "IntCol", "FloatCol", "WCCol*"]

  lemma Sheet1ChainKeys()
    ensures ChainKeys([TestSheet1, TestWorkbook, DefaultMapping]) == ["Qty", "ExtPrice"] + WorkbookKeys
  {
    ReversedKeys3(TestSheet1, TestWorkbook, DefaultMapping);
    DefaultKeys();
    assert Keys(TestWorkbook) == WorkbookKeys;
    assert Keys(TestSheet1) == ["Col1", "Col2"];
    var base := ["Qty", "ExtPrice"] + WorkbookKeys;
    assert ReversedKeys([TestSheet1, TestWorkbook, DefaultMapping]) == base + ["Col1"] + ["Col2"];
    DedupDistinct(base);
    DedupSeen(base, "Col1");
    DedupSeen(base + ["Col1"], "Col2");
  }

  lemma Sheet1Wildcards()
    ensures CreateMapper(NewValueMapper(TestConfig), "Sheet1").wildcards == [("wccol*", "IMInt")]
  {
    Sheet1Layers();
    Sheet1ChainKeys();
    Sheet1WildcardsOf();
  }

  lemma Sheet1WildcardsOf()
    ensures WildcardsOf([TestSheet1, TestWorkbook, DefaultMapping], ["Qty", "ExtPrice"] + WorkbookKeys) == [("wccol*", "IMInt")]
  {
    var plain := ["Qty", "ExtPrice", "Col1", "Col2", "Col3", "IntCol", "FloatCol"];
    assert ["Qty", "ExtPrice"] + WorkbookKeys == plain + ["WCCol*"];
    assert forall i :: 0 <= i < |plain| ==> '*' !in plain[i];
    WildcardsOfLast([TestSheet1, TestWorkbook, DefaultMapping], plain, "WCCol*");
    assert Lower("WCCol*") == "wccol*";
    WildcardKeyChain();
  }

  /** Keys without `*` before one wildcard key yield that key's entry alone. */
  lemma WildcardsOfLast(layers: seq<Section>, plain: seq<string>, k: string)
    requires forall i :: 0 <= i < |plain| ==> '*' !in plain[i]
    requires '*' in k
    ensures WildcardsOf(layers, plain + [k]) == [(Lower(k), ChainGet(layers, k).GetOr([]))]
  {
    WildcardsOfAppend(layers, plain, [k]);
    WildcardsOfStarFree(layers, plain);
    assert [k][1..] == [];
  }

  /** WORKBOOK's wildcard key, looked up as it is written. */
  lemma WildcardKeyChain()
    ensures ChainGet([TestSheet1, TestWorkbook, DefaultMapping], "WCCol*") == Some("IMInt")
  {
    assert Lookup(TestSheet1, "WCCol*").None?;
    assert Lookup(TestWorkbook, "WCCol*") == Some("IMInt");
    ChainGetFirstLayer([TestSheet1, TestWorkbook, DefaultMapping], "WCCol*", 1);
  }

  /** A wildcard key used literally hits the exact lookup. */
  lemma WildcardLiteralExample(parse: Parser)
    requires ParsesExamples(parse)
    ensures Apply(parse, CreateMapper(NewValueMapper(TestConfig), "Sheet1"), "WCCol*", Str("12"))
      == Returned(("IMInt", Int(12)))
  {
    Sheet1Layers();
    WildcardKeyChain();
    ResolveExact(CreateMapper(NewValueMapper(TestConfig), "Sheet1"), "WCCol*", Str("12"));
    IntTextExamples(parse);
    ApplyWith(parse, CreateMapper(NewValueMapper(TestConfig), "Sheet1"), "WCCol*", Str("12"), "IMInt", Int(12));
  }

  lemma Sheet1Misses(col: string)
    requires col == "WCCol-SomeExtraStuff"
    ensures ChainGet(CreateMapper(NewValueMapper(TestConfig), "Sheet1").layers, col).None?
  {
    Sheet1Layers();
    assert Lookup(TestSheet1, col).None? && Lookup(TestWorkbook, col).None? && Lookup(DefaultMapping, col).None?;
  }

  lemma PrefixMatch(col: string)
    requires col == "WCCol-SomeExtraStuff"
    ensures Glob.Matches(Lower(col), "wccol*")
  {
    var name := Lower(col);
    assert name[..5] == "wccol";
    assert "wccol" + "*" == "wccol*";
    Glob.MatchesPrefixStar(name, "wccol");
  }

  /** Any other name with the wildcard's prefix gets the wildcard's style. */
  lemma WildcardGlobExample(parse: Parser)
    requires ParsesExamples(parse)
    ensures Apply(parse, CreateMapper(NewValueMapper(TestConfig), "Sheet1"), "WCCol-SomeExtraStuff", Str("12"))
      == Returned(("IMInt", Int(12)))
  {
    var cm := CreateMapper(NewValueMapper(TestConfig), "Sheet1");
    var col := "WCCol-SomeExtraStuff";
    Sheet1Wildcards();
    Sheet1Misses(col);
    PrefixMatch(col);
    WildcardFallback(cm, col, Str("12"), 0);
    IntTextExamples(parse);
    ApplyWith(parse, cm, col, Str("12"), "IMInt", Int(12));
  }

  const OrderConfig: Config := map["WORKBOOK" := [("*", "IMInt")], "S" := [("a*", "IMFloat")]]

  lemma OrderLayers()
    ensures CreateMapper(NewValueMapper(OrderConfig), "S").layers == [[("a*", "IMFloat")], [("*", "IMInt")], DefaultMapping]
  {
    assert SectionOf(OrderConfig, "S") == [("a*", "IMFloat")];
    assert SectionOf(OrderConfig, "WORKBOOK") == [("*", "IMInt")];
  }

  lemma OrderChainKeys()
    ensures ChainKeys([[("a*", "IMFloat")], [("*", "IMInt")], DefaultMapping]) == ["Qty", "ExtPrice", "*", "a*"]
  {
    var layers := [[("a*", "IMFloat")], [("*", "IMInt")], DefaultMapping];
    ReversedKeys3(layers[0], layers[1], layers[2]);
    DefaultKeys();
    assert ReversedKeys(layers) == ["Qty", "ExtPrice", "*", "a*"];
    DedupDistinct(["Qty", "ExtPrice", "*", "a*"]);
  }

  lemma OrderWildcardEntry()
    ensures var layers := [[("a*", "IMFloat")], [("*", "IMInt")], DefaultMapping];
      WildcardsOf(layers, ["*", "a*"])[0] == ("*", "IMInt")
  {
    var layers := [[("a*", "IMFloat")], [("*", "IMInt")], DefaultMapping];
    assert Lookup(layers[0], "*").None?;
    ChainGetFirstLayer(layers, "*", 1);
    assert Lower("*") == "*";
  }

  lemma OrderWildcards()
    ensures var w := CreateMapper(NewValueMapper(OrderConfig), "S").wildcards;
      |w| >= 1 && w[0] == ("*", "IMInt")
  {
    OrderLayers();
    OrderChainKeys();
    var layers := [[("a*", "IMFloat")], [("*", "IMInt")], DefaultMapping];
    WildcardsVia(NewValueMapper(OrderConfig), "S", layers, ["Qty", "ExtPrice", "*", "a*"]);
    OrderWildcardsOf(layers, ["Qty", "ExtPrice"], ["*", "a*"]);
    assert ["Qty", "ExtPrice"] + ["*", "a*"] == ["Qty", "ExtPrice", "*", "a*"];
  }

  lemma OrderWildcardsOf(layers: seq<Section>, plain: seq<string>, wild: seq<string>)
    requires layers == [[("a*", "IMFloat")], [("*", "IMInt")], DefaultMapping]
    requires plain == ["Qty", "ExtPrice"] && wild == ["*", "a*"]
    ensures var w := WildcardsOf(layers, plain + wild); |w| >= 1 && w[0] == ("*", "IMInt")
  {
    WildcardsOfAppend(layers, plain, wild);
    WildcardsOfStarFree(layers, plain);
    OrderWildcardEntry();
  }

  /** Wildcards are tried in ChainMap order, which lists WORKBOOK keys before the
      sheet's own: a WORKBOOK pattern beats a sheet pattern matching the same name,
      the reverse of the exact lookup's priority. */
  lemma WildcardOrderExample(parse: Parser)
    ensures Apply(parse, CreateMapper(NewValueMapper(OrderConfig), "S"), "abc", Int(5)) == Returned(("IMInt", Int(5)))
  {
    var cm := CreateMapper(NewValueMapper(OrderConfig), "S");
    OrderWildcards();
    OrderMisses();
    OrderMatch();
    WildcardFallback(cm, "abc", Int(5), 0);
  }

  lemma OrderMisses()
    ensures ChainGet(CreateMapper(NewValueMapper(OrderConfig), "S").layers, "abc").None?
  {
    OrderLayers();
    var layers := [[("a*", "IMFloat")], [("*", "IMInt")], DefaultMapping];
    assert Lookup(layers[0], "abc").None? && Lookup(layers[1], "abc").None? && Lookup(layers[2], "abc").None?;
  }

  lemma OrderMatch()
    ensures Glob.Matches(Lower("abc"), "*")
  {
    assert Lower("abc") == "abc";
    Glob.StarMatchesAll("abc");
  }
}

=== FILE: params.dfy ===
/**
 `ics_report_params` of datasimple/xl.py: the "Parms" column of a report's
 cover sheet holds "key: value" lines; a key seen once maps to its value, a
 repeated key to the list of all its values in row order.
 */
module Params {
  import opened Base
  import opened Text
  import Core
  import Cells

  /** A parameter's value: a single string, or the list a repeated key builds. */
  datatype ParamValue = One(v: string) | Many(vs: seq<string>)

  type Parms = map<string, ParamValue>

  /** Record one (key, value) pair: a new key stores the string; a key already
      present becomes, or extends, a list. */
  function AddParam(parms: Parms, k: string, v: string): (r: Parms)
    ensures r.Keys == parms.Keys + {k}
    ensures forall k' :: k' in parms && k' != k ==> r[k'] == parms[k']
  {
    if k in parms then
      match parms[k]
      case One(first) => parms[k := Many([first, v])]
      case Many(vs) => parms[k := Many(vs + [v])]
    else parms[k := One(v)]
  }

  /** The fold over the "Parms" cells of the data rows, in row order; a line with
      no key is skipped. */
  function ReportParams(cells: seq<string>): Parms
    decreases |cells|
  {
    if cells == [] then map[]
    else
      Record(ReportParams(cells[..|cells| - 1]), cells[|cells| - 1])
  }

  /** One "Parms" line: `k, v = kv(val)`, skipped when there is no key. */
  function Record(parms: Parms, line: string): Parms {
    match Core.Kv(line, ':')
    case (None, _) => parms
    case (Some(k), v) => AddParam(parms, k, v)
  }

  /** Every row has a "Parms" entry and that entry is text. */
  predicate AllText(rows: seq<Option<Cells.Value>>) {
    forall i :: 0 <= i < |rows| ==> rows[i].Some? && rows[i].value.Str?
  }

  function Texts(rows: seq<Option<Cells.Value>>): (cells: seq<string>)
    requires AllText(rows)
    ensures |cells| == |rows| && forall i :: 0 <= i < |rows| ==> rows[i] == Some(Cells.Str(cells[i]))
  {
    seq(|rows|, i requires 0 <= i < |rows| => rows[i].value.s)
  }

  /** `ics_report_params` over the rows `ws_scan` yields: each row's "Parms"
      entry, None where the row has none (no such header, or a row shorter than
      the header). `vals['Parms']` raises KeyError on a row without the entry,
      and `kv` raises AttributeError on a number or a date, which have no
      `split`; neither is caught. */
  function ScanParams(rows: seq<Option<Cells.Value>>): (r: Outcome<Parms>)
    ensures r.Returned? <==> AllText(rows)
    ensures r.Returned? ==> r.value == ReportParams(Texts(rows))
    decreases |rows|
  {
    if rows == [] then Returned(map[])
    else
      var n := |rows| - 1;
      ScanStep(rows);
      match ScanParams(rows[..n])
      case Raised => Raised
      case Returned(parms) =>
        match rows[n]
        case Some(Str(s)) => Returned(Record(parms, s))
        case _ => Raised
  }

  /** All rows are text exactly when the earlier ones and the last one are; the
      texts then extend by the last. */
  lemma ScanStep(rows: seq<Option<Cells.Value>>)
    requires rows != []
    ensures var n := |rows| - 1;
      AllText(rows) <==> AllText(rows[..n]) && rows[n].Some? && rows[n].value.Str?
    ensures AllText(rows) ==> var n := |rows| - 1;
      Texts(rows)[..n] == Texts(rows[..n]) && Texts(rows)[n] == rows[n].value.s
  {
    var n := |rows| - 1;
    assert forall i :: 0 <= i < n ==> rows[..n][i] == rows[i];
  }

  /** Reference definition: the values of the lines whose key is `k`, in order. */
  function ValuesFor(cells: seq<string>, k: string): seq<string>
    decreases |cells|
  {
    if cells == [] then []
    else
      var kv := Core.Kv(cells[|cells| - 1], ':');
      ValuesFor(cells[..|cells| - 1], k) + (if kv.0 == Some(k) then [kv.1] else [])
  }

  /** What a list of values for one key turns into. */
  function AsParam(vs: seq<string>): Option<ParamValue> {
    if vs == [] then None
    else if |vs| == 1 then Some(One(vs[0]))
    else Some(Many(vs))
  }

  /** A key is present exactly when some line carries it, and holds that line's
      value when there is one such line and the list of all values otherwise. */
  lemma {:induction false} ReportParamsSpec(cells: seq<string>, k: string)
    ensures (k in ReportParams(cells)) <==> ValuesFor(cells, k) != []
    ensures k in ReportParams(cells) ==> Some(ReportParams(cells)[k]) == AsParam(ValuesFor(cells, k))
    decreases |cells|
  {
    if cells != [] {
      var init := cells[..|cells| - 1];
      ReportParamsSpec(init, k);
      var kv := Core.Kv(cells[|cells| - 1], ':');
      var vs := ValuesFor(init, k);
      var prev := ReportParams(init);
      if kv.0 == Some(k) {
        assert ReportParams(cells) == AddParam(prev, k, kv.1);
        assert ValuesFor(cells, k) == vs + [kv.1];
        if vs != [] {
          if |vs| == 1 {
            assert prev[k] == One(vs[0]);
            assert vs + [kv.1] == [vs[0], kv.1];
          } else {
            assert prev[k] == Many(vs);
          }
        }
      } else {
        assert ValuesFor(cells, k) == vs;
        assert k in ReportParams(cells) <==> k in prev;
        if k in prev {
          assert ReportParams(cells)[k] == prev[k];
        }
      }
    }
  }

  /** Every stored key is a non-empty, trimmed string without ':'. */
  lemma {:induction false} ReportParamsKeys(cells: seq<string>)
    ensures forall k :: k in ReportParams(cells) ==> Core.CleanField(k, ':')
    decreases |cells|
  {
    if cells != [] {
      ReportParamsKeys(cells[..|cells| - 1]);
    }
  }

  /** `key: value` with one space after the colon reads as (key, value). */
  lemma KvSpaced(key: string, val: string)
    requires Core.CleanField(key, ':') && Core.CleanField(val, ':')
    ensures Core.Kv(key + ": " + val, ':') == (Some(key), val)
  {
    var rest := " " + val;
    assert ':' !in rest by {
      forall i | 0 <= i < |rest| ensures rest[i] != ':' {
        if i > 0 {
          assert rest[i] == val[i - 1];
        }
      }
    }
    assert key + ": " + val == key + [':'] + rest;
    SplitOnAt(key, ':', rest);
    SplitOnNoSep(rest, ':');
    assert Strip(rest) == val by {
      StripAround(" ", val, []);
      assert " " + val + [] == rest;
    }
    var parts := [key, rest];
    assert SplitOn(key + ": " + val, ':') == parts;
    assert parts[1..] == [rest];
    assert Core.Fields([rest]) == [val] by {
      assert [rest][1..] == [];
    }
    assert Core.Fields(parts) == [key, val];
    assert [key, val][1..] == [val];
  }

  lemma CleanWord(w: string)
    requires w != [] && NoSpace(w) && ':' !in w
    ensures Core.CleanField(w, ':')
  {
    StripAround([], w, []);
    assert [] + w + [] == w;
  }

  lemma KvWords(key: string, val: string)
    requires key != [] && NoSpace(key) && ':' !in key
    requires val != [] && NoSpace(val) && ':' !in val
    ensures Core.Kv(key + ": " + val, ':') == (Some(key), val)
  {
    CleanWord(key);
    CleanWord(val);
    KvSpaced(key, val);
  }

  /** One more line with a key adds that pair. */
  lemma ReportParamsSnoc(cells: seq<string>, c: string, k: string, v: string)
    requires Core.Kv(c, ':') == (Some(k), v)
    ensures ReportParams(cells + [c]) == AddParam(ReportParams(cells), k, v)
  {
    assert (cells + [c])[..|cells|] == cells;
  }

  predicate Word(w: string) {
    w != [] && NoSpace(w) && ':' !in w
  }

  /** Three lines for a key not seen before make a list of the three values. */
  lemma ThreeLines(pre: seq<string>, b: string, l2: string, l3: string, l4: string, v1: string, v2: string, v3: string)
    requires b !in ReportParams(pre)
    requires Core.Kv(l2, ':') == (Some(b), v1) && Core.Kv(l3, ':') == (Some(b), v2) && Core.Kv(l4, ':') == (Some(b), v3)
    ensures ReportParams(pre + [l2, l3, l4]) == ReportParams(pre)[b := Many([v1, v2, v3])]
  {
    var p1 := pre + [l2];
    var p2 := p1 + [l3];
    ReportParamsSnoc(pre, l2, b, v1);
    ReportParamsSnoc(p1, l3, b, v2);
    ReportParamsSnoc(p2, l4, b, v3);
    AddParamThree(ReportParams(pre), b, v1, v2, v3);
    assert p2 + [l4] == pre + [l2, l3, l4];
  }

  /** Three values for a new key make a list of the three. */
  lemma AddParamThree(m: Parms, b: string, v1: string, v2: string, v3: string)
    requires b !in m
    ensures AddParam(AddParam(AddParam(m, b, v1), b, v2), b, v3) == m[b := Many([v1, v2, v3])]
  {
    assert [v1, v2] + [v3] == [v1, v2, v3];
  }

  lemma OneLine(l: string, a: string, v: string)
    requires Core.Kv(l, ':') == (Some(a), v)
    ensures ReportParams([l]) == map[a := One(v)]
  {
    ReportParamsSnoc([], l, a, v);
    assert [] + [l] == [l];
  }

  lemma FourLines(a: string, b: string, l1: string, l2: string, l3: string, l4: string,
                  va: string, v1: string, v2: string, v3: string)
    requires a != b
    requires Core.Kv(l1, ':') == (Some(a), va)
    requires Core.Kv(l2, ':') == (Some(b), v1) && Core.Kv(l3, ':') == (Some(b), v2) && Core.Kv(l4, ':') == (Some(b), v3)
    ensures ReportParams([l1, l2, l3, l4]) == map[a := One(va), b := Many([v1, v2, v3])]
  {
    OneLine(l1, a, va);
    assert b !in ReportParams([l1]);
    ThreeLines([l1], b, l2, l3, l4, v1, v2, v3);
    var all := [l1] + [l2, l3, l4];
    assert all == [l1, l2, l3, l4];
  }

  /** The shape of the cover sheet in tests/xl-test.py: a key seen once keeps its
      string, a key on three lines collects its values in order, and no other key
      appears. */
  lemma RepeatedKey(a: string, b: string, c: string, va: string, v1: string, v2: string, v3: string, vc: string)
    requires Word(a) && Word(b) && Word(c) && Word(va) && Word(v1) && Word(v2) && Word(v3) && Word(vc)
    requires a != b && b != c && a != c
    ensures ReportParams([a + ": " + va, b + ": " + v1, b + ": " + v2, b + ": " + v3, c + ": " + vc]) ==
      map[a := One(va), b := Many([v1, v2, v3]), c := One(vc)]
  {
    var l1, l2, l3, l4, l5 := a + ": " + va, b + ": " + v1, b + ": " + v2, b + ": " + v3, c + ": " + vc;
    KvWords(a, va);
    KvWords(b, v1);
    KvWords(b, v2);
    KvWords(b, v3);
    KvWords(c, vc);
    FourLines(a, b, l1, l2, l3, l4, va, v1, v2, v3);
    ReportParamsSnoc([l1, l2, l3, l4], l5, c, vc);
    assert [l1, l2, l3, l4] + [l5] == [l1, l2, l3, l4, l5];
  }
}

=== FILE: report.dfy ===
/**
 The fixed-width report converter of bin/rpt-export.py: a dash-run delimiter
 line becomes a list of (offset, width) fields; every later line becomes zero
 or one row of trimmed slices; blank lines and "(N row(s) affected)" trailers
 are dropped; a counter tracks the data rows written.
 */
module Report {
  import opened Base
  import opened Text

  /** One fixed-width column: where it starts in a raw line and how wide it is. */
  datatype Field = Field(offset: nat, width: nat)

  /** One record handed to the CSV writer. */
  type Row = seq<string>

  /** The construction failures of `ReportProcessor.__init__`. */
  datatype ConfigError =
    | CouldNotParseDelimiters                       // fewer than two dash runs
    | InvalidDelimiterSpec                          // a run holding something other than '-'
    | FinalPosMismatch(expected: nat, actual: nat)  // runs do not add up to the line length
    | ColumnNameOutputFailed                        // the header line itself was dropped

  /** A constructed processor: its field map, every row given to the writer so
      far (the header first) and the count of data rows written. */
  datatype Processor = Processor(fields: seq<Field>, written: seq<Row>, count: nat)

  // ---------------------------------------------------------------------------
  // The delimiter line

  predicate IsDashRun(t: string) {
    forall i :: 0 <= i < |t| ==> t[i] == '-'
  }

  predicate AllDashRuns(toks: seq<string>) {
    forall i :: 0 <= i < |toks| ==> IsDashRun(toks[i])
  }

  /** The sum over the runs of (width + 1): where the position ends up after the last run. */
  function Span(toks: seq<string>): nat {
    if toks == [] then 0 else |toks[0]| + 1 + Span(toks[1..])
  }

  /** The field map built from the runs, starting at position `start`. */
  function Layout(toks: seq<string>, start: nat): (fs: seq<Field>)
    ensures |fs| == |toks|
    decreases |toks|
  {
    if toks == [] then [] else [Field(start, |toks[0]|)] + Layout(toks[1..], start + |toks[0]| + 1)
  }

  /** The fields abut, separated by exactly one character, and none is empty. */
  predicate Contiguous(fs: seq<Field>) {
    && (|fs| > 0 ==> fs[0].offset == 0)
    && (forall i :: 0 <= i < |fs| ==> fs[i].width > 0)
    && (forall i :: 1 <= i < |fs| ==> fs[i].offset == fs[i - 1].offset + fs[i - 1].width + 1)
  }

  /** The delimiter line is accepted: at least two runs, all dashes, and the runs
      plus one separator each account for every character of the line. */
  predicate SpecOk(delims: string) {
    var toks := SplitWs(delims);
    |toks| >= 2 && AllDashRuns(toks) && Span(toks) == |delims|
  }

  lemma {:induction false} SpanAppend(a: seq<string>, b: seq<string>)
    ensures Span(a + b) == Span(a) + Span(b)
    decreases |a|
  {
    if a == [] {
      assert a + b == b;
    } else {
      assert (a + b)[1..] == a[1..] + b;
      SpanAppend(a[1..], b);
    }
  }

  /** Field i starts after every earlier run and its separator, and is as wide as run i. */
  lemma {:induction false} LayoutAt(toks: seq<string>, start: nat, i: nat)
    requires i < |toks|
    ensures Layout(toks, start)[i] == Field(start + Span(toks[..i]), |toks[i]|)
    decreases i
  {
    if i > 0 {
      LayoutAt(toks[1..], start + |toks[0]| + 1, i - 1);
      assert toks[..i] == [toks[0]] + toks[1..][..i - 1];
      SpanAppend([toks[0]], toks[1..][..i - 1]);
      assert Span([toks[0]]) == |toks[0]| + 1 by {
        assert [toks[0]][1..] == [];
      }
    }
  }

  /** Runs that contain no whitespace and are non-empty give a contiguous layout. */
  lemma LayoutContiguous(toks: seq<string>)
    requires Words(toks)
    ensures Contiguous(Layout(toks, 0))
  {
    var fs := Layout(toks, 0);
    if |fs| > 0 {
      LayoutAt(toks, 0, 0);
    }
    forall i | 0 <= i < |fs| ensures fs[i].width > 0 {
      LayoutAt(toks, 0, i);
    }
    forall i | 1 <= i < |fs| ensures fs[i].offset == fs[i - 1].offset + fs[i - 1].width + 1 {
      LayoutAt(toks, 0, i);
      LayoutAt(toks, 0, i - 1);
      assert toks[..i] == toks[..i - 1] + [toks[i - 1]];
      SpanAppend(toks[..i - 1], [toks[i - 1]]);
      assert Span([toks[i - 1]]) == |toks[i - 1]| + 1 by {
        assert [toks[i - 1]][1..] == [];
      }
    }
  }

  // ---------------------------------------------------------------------------
  // Writing one line

  const TrailerSuffix: string := " row(s) affected)"

  predicate CountChar(c: char) {
    IsDigit(c) || c == ','
  }

  /** Full match of `\([0-9,]+ row\(s\) affected\)` against the stripped line. */
  predicate IsTrailer(t: string) {
    && |t| > |TrailerSuffix| + 1
    && t[0] == '('
    && t[|t| - |TrailerSuffix|..] == TrailerSuffix
    && forall i :: 1 <= i < |t| - |TrailerSuffix| ==> CountChar(t[i])
  }

  /** A line reaches the writer unless it is blank or a row-count trailer. */
  predicate Kept(line: string) {
    var chk := Strip(line);
    chk != [] && !IsTrailer(chk)
  }

  /** Python's `s[lo:hi]` for non-negative bounds: it saturates at the end of `s`. */
  function Slice(s: string, lo: nat, hi: nat): (r: string)
    ensures lo <= hi <= |s| ==> r == s[lo..hi]
    ensures lo <= |s| <= hi ==> r == s[lo..]
    ensures |s| <= lo ==> r == []
    ensures |r| <= if lo <= hi then hi - lo else 0
  {
    var a := if lo <= |s| then lo else |s|;
    var b := if hi <= |s| then hi else |s|;
    if a <= b then s[a..b] else []
  }

  /** The row a kept line produces: each field's slice of the unstripped line, stripped. */
  function SliceRow(fields: seq<Field>, line: string): (row: Row)
    ensures |row| == |fields|
  {
    seq(|fields|, i requires 0 <= i < |fields| =>
      Strip(Slice(line, fields[i].offset, fields[i].offset + fields[i].width)))
  }

  /** `_write_line`: the row written for `line`, or None when it is skipped. */
  function WriteLine(fields: seq<Field>, line: string): (r: Option<Row>)
    ensures r.None? <==> !Kept(line)
    ensures r.Some? ==> |r.value| == |fields|
  {
    if Kept(line) then Some(SliceRow(fields, line)) else None
  }

  // ---------------------------------------------------------------------------
  // Construction, process, done

  /** The invariant every constructed processor keeps. */
  predicate Valid(p: Processor) {
    && |p.fields| >= 2
    && Contiguous(p.fields)
    && |p.written| == p.count + 1
    && forall k :: 0 <= k < |p.written| ==> |p.written[k]| == |p.fields|
  }

  /** `ReportProcessor(hdrs, delims, writer)`. */
  function Build(hdrs: string, delims: string): (r: Result<Processor, ConfigError>)
    ensures |SplitWs(delims)| < 2 <==> r == Err(CouldNotParseDelimiters)
    ensures r.Ok? <==> SpecOk(delims) && Kept(hdrs)
    ensures r.Ok? ==>
      var toks := SplitWs(delims);
      && Valid(r.value) && r.value.count == 0
      && |r.value.fields| == |toks|
      && (forall i :: 0 <= i < |toks| ==> r.value.fields[i].width == |toks[i]|)
      && r.value.written == [SliceRow(r.value.fields, hdrs)]
  {
    var toks := SplitWs(delims);
    if |toks| <= 1 then Err(CouldNotParseDelimiters)
    else if !AllDashRuns(toks) then Err(InvalidDelimiterSpec)
    else
      var fields := Layout(toks, 0);
      SplitWsWords(delims);
      LayoutContiguous(toks);
      assert forall i :: 0 <= i < |toks| ==> fields[i].width == |toks[i]| by {
        forall i | 0 <= i < |toks| ensures fields[i].width == |toks[i]| {
          LayoutAt(toks, 0, i);
        }
      }
      if Span(toks) != |delims| then Err(FinalPosMismatch(|delims|, Span(toks)))
      else match WriteLine(fields, hdrs)
        case None => Err(ColumnNameOutputFailed)
        case Some(h) => Ok(Processor(fields, [h], 0))
  }

  /** `process(line)`: a kept line adds one row and one to the count; any other
      line changes nothing. */
  function Process(p: Processor, line: string): (q: Processor)
    ensures q.fields == p.fields
    ensures Valid(p) ==> Valid(q)
    ensures !Kept(line) ==> q == p
    ensures Kept(line) ==> q.count == p.count + 1 && q.written == p.written + [SliceRow(p.fields, line)]
  {
    match WriteLine(p.fields, line)
    case None => p
    case Some(row) => Processor(p.fields, p.written + [row], p.count + 1)
  }

  /** `done()`: reports the count, which is the number of data rows written. */
  function Done(p: Processor): (n: nat)
    ensures Valid(p) ==> n == |p.written| - 1
  {
    p.count
  }

  // ---------------------------------------------------------------------------
  // The whole file

  /** The rows the data lines produce, in order. */
  function Rows(fields: seq<Field>, lines: seq<string>): seq<Row>
    decreases |lines|
  {
    if lines == [] then []
    else
      var last := lines[|lines| - 1];
      Rows(fields, lines[..|lines| - 1]) + (if Kept(last) then [SliceRow(fields, last)] else [])
  }

  /** How many of the lines are kept. */
  function KeptCount(lines: seq<string>): nat
    decreases |lines|
  {
    if lines == [] then 0
    else KeptCount(lines[..|lines| - 1]) + (if Kept(lines[|lines| - 1]) then 1 else 0)
  }

  /** Why `main` stops before converting anything. */
  datatype RunError = MissingLines | MissingHeaders | MissingDelimiters | BadSpec(e: ConfigError)

  /** `main` over the lines of the input file (each keeping its line terminator):
      line 1 is the header, line 2 the delimiter spec, the rest are data. */
  method Run(lines: seq<string>) returns (r: Result<Processor, RunError>)
    ensures |lines| < 2 ==> r == Err(MissingLines)
    ensures r.Ok? <==> |lines| >= 2 && Strip(lines[0]) != [] && Strip(lines[1]) != [] && Build(lines[0], lines[1]).Ok?
    ensures r.Ok? ==>
      var p := r.value;
      && Valid(p)
      && p.fields == Build(lines[0], lines[1]).value.fields
      && p.written == [SliceRow(p.fields, lines[0])] + Rows(p.fields, lines[2..])
      && Done(p) == KeptCount(lines[2..])
  {
    if |lines| < 2 {
      return Err(MissingLines);
    }
    if Strip(lines[0]) == [] {
      return Err(MissingHeaders);
    }
    if Strip(lines[1]) == [] {
      return Err(MissingDelimiters);
    }
    var b := Build(lines[0], lines[1]);
    if b.Err? {
      return Err(BadSpec(b.error));
    }
    var p := ProcessAll(b.value, lines[2..]);
    return Ok(p);
  }

  /** The loop of `main`: every data line goes through `process`, in order. */
  method ProcessAll(p0: Processor, data: seq<string>) returns (p: Processor)
    requires Valid(p0)
    ensures Valid(p) && p.fields == p0.fields
    ensures p.written == p0.written + Rows(p0.fields, data)
    ensures p.count == p0.count + KeptCount(data)
  {
    p := p0;
    var k := 0;
    while k < |data|
      invariant 0 <= k <= |data|
      invariant Valid(p)
      invariant p.fields == p0.fields
      invariant p.written == p0.written + Rows(p.fields, data[..k])
      invariant p.count == p0.count + KeptCount(data[..k])
    {
      assert data[..k + 1][..k] == data[..k];
      p := Process(p, data[k]);
      k := k + 1;
    }
    assert data[..k] == data;
  }

  // ---------------------------------------------------------------------------
  // Properties

  lemma {:induction false} JoinSpan(ws: seq<string>)
    requires |ws| >= 1
    ensures |Join(" ", ws)| + 1 == Span(ws)
    decreases |ws|
  {
    if |ws| > 1 {
      JoinSpan(ws[1..]);
    }
  }

  lemma {:induction false} JoinSpanDouble(ws: seq<string>)
    requires |ws| >= 1
    ensures |Join("  ", ws)| + 2 == Span(ws) + |ws|
    decreases |ws|
  {
    if |ws| > 1 {
      JoinSpanDouble(ws[1..]);
    }
  }

  predicate DashRuns(runs: seq<string>) {
    forall i :: 0 <= i < |runs| ==> runs[i] != [] && IsDashRun(runs[i])
  }

  lemma DashRunsAreWords(runs: seq<string>)
    requires DashRuns(runs)
    ensures Words(runs)
  {
    forall i, j | 0 <= i < |runs| && 0 <= j < |runs[i]| ensures !IsSpace(runs[i][j]) {
      assert runs[i][j] == '-';
    }
  }

  /** Runs separated by single spaces and followed by one terminator are accepted,
      one field per run, each as wide as its run. */
  lemma DelimiterLineAccepted(hdrs: string, runs: seq<string>, term: char)
    requires |runs| >= 2 && DashRuns(runs) && IsSpace(term)
    requires Kept(hdrs)
    ensures var r := Build(hdrs, Join(" ", runs) + [term]);
      r.Ok? && |r.value.fields| == |runs| &&
      forall i :: 0 <= i < |runs| ==> r.value.fields[i].width == |runs[i]|
  {
    DashRunsAreWords(runs);
    SplitWsJoin(runs, " ", [term]);
    JoinSpan(runs);
  }

  /** Without the trailing terminator the line is one character short. */
  lemma DelimiterLineUnterminated(hdrs: string, runs: seq<string>)
    requires |runs| >= 2 && DashRuns(runs)
    ensures var d := Join(" ", runs);
      Build(hdrs, d) == Err(FinalPosMismatch(|d|, |d| + 1))
  {
    DashRunsAreWords(runs);
    SplitWsJoin(runs, " ", []);
    assert Join(" ", runs) + [] == Join(" ", runs);
    JoinSpan(runs);
  }

  /** Doubled separators make the line longer than the fields account for. */
  lemma DelimiterLineDoubleSpaced(hdrs: string, runs: seq<string>, term: char)
    requires |runs| >= 2 && DashRuns(runs) && IsSpace(term)
    ensures Build(hdrs, Join("  ", runs) + [term]).Err?
  {
    DashRunsAreWords(runs);
    SplitWsJoin(runs, "  ", [term]);
    JoinSpanDouble(runs);
  }

  /** A single run is rejected whatever it holds. */
  lemma SingleRunRejected(hdrs: string, run: string, tail: string)
    requires run != [] && NoSpace(run) && AllSpace(tail)
    ensures Build(hdrs, run + tail) == Err(CouldNotParseDelimiters)
  {
    SplitWsLast(run, tail);
  }

  /** Blank lines are never written and leave the processor unchanged. */
  lemma BlankLineDropped(p: Processor, line: string)
    requires AllSpace(line)
    ensures Process(p, line) == p
  {
    StripEmpty(line);
  }

  /** `(<digits/commas> row(s) affected)` lines, padded by any whitespace, are dropped. */
  lemma TrailerDropped(p: Processor, digits: string, pre: string, post: string)
    requires digits != [] && forall i :: 0 <= i < |digits| ==> CountChar(digits[i])
    requires AllSpace(pre) && AllSpace(post)
    ensures Process(p, pre + ("(" + digits + TrailerSuffix) + post) == p
  {
    var t := "(" + digits + TrailerSuffix;
    StripAround(pre, t, post);
    assert t[|t| - |TrailerSuffix|..] == TrailerSuffix;
    forall i | 1 <= i < |t| - |TrailerSuffix| ensures CountChar(t[i]) {
      assert t[i] == digits[i - 1];
    }
  }

  /** A trailer is exactly '(' + digits/commas + " row(s) affected)". */
  lemma TrailerShape(t: string)
    requires IsTrailer(t)
    ensures var d := t[1..|t| - |TrailerSuffix|];
      d != [] && (forall i :: 0 <= i < |d| ==> CountChar(d[i])) && t == "(" + d + TrailerSuffix
  {
    var d := t[1..|t| - |TrailerSuffix|];
    assert t == [t[0]] + d + t[|t| - |TrailerSuffix|..];
    forall i | 0 <= i < |d| ensures CountChar(d[i]) {
      assert d[i] == t[i + 1];
    }
  }

  /** Each entry of a kept line's row is the field's slice of the raw line, trimmed;
      a field past the end of a short line reads as empty. */
  lemma RowEntries(p: Processor, line: string, i: nat)
    requires Kept(line) && i < |p.fields|
    ensures var f := p.fields[i]; var q := Process(p, line);
      q.written[|q.written| - 1][i] ==
        (if f.offset + f.width <= |line| then Strip(line[f.offset..f.offset + f.width])
         else if f.offset < |line| then Strip(line[f.offset..])
         else [])
  {
  }

  lemma StripLiteral(pre: string, w: string, post: string)
    requires AllSpace(pre) && AllSpace(post) && w != [] && !IsSpace(w[0]) && !IsSpace(w[|w| - 1])
    ensures Strip(pre + w + post) == w
  {
    StripAround(pre, w, post);
  }

  /** Two dash runs `a` and `b` give a field at 0 and one just after the space. */
  lemma TwoRuns(hdrs: string, a: string, b: string, term: char)
    requires a != [] && b != [] && IsDashRun(a) && IsDashRun(b) && IsSpace(term) && Kept(hdrs)
    ensures var r := Build(hdrs, a + " " + b + [term]);
      r.Ok? && r.value.fields == [Field(0, |a|), Field(|a| + 1, |b|)]
  {
    var runs := [a, b];
    DelimiterLineAccepted(hdrs, runs, term);
    assert runs[1..] == [b];
    assert Join(" ", runs) == a + " " + b;
  }

  lemma ExampleKept()
    ensures Kept("A B\n") && Kept("X YZ\n")
  {
    StripLiteral([], "A B", "\n");
    assert [] + "A B" + "\n" == "A B\n";
    StripLiteral([], "X YZ", "\n");
    assert [] + "X YZ" + "\n" == "X YZ\n";
  }

  lemma ExampleRow()
    ensures SliceRow([Field(0, 1), Field(2, 2)], "X YZ\n") == ["X", "YZ"]
  {
    assert "X YZ\n"[0..1] == "X" && "X YZ\n"[2..4] == "YZ";
    StripLiteral([], "X", []);
    assert [] + "X" + [] == "X";
    StripLiteral([], "YZ", []);
    assert [] + "YZ" + [] == "YZ";
  }

  lemma ExampleHeader()
    ensures SliceRow([Field(0, 1), Field(2, 2)], "A B\n") == ["A", "B"]
  {
    assert "A B\n"[0..1] == "A" && "A B\n"[2..4] == "B\n";
    StripLiteral([], "A", []);
    assert [] + "A" + [] == "A";
    StripLiteral([], "B", "\n");
    assert [] + "B" + "\n" == "B\n";
  }

  /** The header "A B" over runs "-" and "--" turns "X YZ" into the row [X, YZ]. */
  lemma Example()
    ensures var b := Build("A B\n", "- --\n");
      b.Ok? && Process(b.value, "X YZ\n").written == [["A", "B"], ["X", "YZ"]]
  {
    ExampleKept();
    ExampleDelims();
    TwoRuns("A B\n", "-", "--", '\n');
    ExampleRow();
    ExampleHeader();
  }

  lemma ExampleDelims()
    ensures "-" + " " + "--" + ['\n'] == "- --\n"
  {
  }
}

=== FILE: sample.dfy ===
/**
 bin/sample.py: copy a random sample of a file's lines, always including a
 number of lines at the start (head) and at the end (tail). The calls to
 `random.random()` are a parameter: `draw(j)` is the value of the j-th call.
 */
module Sample {
  import opened Base

  /** The command-line settings. */
  datatype Settings = Settings(head: int, tail: int, rate: real)

  /** Why the run stops. `BadRate` is an AttributeError: the error message
      refers to `args.rate`, which does not exist, so the intended ValueError
      is never raised. Either way the run ends with "FAILED!" and exit code 1. */
  datatype SampleError = NoInput | NegativeHead | NegativeTail | BadRate

  /** The checks of `main`, in the source's order. */
  function Validate(inputExists: bool, st: Settings): (e: Option<SampleError>)
    ensures e.None? <==> inputExists && st.head >= 0 && st.tail >= 0 && 0.0 < st.rate < 1.0
  {
    if !inputExists then Some(NoInput)
    else if st.head < 0 then Some(NegativeHead)
    else if st.tail < 0 then Some(NegativeTail)
    else if st.rate <= 0.0 || st.rate >= 1.0 then Some(BadRate)
    else None
  }

  /** `tail_thresh`: lines after it belong to the tail; -1 when there is no tail. */
  function Threshold(lineCount: nat, tail: int): (t: int)
    ensures tail > 0 ==> t == lineCount - tail
    ensures tail <= 0 ==> t < 0
  {
    if tail > 0 then lineCount - tail else -1
  }

  /** Line `k` (counting from 1) is output without a draw: before `head`, or
      after a positive threshold. */
  predicate Forced(k: nat, head: int, thresh: int) {
    k < head || (thresh > 0 && k > thresh)
  }

  /** How many draws are made before line `k`: one per earlier line that is not forced. */
  function Draws(k: nat, head: int, thresh: int): (n: nat)
    ensures n <= if k == 0 then 0 else k - 1
    decreases k
  {
    if k <= 1 then 0
    else Draws(k - 1, head, thresh) + (if Forced(k - 1, head, thresh) then 0 else 1)
  }

  /** Whether line `k` is output. */
  predicate Chosen(k: nat, st: Settings, thresh: int, draw: nat -> real) {
    Forced(k, st.head, thresh) || draw(Draws(k, st.head, thresh)) < st.rate
  }

  /** The chosen lines among `lines`, which are lines 1 to |lines| of the file. */
  function Kept(lines: seq<string>, st: Settings, thresh: int, draw: nat -> real): (out: seq<string>)
    ensures |out| <= |lines|
    decreases |lines|
  {
    if lines == [] then []
    else
      var n := |lines|;
      Kept(lines[..n - 1], st, thresh, draw) + (if Chosen(n, st, thresh, draw) then [lines[n - 1]] else [])
  }

  /** `main` after argument parsing: validation, then one pass over the lines,
      drawing a random number only for lines that are not forced. */
  method Run(inputExists: bool, st: Settings, lines: seq<string>, draw: nat -> real)
    returns (r: Result<seq<string>, SampleError>)
    ensures r.Err? <==> Validate(inputExists, st).Some?
    ensures r.Err? ==> r.error == Validate(inputExists, st).value
    ensures r.Ok? ==> r.value == Kept(lines, st, Threshold(|lines|, st.tail), draw)
  {
    var e := Validate(inputExists, st);
    if e.Some? {
      return Err(e.value);
    }
    var thresh := if st.tail > 0 then |lines| - st.tail else -1;
    var out: seq<string> := [];
    var used: nat := 0;
    var curr := 0;
    while curr < |lines|
      invariant 0 <= curr <= |lines|
      invariant used == Draws(curr + 1, st.head, thresh)
      invariant out == Kept(lines[..curr], st, thresh, draw)
    {
      var output := false;
      curr := curr + 1;
      if curr < st.head {
        output := true;
      } else if thresh > 0 && curr > thresh {
        output := true;
      } else {
        if draw(used) < st.rate {
          output := true;
        }
        used := used + 1;
      }
      if output {
        out := out + [lines[curr - 1]];
      }
      assert lines[..curr][..curr - 1] == lines[..curr - 1];
    }
    assert lines[..curr] == lines;
    return Ok(out);
  }

  // ---------------------------------------------------------------------------
  // Properties

  /** Lines that are all forced are all output, in order. */
  lemma {:induction false} KeptAllForced(lines: seq<string>, st: Settings, thresh: int, draw: nat -> real)
    requires forall k :: 1 <= k <= |lines| ==> Forced(k, st.head, thresh)
    ensures Kept(lines, st, thresh, draw) == lines
    decreases |lines|
  {
    if lines != [] {
      var n := |lines|;
      KeptAllForced(lines[..n - 1], st, thresh, draw);
      assert lines[..n - 1] + [lines[n - 1]] == lines;
    }
  }

  /** When every draw misses, exactly the forced lines are output. */
  lemma {:induction false} KeptOnlyForced(lines: seq<string>, st: Settings, thresh: int, draw: nat -> real)
    requires forall j :: draw(j) >= st.rate
    ensures Kept(lines, st, thresh, draw) == ForcedLines(lines, st.head, thresh)
    decreases |lines|
  {
    if lines != [] {
      KeptOnlyForced(lines[..|lines| - 1], st, thresh, draw);
    }
  }

  /** Reference: the lines that are forced, in order. */
  function ForcedLines(lines: seq<string>, head: int, thresh: int): seq<string>
    decreases |lines|
  {
    if lines == [] then []
    else
      var n := |lines|;
      ForcedLines(lines[..n - 1], head, thresh) + (if Forced(n, head, thresh) then [lines[n - 1]] else [])
  }

  /** Lines not forced each use the next draw, one after another. */
  lemma {:induction false} DrawsCount(k: nat, head: int, thresh: int)
    requires head <= 1 && thresh <= 0
    ensures Draws(k, head, thresh) == if k == 0 then 0 else k - 1
    decreases k
  {
    if k > 1 {
      DrawsCount(k - 1, head, thresh);
    }
  }

  // ---------------------------------------------------------------------------
  // Findings

  /** As written, line `head` itself is not forced: `--head 1` forces nothing. */
  lemma HeadAsWritten(st: Settings, thresh: int, draw: nat -> real)
    requires st.head >= 1 && thresh <= 0
    requires draw(Draws(st.head, st.head, thresh)) >= st.rate
    ensures !Chosen(st.head, st, thresh, draw)
  {
  }

  /** As written, a tail at least as long as the file gives a threshold of 0 or
      less, and then no line is forced by the tail. */
  lemma TailAsWritten(lineCount: nat, tail: int, k: nat)
    requires tail >= lineCount && tail > 0 && 1 <= k <= lineCount
    ensures !Forced(k, 0, Threshold(lineCount, tail))
  {
  }

  /** The evidently intended rule: the first `head` lines and the last `tail`
      lines are always output. */
  predicate ForcedFixed(k: nat, head: int, lineCount: nat, tail: int) {
    k <= head || (tail > 0 && k > lineCount - tail)
  }

  predicate ChosenFixed(k: nat, st: Settings, lineCount: nat, draw: nat -> real) {
    ForcedFixed(k, st.head, lineCount, st.tail) || draw(DrawsFixed(k, st, lineCount)) < st.rate
  }

  function DrawsFixed(k: nat, st: Settings, lineCount: nat): (n: nat)
    ensures n <= if k == 0 then 0 else k - 1
    decreases k
  {
    if k <= 1 then 0
    else DrawsFixed(k - 1, st, lineCount) + (if ForcedFixed(k - 1, st.head, lineCount, st.tail) then 0 else 1)
  }

  /** The lines output under the corrected rule. */
  function KeptFixed(lines: seq<string>, lineCount: nat, st: Settings, draw: nat -> real): (out: seq<string>)
    ensures |out| <= |lines|
    decreases |lines|
  {
    if lines == [] then []
    else
      var n := |lines|;
      KeptFixed(lines[..n - 1], lineCount, st, draw) + (if ChosenFixed(n, st, lineCount, draw) then [lines[n - 1]] else [])
  }

  /** Corrected, a file no longer than head or tail is copied whole. */
  lemma {:induction false} KeptFixedShortFile(lines: seq<string>, lineCount: nat, st: Settings, draw: nat -> real)
    requires |lines| <= lineCount && (lineCount <= st.head || lineCount <= st.tail)
    ensures KeptFixed(lines, lineCount, st, draw) == lines
    decreases |lines|
  {
    if lines != [] {
      var n := |lines|;
      KeptFixedShortFile(lines[..n - 1], lineCount, st, draw);
      assert lines[..n - 1] + [lines[n - 1]] == lines;
    }
  }

  /** Corrected, the first `head` and last `tail` lines are output; as written,
      line `head` needs a lucky draw. */
  lemma HeadTailFixed(k: nat, st: Settings, lineCount: nat, draw: nat -> real)
    requires 1 <= k <= lineCount && (k <= st.head || k > lineCount - st.tail) && st.tail >= 0
    ensures ChosenFixed(k, st, lineCount, draw)
  {
  }

  /** Wherever the original forces a line, so does the corrected rule. */
  lemma FixedForcesMore(k: nat, head: int, lineCount: nat, tail: int)
    requires Forced(k, head, Threshold(lineCount, tail))
    ensures ForcedFixed(k, head, lineCount, tail)
  {
  }
}

=== FILE: sheet.dfy ===
/**
 The cell layout of `XlsxImporter.main` in datasimple/xl.py: a header row of
 column names styled IMHeader, then one spreadsheet row per data row with each
 value passed through the column mapper, all optionally transposed.
 openpyxl itself is not modelled: the result is the list of cell writes.
 */
module Sheet {
  import opened Base
  import opened Cells
  import Mapper

  /** One `sheet.cell(row=r, column=c, value=v).style = sty`, 1-based. */
  datatype CellWrite = CellWrite(row: nat, col: nat, value: Value, style: string)

  /** The column mapper `create_mapper` returns: (column, value) to (style,
      value), or an exception. */
  type ColumnFn = (string, Value) -> Outcome<(string, Value)>

  /** `_write_cell(r, c, v, sty)`: coordinates swapped when transposing. */
  function Place(r: nat, c: nat, v: Value, sty: string, transpose: bool): (w: CellWrite)
    ensures transpose ==> w.row == c && w.col == r
    ensures !transpose ==> w.row == r && w.col == c
    ensures w.value == v && w.style == sty
  {
    if transpose then CellWrite(c, r, v, sty) else CellWrite(r, c, v, sty)
  }

  /** The header row: column name `idx` at row 1, column idx+1. */
  function HeaderWrites(cols: seq<string>, transpose: bool): (ws: seq<CellWrite>)
    ensures |ws| == |cols|
    ensures forall i :: 0 <= i < |cols| ==> ws[i] == Place(1, i + 1, Str(cols[i]), "IMHeader", transpose)
  {
    seq(|cols|, i requires 0 <= i < |cols| => Place(1, i + 1, Str(cols[i]), "IMHeader", transpose))
  }

  /** One data row written as spreadsheet row `count + 2`. A value beyond the
      last column name raises IndexError (`col_names[idx]`), and an exception
      from the mapper propagates; neither is caught. */
  function RowWrites(mapper: ColumnFn, cols: seq<string>, row: seq<Value>, count: nat, transpose: bool): (r: Outcome<seq<CellWrite>>)
    ensures r.Returned? ==> |r.value| == |row| && |row| <= |cols|
    decreases |row|
  {
    if row == [] then Returned([])
    else
      var idx := |row| - 1;
      match RowWrites(mapper, cols, row[..idx], count, transpose)
      case Raised => Raised
      case Returned(ws) =>
        if idx >= |cols| then Raised
        else match mapper(cols[idx], row[idx])
          case Raised => Raised
          case Returned((sty, v)) => Returned(ws + [Place(count + 2, idx + 1, v, sty, transpose)])
  }

  /** All data rows, `count` counting the rows written so far. */
  function DataWrites(mapper: ColumnFn, cols: seq<string>, rows: seq<seq<Value>>, transpose: bool): (r: Outcome<seq<CellWrite>>)
    ensures r.Returned? ==> |r.value| == CellCount(rows)
    ensures r.Returned? ==> forall i :: 0 <= i < |rows| ==> |rows[i]| <= |cols|
    decreases |rows|
  {
    if rows == [] then Returned([])
    else
      var n := |rows| - 1;
      match DataWrites(mapper, cols, rows[..n], transpose)
      case Raised => Raised
      case Returned(ws) =>
        match RowWrites(mapper, cols, rows[n], n, transpose)
        case Raised => Raised
        case Returned(rw) => Returned(ws + rw)
  }

  /** The number of values in all rows together. */
  function CellCount(rows: seq<seq<Value>>): nat
    decreases |rows|
  {
    if rows == [] then 0 else CellCount(rows[..|rows| - 1]) + |rows[|rows| - 1]|
  }

  /** Every cell write of the sheet, in order. */
  function SheetWrites(mapper: ColumnFn, cols: seq<string>, rows: seq<seq<Value>>, transpose: bool): (r: Outcome<seq<CellWrite>>)
    ensures r.Returned? ==> |r.value| >= |cols| && r.value[..|cols|] == HeaderWrites(cols, transpose)
  {
    match DataWrites(mapper, cols, rows, transpose)
    case Raised => Raised
    case Returned(ws) =>
      var h := HeaderWrites(cols, transpose);
      assert (h + ws)[..|cols|] == h;
      Returned(h + ws)
  }

  /** The sheet as `XlsxImporter.main` writes it with the mapper built for it. */
  function ImportSheet(parse: Parser, cm: Mapper.ColumnMapper, cols: seq<string>, rows: seq<seq<Value>>, transpose: bool): (r: Outcome<seq<CellWrite>>)
    ensures r.Returned? <==> Importable(cm, cols, rows)
    ensures r.Returned? ==> |r.value| == |cols| + CellCount(rows) && r.value[..|cols|] == HeaderWrites(cols, transpose)
  {
    var mapper := (c, v) => Mapper.Apply(parse, cm, c, v);
    DataWritesOk(mapper, cols, rows, transpose);
    assert Importable(cm, cols, rows) <==> forall i :: 0 <= i < |rows| ==> RowOk(mapper, cols, rows[i]) by {
      if Importable(cm, cols, rows) {
        forall i | 0 <= i < |rows| ensures RowOk(mapper, cols, rows[i]) {
          forall j | 0 <= j < |rows[i]| ensures CellOk(mapper, cols, rows[i], j) {
            assert ValueFits(cm, cols, rows[i], j);
          }
        }
      } else {
        var i, j :| 0 <= i < |rows| && 0 <= j < |rows[i]| && !ValueFits(cm, cols, rows[i], j);
        assert !CellOk(mapper, cols, rows[i], j);
      }
    }
    SheetWrites(mapper, cols, rows, transpose)
  }

  /** Value j of a row has a column, and is not a date in a column whose style
      coerces to a number. */
  predicate ValueFits(cm: Mapper.ColumnMapper, cols: seq<string>, row: seq<Value>, j: int)
    requires 0 <= j < |row|
  {
    && j < |cols|
    && !(row[j].Date? && (Mapper.IntStyle(Mapper.ResolveStyle(cm, cols[j], row[j]))
                          || Mapper.AcctStyle(Mapper.ResolveStyle(cm, cols[j], row[j]))))
  }

  /** The import goes through exactly when every value fits. */
  predicate Importable(cm: Mapper.ColumnMapper, cols: seq<string>, rows: seq<seq<Value>>) {
    forall i, j :: 0 <= i < |rows| && 0 <= j < |rows[i]| ==> ValueFits(cm, cols, rows[i], j)
  }

  // ---------------------------------------------------------------------------
  // Properties

  /** A cell that fits its column and that the mapper accepts. */
  predicate CellOk(mapper: ColumnFn, cols: seq<string>, row: seq<Value>, j: int)
    requires 0 <= j < |row|
  {
    j < |cols| && mapper(cols[j], row[j]).Returned?
  }

  /** A row is written exactly when every value has a column and maps without an
      exception; then value j lands at (count+2, j+1) with the mapper's style. */
  lemma {:induction false} RowWritesSpec(mapper: ColumnFn, cols: seq<string>, row: seq<Value>, count: nat, transpose: bool)
    ensures RowWrites(mapper, cols, row, count, transpose).Returned? <==>
      forall j :: 0 <= j < |row| ==> CellOk(mapper, cols, row, j)
    ensures RowWrites(mapper, cols, row, count, transpose).Returned? ==>
      var ws := RowWrites(mapper, cols, row, count, transpose).value;
      forall j :: 0 <= j < |row| ==>
        CellOk(mapper, cols, row, j) && ws[j] == Place(count + 2, j + 1, mapper(cols[j], row[j]).value.1, mapper(cols[j], row[j]).value.0, transpose)
    decreases |row|
  {
    if row != [] {
      var idx := |row| - 1;
      var init := row[..idx];
      RowWritesSpec(mapper, cols, init, count, transpose);
      assert forall j :: 0 <= j < idx ==> init[j] == row[j];
      if forall j :: 0 <= j < |row| ==> CellOk(mapper, cols, row, j) {
        assert forall j :: 0 <= j < idx ==> CellOk(mapper, cols, init, j) by {
          forall j | 0 <= j < idx ensures CellOk(mapper, cols, init, j) {
            assert CellOk(mapper, cols, row, j);
          }
        }
        assert CellOk(mapper, cols, row, idx);
      } else {
        var j :| 0 <= j < |row| && !CellOk(mapper, cols, row, j);
        if j < idx {
          assert !CellOk(mapper, cols, init, j);
        }
      }
    }
  }

  /** Every value of the row has a column and maps without an exception. */
  predicate RowOk(mapper: ColumnFn, cols: seq<string>, row: seq<Value>) {
    forall j :: 0 <= j < |row| ==> CellOk(mapper, cols, row, j)
  }

  /** The sheet is written exactly when every row is; one bad cell anywhere stops
      the whole import. */
  lemma {:induction false} DataWritesOk(mapper: ColumnFn, cols: seq<string>, rows: seq<seq<Value>>, transpose: bool)
    ensures DataWrites(mapper, cols, rows, transpose).Returned? <==>
      forall r :: 0 <= r < |rows| ==> RowOk(mapper, cols, rows[r])
    decreases |rows|
  {
    if rows != [] {
      var n := |rows| - 1;
      var init := rows[..n];
      DataWritesOk(mapper, cols, init, transpose);
      RowWritesSpec(mapper, cols, rows[n], n, transpose);
      assert forall r :: 0 <= r < n ==> init[r] == rows[r];
      if !(forall r :: 0 <= r < |rows| ==> RowOk(mapper, cols, rows[r])) {
        var r :| 0 <= r < |rows| && !RowOk(mapper, cols, rows[r]);
        if r < n {
          assert !RowOk(mapper, cols, init[r]);
        }
      }
    }
  }

  /** Transposing swaps the coordinates of every write and changes nothing else. */
  lemma {:induction false} RowTranspose(mapper: ColumnFn, cols: seq<string>, row: seq<Value>, count: nat)
    ensures var a, b := RowWrites(mapper, cols, row, count, false), RowWrites(mapper, cols, row, count, true);
      a.Returned? == b.Returned? && (a.Returned? ==> b.value == SwapAll(a.value))
    decreases |row|
  {
    if row != [] {
      RowTranspose(mapper, cols, row[..|row| - 1], count);
    }
  }

  function Swap(w: CellWrite): CellWrite {
    CellWrite(w.col, w.row, w.value, w.style)
  }

  /** Every write with row and column exchanged. */
  function SwapAll(ws: seq<CellWrite>): (r: seq<CellWrite>)
    ensures |r| == |ws| && forall i :: 0 <= i < |ws| ==> r[i] == Swap(ws[i])
  {
    seq(|ws|, i requires 0 <= i < |ws| => Swap(ws[i]))
  }

  lemma {:induction false} DataTranspose(mapper: ColumnFn, cols: seq<string>, rows: seq<seq<Value>>)
    ensures var a, b := DataWrites(mapper, cols, rows, false), DataWrites(mapper, cols, rows, true);
      a.Returned? == b.Returned? && (a.Returned? ==> b.value == SwapAll(a.value))
    decreases |rows|
  {
    if rows != [] {
      var n := |rows| - 1;
      DataTranspose(mapper, cols, rows[..n]);
      RowTranspose(mapper, cols, rows[n], n);
    }
  }

  /** The transposed sheet is the plain sheet with rows and columns exchanged. */
  lemma SheetTranspose(mapper: ColumnFn, cols: seq<string>, rows: seq<seq<Value>>)
    ensures var a, b := SheetWrites(mapper, cols, rows, false), SheetWrites(mapper, cols, rows, true);
      a.Returned? == b.Returned? && (a.Returned? ==> b.value == SwapAll(a.value))
  {
    DataTranspose(mapper, cols, rows);
  }

  /** The data rows land below the header: spreadsheet row `i + 2` holds data row
      `i`, so no data cell overwrites a header cell or a cell of another row. */
  lemma {:induction false} DataRows(mapper: ColumnFn, cols: seq<string>, rows: seq<seq<Value>>)
    requires DataWrites(mapper, cols, rows, false).Returned?
    ensures var ws := DataWrites(mapper, cols, rows, false).value;
      forall k :: 0 <= k < |ws| ==> 2 <= ws[k].row <= |rows| + 1 && 1 <= ws[k].col <= |cols|
    decreases |rows|
  {
    if rows != [] {
      var n := |rows| - 1;
      DataRows(mapper, cols, rows[..n]);
      RowWritesSpec(mapper, cols, rows[n], n, false);
    }
  }
}

=== FILE: template.dfy ===
/**
 bin/template-expand.py: `NAME=value` command-line arguments become template
 variables, merged over the environment so that the command line wins.
 */
module Template {
  import opened Base
  import opened Text

  type Env = map<string, string>

  /** One argument: `a.split('=')`; with at least two pieces, the key is the
      first piece and the value the rest joined back with '='. */
  function ParseArg(a: string): (r: Option<(string, string)>)
    ensures r.None? <==> '=' !in a
    ensures r.Some? ==> r.value.0 + "=" + r.value.1 == a && '=' !in r.value.0
  {
    var comps := SplitOn(a, '=');
    JoinSplitOn(a, '=');
    if |comps| > 1 then
      JoinFirst(['='], comps[0], comps[1..]);
      assert comps == [comps[0]] + comps[1..];
      Some((comps[0], Join("=", comps[1..])))
    else
      assert Join(['='], comps) == comps[0];
      None
  }

  /** `parse_args()`: the pairs of the arguments that contain '=', in order. */
  function ParseArgs(args: seq<string>): (ps: seq<(string, string)>)
    ensures |ps| <= |args|
    ensures forall i :: 0 <= i < |ps| ==> '=' !in ps[i].0
    decreases |args|
  {
    if args == [] then []
    else
      match ParseArg(args[0])
      case None => ParseArgs(args[1..])
      case Some(p) => [p] + ParseArgs(args[1..])
  }

  /** `dict(pairs)`: a later pair overrides an earlier one. */
  function ToMap(ps: seq<(string, string)>): (m: Env)
    ensures forall k :: k in m <==> exists i :: 0 <= i < |ps| && ps[i].0 == k
    decreases |ps|
  {
    if ps == [] then map[]
    else
      var init := ToMap(ps[..|ps| - 1]);
      var last := ps[|ps| - 1];
      assert forall i :: 0 <= i < |ps| - 1 ==> ps[..|ps| - 1][i] == ps[i];
      init[last.0 := last.1]
  }

  /** `{**env, **dict(pairs)}`. */
  function Merge(env: Env, ps: seq<(string, string)>): (m: Env)
    ensures m.Keys == env.Keys + ToMap(ps).Keys
  {
    env + ToMap(ps)
  }

  /** The template variables of `main`. */
  function TemplateVars(env: Env, args: seq<string>): (vars: Env)
    ensures forall k :: LastValue(ArgsWithEq(args), k).Some? ==>
      k in vars && vars[k] == LastValue(ArgsWithEq(args), k).value
    ensures forall k :: LastValue(ArgsWithEq(args), k).None? ==>
      (k in vars <==> k in env) && (k in env ==> vars[k] == env[k])
  {
    ParseArgsSpec(args);
    forall k | true ensures LastValue(ArgsWithEq(args), k).Some? ==>
      k in Merge(env, ParseArgs(args)) && Merge(env, ParseArgs(args))[k] == LastValue(ArgsWithEq(args), k).value
    {
      MergeOverrides(env, ParseArgs(args), k);
    }
    forall k | LastValue(ArgsWithEq(args), k).None? ensures
      (k in Merge(env, ParseArgs(args)) <==> k in env) && (k in env ==> Merge(env, ParseArgs(args))[k] == env[k])
    {
      MergeOverrides(env, ParseArgs(args), k);
    }
    Merge(env, ParseArgs(args))
  }

  // ---------------------------------------------------------------------------
  // Reference definitions and properties

  /** The value of the last pair with key `k`. */
  function LastValue(ps: seq<(string, string)>, k: string): Option<string>
    decreases |ps|
  {
    if ps == [] then None
    else if ps[|ps| - 1].0 == k then Some(ps[|ps| - 1].1)
    else LastValue(ps[..|ps| - 1], k)
  }

  /** For a repeated key the last pair wins. */
  lemma {:induction false} ToMapLast(ps: seq<(string, string)>, k: string)
    ensures k in ToMap(ps) <==> LastValue(ps, k).Some?
    ensures k in ToMap(ps) ==> LastValue(ps, k) == Some(ToMap(ps)[k])
    decreases |ps|
  {
    if ps != [] {
      ToMapLast(ps[..|ps| - 1], k);
    }
  }

  /** A command-line value overrides the environment; every other environment
      variable is kept. */
  lemma MergeOverrides(env: Env, ps: seq<(string, string)>, k: string)
    ensures LastValue(ps, k).Some? ==> k in Merge(env, ps) && Merge(env, ps)[k] == LastValue(ps, k).value
    ensures LastValue(ps, k).None? ==> (k in Merge(env, ps) <==> k in env)
    ensures LastValue(ps, k).None? && k in env ==> Merge(env, ps)[k] == env[k]
  {
    ToMapLast(ps, k);
  }

  /** Every argument with '=' yields one pair, in argument order, and the pairs
      spell the arguments back. */
  lemma {:induction false} ParseArgsSpec(args: seq<string>)
    ensures ParseArgs(args) == ArgsWithEq(args)
    decreases |args|
  {
    if args != [] {
      ParseArgsSpec(args[1..]);
      if '=' in args[0] {
        ParseArgCut(args[0]);
      }
    }
  }

  /** The pair of an argument cuts it at its first '='. */
  lemma ParseArgCut(a: string)
    requires '=' in a
    ensures var i := FirstIndex(a, '='); ParseArg(a) == Some((a[..i], a[i + 1..]))
  {
    var (k, v) := ParseArg(a).value;
    assert a[..|k|] == k && a[|k|] == '=' && a[|k| + 1..] == v;
  }

  /** Reference: the arguments that contain '=', each cut at its first '='. */
  function ArgsWithEq(args: seq<string>): seq<(string, string)>
    decreases |args|
  {
    if args == [] then []
    else if '=' in args[0] then
      var i := FirstIndex(args[0], '=');
      [(args[0][..i], args[0][i + 1..])] + ArgsWithEq(args[1..])
    else ArgsWithEq(args[1..])
  }

  function FirstIndex(s: string, c: char): (i: nat)
    requires c in s
    ensures i < |s| && s[i] == c && c !in s[..i]
    decreases |s|
  {
    if s[0] == c then 0
    else
      var j := FirstIndex(s[1..], c);
      assert s[..j + 1] == [s[0]] + s[1..][..j];
      j + 1
  }
}

=== FILE: text.dfy ===
/**
 The Python `str` built-ins the utilities lean on (`strip`, `split`, `join`,
 `split(sep)`, `upper`, `lower`, `replace`), restricted to ASCII, together with
 the facts about them that the rest of the model uses.
 */
module Text {

  /** Python's `str.isspace()` on ASCII: space, tab through carriage return,
      and the four information separators U+001C..U+001F. */
  predicate IsSpace(c: char) {
    c == ' ' || ('\t' <= c <= '\r') || ('\U{1C}' <= c <= '\U{1F}')
  }

  predicate AllSpace(s: string) {
    forall i :: 0 <= i < |s| ==> IsSpace(s[i])
  }

  predicate NoSpace(s: string) {
    forall i :: 0 <= i < |s| ==> !IsSpace(s[i])
  }

  predicate IsDigit(c: char) {
    '0' <= c <= '9'
  }

  predicate AllDigits(s: string) {
    forall i :: 0 <= i < |s| ==> IsDigit(s[i])
  }

  predicate IsAsciiLetter(c: char) {
    'A' <= c <= 'Z' || 'a' <= c <= 'z'
  }

  // ---------------------------------------------------------------------------
  // strip()

  /** `s.lstrip()`: drops the longest all-space prefix. */
  function LStrip(s: string): (r: string)
    ensures |r| <= |s|
    ensures r == [] || !IsSpace(r[0])
    decreases |s|
  {
    if s != [] && IsSpace(s[0]) then LStrip(s[1..]) else s
  }

  /** What lstrip() removed is all whitespace, and what it kept is a suffix. */
  lemma {:induction false} LStripParts(s: string)
    ensures var k := |s| - |LStrip(s)|; s == s[..k] + LStrip(s) && AllSpace(s[..k])
    decreases |s|
  {
    if s != [] && IsSpace(s[0]) {
      LStripParts(s[1..]);
      var k := |s| - |LStrip(s)|;
      assert s[1..][..k - 1] == s[1..k];
    }
  }

  /** `s.rstrip()`: drops the longest all-space suffix. */
  function RStrip(s: string): (r: string)
    ensures |r| <= |s|
    ensures r == [] || (!IsSpace(r[|r| - 1]) && r[0] == s[0])
    decreases |s|
  {
    if s != [] && IsSpace(s[|s| - 1]) then RStrip(s[..|s| - 1]) else s
  }

  /** What rstrip() removed is all whitespace, and what it kept is a prefix. */
  lemma {:induction false} RStripParts(s: string)
    ensures var r := RStrip(s); s == r + s[|r|..] && AllSpace(s[|r|..])
    decreases |s|
  {
    if s != [] && IsSpace(s[|s| - 1]) {
      RStripParts(s[..|s| - 1]);
      var r := RStrip(s);
      assert s[|r|..] == s[..|s| - 1][|r|..] + [s[|s| - 1]];
    }
  }

  /** `s.strip()`. */
  function Strip(s: string): (r: string)
    ensures |r| <= |s|
    ensures r == [] || (!IsSpace(r[0]) && !IsSpace(r[|r| - 1]))
  {
    RStrip(LStrip(s))
  }

  /** strip() leaves nothing exactly when the text is all whitespace. */
  lemma StripEmpty(s: string)
    ensures Strip(s) == [] <==> AllSpace(s)
  {
    LStripParts(s);
    var l := LStrip(s);
    if l == [] {
      assert s[..|s|] == s;
    } else {
      assert s[|s| - |l|] == l[0];
      RStripParts(l);
    }
  }

  /** strip() keeps only characters of its input. */
  lemma StripChars(s: string)
    ensures forall c :: c in Strip(s) ==> c in s
  {
    LStripParts(s);
    RStripParts(LStrip(s));
  }

  /** Every string is its stripped core between two blank runs. */
  lemma StripParts(s: string) returns (p: string, q: string)
    ensures AllSpace(p) && AllSpace(q) && s == p + Strip(s) + q
  {
    LStripParts(s);
    var k := |s| - |LStrip(s)|;
    RStripParts(LStrip(s));
    var l := LStrip(s);
    var r := RStrip(l);
    p, q := s[..k], l[|r|..];
    assert s == p + l && l == r + q;
    assert s == p + r + q;
  }

  lemma {:induction false} LStripSpacePrefix(a: string, b: string)
    requires AllSpace(a)
    ensures LStrip(a + b) == LStrip(b)
    decreases |a|
  {
    if a == [] {
      assert a + b == b;
    } else {
      assert (a + b)[0] == a[0];
      assert (a + b)[1..] == a[1..] + b;
      LStripSpacePrefix(a[1..], b);
    }
  }

  lemma {:induction false} RStripSpaceSuffix(a: string, b: string)
    requires AllSpace(b)
    ensures RStrip(a + b) == RStrip(a)
    decreases |b|
  {
    if b == [] {
      assert a + b == a;
    } else {
      var b' := b[..|b| - 1];
      assert (a + b)[|a + b| - 1] == b[|b| - 1];
      assert (a + b)[..|a + b| - 1] == a + b';
      RStripSpaceSuffix(a, b');
    }
  }

  /** Strip removes exactly the whitespace around a word-bounded core. */
  lemma StripAround(a: string, w: string, b: string)
    requires AllSpace(a) && AllSpace(b)
    requires w == [] || (!IsSpace(w[0]) && !IsSpace(w[|w| - 1]))
    ensures Strip(a + w + b) == w
  {
    assert a + w + b == a + (w + b);
    LStripSpacePrefix(a, w + b);
    if w == [] {
      assert w + b == b;
      LStripParts(b);
      assert LStrip(b) == [];
    } else {
      assert (w + b)[0] == w[0];
      assert LStrip(w + b) == w + b;
      RStripSpaceSuffix(w, b);
    }
  }

  // ---------------------------------------------------------------------------
  // split() with no separator, and join()

  /** Length of the leading run of non-space characters. */
  function WordLen(s: string): (n: nat)
    ensures n <= |s|
    ensures s != [] && !IsSpace(s[0]) ==> n >= 1
    decreases |s|
  {
    if s == [] || IsSpace(s[0]) then 0 else 1 + WordLen(s[1..])
  }

  lemma {:induction false} WordLenParts(s: string)
    ensures var n := WordLen(s); NoSpace(s[..n]) && (n == |s| || IsSpace(s[n]))
    decreases |s|
  {
    if s != [] && !IsSpace(s[0]) {
      WordLenParts(s[1..]);
      var n := WordLen(s);
      assert s[..n] == [s[0]] + s[1..][..n - 1];
    }
  }

  predicate Words(ws: seq<string>) {
    forall i :: 0 <= i < |ws| ==> ws[i] != [] && NoSpace(ws[i])
  }

  /** `s.split()`: the maximal runs of non-space characters, in order. */
  function SplitWs(s: string): (ws: seq<string>)
    decreases |s|
  {
    var t := LStrip(s);
    if t == [] then []
    else
      var n := WordLen(t);
      [t[..n]] + SplitWs(t[n..])
  }

  /** Every piece split() returns is a non-empty run of non-space characters. */
  lemma {:induction false} SplitWsWords(s: string)
    ensures Words(SplitWs(s))
    decreases |s|
  {
    var t := LStrip(s);
    if t != [] {
      var n := WordLen(t);
      WordLenParts(t);
      SplitWsWords(t[n..]);
      var ws := SplitWs(s);
      assert ws == [t[..n]] + SplitWs(t[n..]);
      forall i | 0 <= i < |ws| ensures ws[i] != [] && NoSpace(ws[i]) {
        if i > 0 {
          assert ws[i] == SplitWs(t[n..])[i - 1];
        }
      }
    }
  }

  /** split() finds no word exactly when the text is all whitespace. */
  lemma SplitWsEmpty(s: string)
    ensures SplitWs(s) == [] <==> AllSpace(s)
  {
    LStripParts(s);
    var t := LStrip(s);
    if t == [] {
      assert s[..|s|] == s;
    } else {
      assert s[|s| - |t|] == t[0];
    }
  }

  /** `sep.join(parts)`. */
  function Join(sep: string, parts: seq<string>): string
  {
    if |parts| == 0 then []
    else if |parts| == 1 then parts[0]
    else parts[0] + sep + Join(sep, parts[1..])
  }

  lemma SplitWsSpacePrefix(a: string, b: string)
    requires AllSpace(a)
    ensures SplitWs(a + b) == SplitWs(b)
  {
    LStripSpacePrefix(a, b);
  }

  lemma {:induction false} WordLenOf(w: string, rest: string)
    requires NoSpace(w)
    requires rest == [] || IsSpace(rest[0])
    ensures WordLen(w + rest) == |w|
    decreases |w|
  {
    if w == [] {
      assert w + rest == rest;
    } else {
      assert (w + rest)[0] == w[0];
      assert (w + rest)[1..] == w[1..] + rest;
      WordLenOf(w[1..], rest);
    }
  }

  lemma {:induction false} WordLenSpaceSuffix(x: string, t: string)
    requires AllSpace(t)
    ensures WordLen(x + t) == WordLen(x)
    decreases |x|
  {
    if x == [] {
      assert x + t == t;
    } else {
      assert (x + t)[0] == x[0];
      if !IsSpace(x[0]) {
        assert (x + t)[1..] == x[1..] + t;
        WordLenSpaceSuffix(x[1..], t);
      }
    }
  }

  lemma JoinFirst(sep: string, w: string, rest: seq<string>)
    requires |rest| >= 1
    ensures Join(sep, [w] + rest) == w + sep + Join(sep, rest)
  {
    assert ([w] + rest)[1..] == rest;
  }

  /** A word followed by whitespace (or nothing) is split off as the first word. */
  lemma SplitWsStep(w: string, rest: string)
    requires w != [] && NoSpace(w)
    requires rest == [] || IsSpace(rest[0])
    ensures SplitWs(w + rest) == [w] + SplitWs(rest)
  {
    var s := w + rest;
    assert s[0] == w[0];
    assert LStrip(s) == s;
    WordLenOf(w, rest);
    assert s[..|w|] == w;
    assert s[|w|..] == rest;
  }

  lemma SplitWsLast(w: string, tail: string)
    requires w != [] && NoSpace(w) && AllSpace(tail)
    ensures SplitWs(w + tail) == [w]
  {
    SplitWsStep(w, tail);
    SplitWsEmpty(tail);
  }

  lemma SplitWsSeparated(w: string, sep: string, r: string)
    requires w != [] && NoSpace(w) && sep != [] && AllSpace(sep)
    ensures SplitWs(w + (sep + r)) == [w] + SplitWs(r)
  {
    SplitWsStep(w, sep + r);
    SplitWsSpacePrefix(sep, r);
  }

  /** split() undoes join() over a non-empty whitespace separator, and ignores trailing whitespace. */
  lemma {:induction false} SplitWsJoin(ws: seq<string>, sep: string, tail: string)
    requires Words(ws)
    requires sep != [] && AllSpace(sep)
    requires AllSpace(tail)
    ensures SplitWs(Join(sep, ws) + tail) == ws
    decreases |ws|
  {
    if |ws| == 0 {
      assert Join(sep, ws) + tail == tail;
      SplitWsEmpty(tail);
    } else if |ws| == 1 {
      SplitWsLast(ws[0], tail);
    } else {
      SplitWsJoin(ws[1..], sep, tail);
      SplitWsJoinStep(ws, sep, tail);
    }
  }

  lemma SplitWsJoinStep(ws: seq<string>, sep: string, tail: string)
    requires |ws| >= 2 && Words(ws) && sep != [] && AllSpace(sep)
    ensures SplitWs(Join(sep, ws) + tail) == [ws[0]] + SplitWs(Join(sep, ws[1..]) + tail)
  {
    var w, j := ws[0], Join(sep, ws[1..]);
    assert Join(sep, ws) == w + sep + j;
    assert w + sep + j + tail == w + (sep + (j + tail));
    SplitWsSeparated(w, sep, j + tail);
  }

  lemma {:induction false} SplitWsSpaceSuffix(y: string, t: string)
    requires AllSpace(t)
    ensures SplitWs(y + t) == SplitWs(y)
    decreases |y|
  {
    LStripParts(y);
    var l := LStrip(y);
    var k := |y| - |l|;
    assert y + t == y[..k] + (l + t);
    SplitWsSpacePrefix(y[..k], l + t);
    SplitWsSpacePrefix(y[..k], l);
    if l == [] {
      assert l + t == t;
      SplitWsEmpty(t);
    } else {
      SplitWsWordSuffix(l, t);
    }
  }

  /** The inductive step of `SplitWsSpaceSuffix`, for text starting with a word. */
  lemma {:induction false} SplitWsWordSuffix(l: string, t: string)
    requires AllSpace(t) && l != [] && !IsSpace(l[0])
    ensures SplitWs(l + t) == SplitWs(l)
    decreases |l|, 0
  {
    var n := WordLen(l);
    WordLenParts(l);
    var w := l[..n];
    assert l == w + l[n..];
    SplitWsStep(w, l[n..]);
    if n == |l| {
      assert l + t == w + t;
      SplitWsLast(w, t);
      SplitWsEmpty(l[n..]);
    } else {
      assert l + t == w + (l[n..] + t);
      assert (l[n..] + t)[0] == l[n];
      SplitWsStep(w, l[n..] + t);
      SplitWsSpaceSuffix(l[n..], t);
    }
  }

  /** Stripping first does not change the words split() finds. */
  lemma SplitWsStrip(s: string)
    ensures SplitWs(Strip(s)) == SplitWs(s)
  {
    LStripParts(s);
    var l := LStrip(s);
    SplitWsSpacePrefix(s[..|s| - |l|], l);
    RStripParts(l);
    var r := RStrip(l);
    SplitWsSpaceSuffix(r, l[|r|..]);
  }

  /** Joining words with one space puts a lone space between words and none at the ends. */
  lemma {:induction false} JoinSingleSpaced(ws: seq<string>)
    requires Words(ws)
    ensures var s := Join(" ", ws);
      (s == [] <==> ws == []) &&
      (s != [] ==> !IsSpace(s[0]) && !IsSpace(s[|s| - 1])) &&
      forall i :: 0 <= i < |s| && IsSpace(s[i]) ==>
        s[i] == ' ' && 0 < i < |s| - 1 && !IsSpace(s[i + 1])
  {
    if |ws| >= 2 {
      var w := ws[0];
      var j := Join(" ", ws[1..]);
      JoinSingleSpaced(ws[1..]);
      var s := Join(" ", ws);
      assert s == w + " " + j;
      forall i | 0 <= i < |s| && IsSpace(s[i])
        ensures s[i] == ' ' && 0 < i < |s| - 1 && !IsSpace(s[i + 1])
      {
        if i == |w| {
          assert s[i + 1] == j[0];
        } else if i > |w| {
          assert s[i] == j[i - |w| - 1];
          if i + 1 < |s| {
            assert s[i + 1] == j[i - |w|];
          }
        }
      }
    }
  }

  // ---------------------------------------------------------------------------
  // split(sep) for a one-character separator

  /** `s.split(c)`: always at least one piece; no piece holds the separator. */
  function SplitOn(s: string, c: char): (r: seq<string>)
    ensures |r| >= 1
    ensures forall i :: 0 <= i < |r| ==> c !in r[i]
    decreases |s|
  {
    if s == [] then [[]]
    else if s[0] == c then [[]] + SplitOn(s[1..], c)
    else
      var rest := SplitOn(s[1..], c);
      [[s[0]] + rest[0]] + rest[1..]
  }

  /** Joining the pieces back with the separator gives the original text. */
  lemma {:induction false} JoinSplitOn(s: string, c: char)
    ensures Join([c], SplitOn(s, c)) == s
    decreases |s|
  {
    if s != [] {
      var rest := SplitOn(s[1..], c);
      JoinSplitOn(s[1..], c);
      if s[0] == c {
        JoinFirst([c], [], rest);
      } else if |rest| == 1 {
        assert Join([c], rest) == rest[0];
      } else {
        var r := [[s[0]] + rest[0]] + rest[1..];
        assert r[1..] == rest[1..];
        assert rest == [rest[0]] + rest[1..];
        JoinFirst([c], rest[0], rest[1..]);
      }
    }
  }

  lemma {:induction false} SplitOnNoSep(a: string, c: char)
    requires c !in a
    ensures SplitOn(a, c) == [a]
    decreases |a|
  {
    if a != [] {
      SplitOnNoSep(a[1..], c);
      assert [a[0]] + a[1..] == a;
    }
  }

  lemma {:induction false} SplitOnAt(a: string, c: char, b: string)
    requires c !in a
    ensures SplitOn(a + [c] + b, c) == [a] + SplitOn(b, c)
    decreases |a|
  {
    var s := a + [c] + b;
    if a == [] {
      assert s[1..] == b;
    } else {
      assert s[1..] == a[1..] + [c] + b;
      SplitOnAt(a[1..], c, b);
      assert [a[0]] + a[1..] == a;
    }
  }

  /** split(c) undoes join with c when no piece holds c. */
  lemma {:induction false} SplitOnJoin(parts: seq<string>, c: char)
    requires |parts| >= 1
    requires forall i :: 0 <= i < |parts| ==> c !in parts[i]
    ensures SplitOn(Join([c], parts), c) == parts
    decreases |parts|
  {
    if |parts| == 1 {
      SplitOnNoSep(parts[0], c);
    } else {
      SplitOnAt(parts[0], c, Join([c], parts[1..]));
      SplitOnJoin(parts[1..], c);
      assert parts == [parts[0]] + parts[1..];
    }
  }

  // ---------------------------------------------------------------------------
  // upper(), lower(), replace(c, '')

  function UpperChar(c: char): char {
    if 'a' <= c <= 'z' then (c as int - 32) as char else c
  }

  function LowerChar(c: char): char {
    if 'A' <= c <= 'Z' then (c as int + 32) as char else c
  }

  /** `s.upper()` on ASCII letters. */
  function Upper(s: string): (r: string)
    ensures |r| == |s|
  {
    seq(|s|, i requires 0 <= i < |s| => UpperChar(s[i]))
  }

  /** `s.lower()` on ASCII letters. */
  function Lower(s: string): (r: string)
    ensures |r| == |s|
  {
    seq(|s|, i requires 0 <= i < |s| => LowerChar(s[i]))
  }

  /** `s.replace(c, '')`. */
  function RemoveAll(s: string, c: char): (r: string)
    ensures c !in r
    ensures |r| <= |s|
  {
    if s == [] then []
    else if s[0] == c then RemoveAll(s[1..], c)
    else [s[0]] + RemoveAll(s[1..], c)
  }
}
